=== FILE: README.md ===
# command-circuit, modelled in Dafny

A model of the logic core of command-circuit, a desktop helper app. The app watches the
clipboard for Linear issue links and GitHub pull-request links, fetches their titles, and keeps
a history of them. Each history entry can copy its markdown link, its PR name or its branch name.
The app also has small text tools: Unicode text stylers, a Discord timestamp token builder and a
stand-up note composer.

Every operation is a pure function over immutable datatypes. Strings are code-point sequences
(`seq<char>`).
- Clipboard text, fetch responses, the current time and the store contents are inputs.
- Writes to the clipboard and the store are outputs.
- Alerts are values that an event returns.

Modules, one per source file:
- `ParseClipboard`: the two regular expressions, as explicit leftmost, greedy matchers with
  completeness lemmas.
- `UrlParser`: the part of the WHATWG URL parser (`new URL(text).pathname`) that the
  GitHub fetcher relies on, for the special network schemes.
- `GitHubApi`, `LinearApi`: the item builders. `LinearApi` includes the branch-name slug and
  the JSON body of the GraphQL request (`JsonText`).
- `ConfigStore`: the `useConfig` operations on a key-to-value map.
- `ConfigContext`: credential loading, validation and saving.
- `ClipboardWatcher`: one poll of the watcher as a transition function, plus the click, remove
  and clear events.
- `ClipboardStatus`: the status display table.
- `HistoryPanel`: the copy buttons and the ordering of the rows.
- `UnicodeMappings`: the text stylers.
- `DiscordFormats`: the timestamp token.
- `GoodMorning`: the stand-up note.

Shared pieces:
- `JsText` states the JavaScript string built-ins the core uses (`trim`, `\s`, `split`, number
  printing).
- `HistoryItems`, `Requests` and `Wrappers` hold the shared records.

## Model

| member | source | states |
|---|---|---|
| JsText.Trim | src/features/clipboard-watcher/utils/linear-api.ts:45 | `trim` removes exactly the maximal leading and trailing ECMAScript white space; the result is a slice of the input that neither starts nor ends with white space |
| JsText.TrimOfUntrimmed | src/features/good-morning/good-morning.tsx:118 | text that neither starts nor ends with white space is its own trim |
| JsText.Split | src/features/clipboard-watcher/utils/github-api.ts:5-7 | `split("/")` returns at least one piece; no piece holds the separator; joining the pieces gives back the text |
| JsText.SplitOfJoin | src/features/clipboard-watcher/utils/github-api.ts:5-7 | `split` undoes `join` when no piece holds the separator |
| JsText.NatToStringValue | src/features/discord-timestamp/utils/discord-formats.ts:49 | the decimal digits a number prints as have that number as their value |
| JsText.ParseIntOfIntToString | src/features/discord-timestamp/utils/discord-formats.ts:49 | printing an integer in a template literal and reading it back gives the integer, negative ones included |
| UrlParser.StripC0 | src/features/clipboard-watcher/utils/github-api.ts:4 | `new URL` first strips leading and trailing C0 controls and spaces: the result is a slice of the text that neither starts nor ends with one, and only such characters lie around it |
| UrlParser.DropTabsAndNewlines | src/features/clipboard-watcher/utils/github-api.ts:4 | then it removes every tab, line feed and carriage return: a single character is dropped exactly when it is one of them, and text without them is unchanged |
| UrlParser.DropConcat | src/features/clipboard-watcher/utils/github-api.ts:4 | the removal works piece by piece over concatenation, so, with the single-character case, it keeps every other character in order |
| UrlParser.Pathname | src/features/clipboard-watcher/utils/github-api.ts:4 | `new URL(text).pathname`, or none where the constructor throws or the host is percent-encoded or bracketed: a pathname starts with `/` and holds only `/` and characters outside the path percent-encode set |
| UrlParser.PaddingIgnored | src/features/clipboard-watcher/utils/github-api.ts:4 | C0 controls and spaces around the text do not change the pathname, nor whether the URL parses |
| UrlParser.ParseOfParts | src/features/clipboard-watcher/utils/github-api.ts:4 | for `https:` text, every run of `/` and `\` after the scheme is skipped, the authority runs to the next slash, `?` or `#`, parsing fails exactly when the authority is invalid, and otherwise the rest is the path |
| UrlParser.PathnameOfParts | src/features/clipboard-watcher/utils/github-api.ts:4 | for such text with no tab, newline or trailing padding, the pathname exists exactly when the authority is valid, and is the serialized path of the rest |
| UrlParser.UserinfoIgnored | src/features/clipboard-watcher/utils/github-api.ts:4 | credentials before the last `@` do not decide whether the URL parses |
| UrlParser.HostAndPort | src/features/clipboard-watcher/utils/github-api.ts:4 | a host as written, `:` and a port are accepted exactly when the host is non-empty without forbidden domain code points (so `https://a b/` throws) and the port is decimal digits, possibly none, of value at most 65535 |
| UrlParser.EncodedHostRejected | src/features/clipboard-watcher/utils/github-api.ts:4 | a host that opens with `%` or `[` is rejected, since the host is checked before any percent-decoding and bracketed hosts are not parsed |
| UrlParser.ParentSegment | src/features/clipboard-watcher/utils/github-api.ts:4 | a `..` segment drops the last path segment, and at the end of the input leaves an empty one |
| UrlParser.CurrentSegment | src/features/clipboard-watcher/utils/github-api.ts:4 | a `.` segment is skipped, and at the end of the input leaves an empty one |
| UrlParser.EncodeIdempotent | src/features/clipboard-watcher/utils/github-api.ts:4 | percent-encoding a path segment twice encodes it once |
| UrlParser.PathListOfPlain | src/features/clipboard-watcher/utils/github-api.ts:4 | a serialized path of plain segments reads back as the same segments |
| UrlParser.PathnameOfUrl | src/features/clipboard-watcher/utils/github-api.ts:4 | `https:`, any run of slashes (so `https:///x` parses), a valid host and a path of plain segments: the pathname is exactly that path |
| UrlParser.PathnameOfQueryOnly | src/features/clipboard-watcher/utils/github-api.ts:4 | a valid host followed directly by `?` gives the pathname `/` |
| UrlParser.PathnameIsFixedPoint | src/features/clipboard-watcher/utils/github-api.ts:4 | a pathname behind `https://` and any valid host parses to itself |
| UrlParser.SplitPathChars | src/features/clipboard-watcher/utils/github-api.ts:5-7 | splitting a pathname on `/` gives pieces of path characters only |
| GitHubApi.GetGitHubMetadata | src/features/clipboard-watcher/utils/github-api.ts:3-14 | fails with `Invalid URL` exactly when the URL model finds no pathname, which is where `new URL` throws apart from percent-encoded and bracketed hosts; the owner is always present; an id implies a repository; owner, repository and id hold only path characters: no `/`, white space or control character |
| GitHubApi.MetadataOfPrUrl | src/features/clipboard-watcher/utils/github-api.ts:3-14 | on `https://github.com/<owner>/<repo>/pull/<n>` whose three parts are plain path segments, the owner, repository and number come back exactly |
| GitHubApi.MetadataOfPaddedPrUrl | src/features/clipboard-watcher/utils/github-api.ts:3-14 | the same with C0 controls and spaces around the URL |
| GitHubApi.PathnameOfPrUrl | src/features/clipboard-watcher/utils/github-api.ts:4 | the path of a pull-request URL with plain segments is everything after the host |
| GitHubApi.SplitOfPrPath | src/features/clipboard-watcher/utils/github-api.ts:5-7 | the path splits into `""`, owner, repository, `pull` and the number |
| GitHubApi.MetadataOfQueryOnlyUrl | src/features/clipboard-watcher/utils/github-api.ts:4-7 | a URL whose valid host is followed by `?` has path `/`: the owner is `""`, and the repository and id are `undefined` |
| GitHubApi.GetPR | src/features/clipboard-watcher/utils/github-api.ts:16-48 | a malformed URL fails with `Invalid URL` even without a token; otherwise a missing or empty token fails with `GitHub token not found!`; success needs both; it builds the GET request to `/repos/{owner}/{repo}/pulls/{id}` with exactly three headers: `Content-Type: application/vnd.github+json`, `Bearer` authorization and `X-GitHub-Api-Version: 2022-11-28`, and no body; and the item's id, type, label, url and markdown, with no branch or PR name |
| GitHubApi.PrRequest | src/features/clipboard-watcher/utils/github-api.ts:26-37 | the GET request carries exactly the three headers `getPR` sets, with their values, and no body |
| GitHubApi.GetPROfPrUrl | src/features/clipboard-watcher/utils/github-api.ts:26-47 | for a pull-request URL with plain segments and a token, the request and the item carry exactly that owner, repository and number |
| ParseClipboard.LinearMatch | src/features/clipboard-watcher/utils/parse-clipboard.ts:8-15 | `text.match(linearRegex)` finds the leftmost position where a team prefix and a digit start, with its maximal digit run; there is no match exactly when no such position exists |
| ParseClipboard.GitHubMatch | src/features/clipboard-watcher/utils/parse-clipboard.ts:9-16 | `text.match(gitHubRegex)` finds the leftmost position where the pull-request expression matches; there is no match exactly when it matches nowhere |
| ParseClipboard.RunAt | src/features/clipboard-watcher/utils/parse-clipboard.ts:10 | a `+` repetition of a character class reads the maximal non-empty run, and fails exactly when the next character is outside the class |
| ParseClipboard.PrMatchAt | src/features/clipboard-watcher/utils/parse-clipboard.ts:10 | a match found at a position lays out the origin, owner, `/`, repository, `/pull/` and the number there, each run maximal |
| ParseClipboard.PrMatchAtComplete | src/features/clipboard-watcher/utils/parse-clipboard.ts:10 | every greedy layout at a position is the one the matcher reports there |
| ParseClipboard.GreedyPrMatchText | src/features/clipboard-watcher/utils/parse-clipboard.ts:10-25 | the matched text is `https://github.com/<owner>/<repo>/pull/<n>` built from the captures |
| ParseClipboard.ParseClipboard | src/features/clipboard-watcher/utils/parse-clipboard.ts:12-34 | text not starting with `https://` gives null; a Linear id always has the key shape; a GitHub id is `PR-` and the number of the leftmost pull-request match, and only when no Linear key occurs |
| ParseClipboard.ParseClipboardIdFromMetadata | src/features/clipboard-watcher/utils/parse-clipboard.ts:24-30 | the GitHub id is `PR-` plus segment 4 that `getGitHubMetadata` reads from the matched text |
| ParseClipboard.ParseClipboardNone | src/features/clipboard-watcher/utils/parse-clipboard.ts:13-33 | null exactly when the text does not start with `https://`, or holds neither a key nor a pull-request URL |
| ParseClipboard.ParseClipboardLinear | src/features/clipboard-watcher/utils/parse-clipboard.ts:18-23 | a key anywhere in an `https://` text wins over any pull-request URL, and the leftmost key is returned |
| ParseClipboard.ParseClipboardGitHub | src/features/clipboard-watcher/utils/parse-clipboard.ts:24-31 | with no key, the leftmost pull-request match gives `PR-` and its number |
| ParseClipboard.ParseClipboardOfPrText | src/features/clipboard-watcher/utils/parse-clipboard.ts:12-31 | a pull-request URL built from any valid captures parses back to `PR-` and its number unless it holds a key |
| ParseClipboard.NoTeamLetterNoKey | src/features/clipboard-watcher/utils/parse-clipboard.ts:8 | text with neither `E` nor `P` holds no Linear key |
| JsonText.EscapeChar | src/features/clipboard-watcher/utils/linear-api.ts:23 | a character is written as itself exactly when JSON does not require escaping it; otherwise it is a backslash escape of at most six characters |
| JsonText.Escape | src/features/clipboard-watcher/utils/linear-api.ts:23 | escaping never shortens, and leaves text without quotes, backslashes or control characters unchanged |
| JsonText.Quote | src/features/clipboard-watcher/utils/linear-api.ts:23 | `JSON.stringify` of a string is delimited by double quotes |
| JsonText.UnescapeEscape | src/features/clipboard-watcher/utils/linear-api.ts:23 | decoding a JSON string body gives back the string that `JSON.stringify` escaped |
| LinearApi.QueryOfIssueBody | src/features/clipboard-watcher/utils/linear-api.ts:12-23 | the request body carries the GraphQL query for any key, whatever characters the key holds |
| LinearApi.IssueBodyContainsKey | src/features/clipboard-watcher/utils/linear-api.ts:12-23 | a key that needs no JSON escaping appears verbatim in the body, inside `issue(id: "…")` |
| LinearApi.EscapeConcat | src/features/clipboard-watcher/utils/linear-api.ts:23 | JSON escaping distributes over concatenation |
| LinearApi.KeepSlugInput | src/features/clipboard-watcher/utils/linear-api.ts:46 | removing `[^a-zA-Z0-9\s-]` leaves only ASCII letters, digits, white space and hyphens |
| LinearApi.HyphenateSpaces | src/features/clipboard-watcher/utils/linear-api.ts:47 | replacing white-space runs with `-` leaves no white space and adds only hyphens |
| LinearApi.HyphenateRun | src/features/clipboard-watcher/utils/linear-api.ts:47 | a maximal white-space run becomes exactly one hyphen and the text around it is kept |
| LinearApi.LowerAscii | src/features/clipboard-watcher/utils/linear-api.ts:48 | lower-casing keeps the length and acts on each character |
| LinearApi.SlugChars | src/features/clipboard-watcher/utils/linear-api.ts:44-48 | a slug holds only `a-z`, `0-9` and `-` |
| LinearApi.AlnumsOfSlug | src/features/clipboard-watcher/utils/linear-api.ts:44-48 | the slug keeps every ASCII letter and digit of the title, in order, lower-cased |
| LinearApi.AlnumsOfTrim | src/features/clipboard-watcher/utils/linear-api.ts:45 | trimming drops no letter or digit |
| LinearApi.AlnumsOfKeep | src/features/clipboard-watcher/utils/linear-api.ts:46 | the character filter drops no letter or digit |
| LinearApi.AlnumsOfHyphenate | src/features/clipboard-watcher/utils/linear-api.ts:47 | hyphenation drops no letter or digit |
| LinearApi.SlugIdempotent | src/features/clipboard-watcher/utils/linear-api.ts:44-48 | slugging a slug changes nothing |
| LinearApi.GetIssue | src/features/clipboard-watcher/utils/linear-api.ts:4-51 | a missing or empty token fails with `Linear token not found!` before any request; otherwise it POSTs the JSON body to the GraphQL endpoint with the raw token as authorization, and builds the item with id = key, type `linear`, the title, the url, the markdown `[key - title](url)`, the PR name `key - title` and the branch name `key-` followed by the slug of the title |
| LinearApi.GetIssueBranchName | src/features/clipboard-watcher/utils/linear-api.ts:44-48 | the branch name is the key with its case kept, a hyphen, and a slug of lower-case letters, digits and hyphens |
| ConfigStore.ListAt | src/hooks/useConfig.ts:20-58 | `(await store.get(key)) ?? []`: a missing key reads as the empty list |
| ConfigStore.Insert | src/hooks/useConfig.ts:17-28 | no store means no effect; only the key's entry can change, and every other key keeps its value |
| ConfigStore.InsertList | src/hooks/useConfig.ts:20-25 | the list is unchanged when its id is already present; otherwise the item is appended at the end |
| ConfigStore.InsertIntoEmpty | src/hooks/useConfig.ts:20-25 | inserting into an empty or missing list leaves just that item |
| ConfigStore.InsertKeepsUnique | src/hooks/useConfig.ts:20-25 | `insert` keeps the ids of the list unique |
| ConfigStore.InsertIdempotent | src/hooks/useConfig.ts:22-25 | inserting the same item twice is inserting it once |
| ConfigStore.InsertFirstWins | src/hooks/useConfig.ts:22-24 | once an id is stored, inserting any other entry with that id changes nothing |
| ConfigStore.Without | src/hooks/useConfig.ts:59 | `filter` keeps exactly the entries whose id differs |
| ConfigStore.WithoutKeepsUnique | src/hooks/useConfig.ts:59 | removal keeps ids unique |
| ConfigStore.WithoutAbsent | src/hooks/useConfig.ts:59 | removing an absent id leaves the list unchanged |
| ConfigStore.WithoutConcat | src/hooks/useConfig.ts:59 | the kept entries stay in their order |
| ConfigStore.Remove | src/hooks/useConfig.ts:55-63 | no store means no effect; a missing key becomes `[]`; a non-list value is left as it is (`filter` throws there); otherwise the list becomes exactly the old list without the entries of that id; other keys are untouched |
| ConfigStore.RemoveUndoesInsert | src/hooks/useConfig.ts:17-63 | `remove` undoes an `insert` of a new id |
| ConfigStore.Clear | src/hooks/useConfig.ts:47-53 | no store means no effect; otherwise the key is deleted and the rest is kept |
| ConfigStore.Get | src/hooks/useConfig.ts:38-45 | `undefined` exactly before the store is loaded; a missing key reads as `[]` |
| ConfigStore.GetAfterClear | src/hooks/useConfig.ts:41-50 | after `clear`, `get` reads the empty list |
| ConfigStore.Update | src/hooks/useConfig.ts:30-36 | resolves to `[]` exactly when there is no store; otherwise `get` reads the new value and every other key reads as before |
| ConfigStore.DefaultsHold | src/hooks/useConfig.ts:68-79 | the seeded store has an empty history, empty credentials and no `today` |
| ConfigContext.ValidateConfig | src/context/config-context.tsx:75-88 | each flag holds exactly when its credential is defined and non-empty; `valid` is the conjunction of the two |
| ConfigContext.Normalise | src/context/config-context.tsx:92-93 | a falsy stored value becomes `""` and a stored string is kept |
| ConfigContext.GetCredentials | src/context/config-context.tsx:90-100 | loaded credentials are never `undefined`; without a store both are `""` |
| ConfigContext.SaveCredentials | src/context/config-context.tsx:102-110 | saving needs a loaded store |
| ConfigContext.GetAfterSave | src/context/config-context.tsx:92-106 | loading after saving reads back the saved strings and leaves every other key alone |
| ConfigContext.ValidAfterSave | src/context/config-context.tsx:76-106 | saved credentials validate exactly when both strings are non-empty |
| ConfigContext.ValidMeansTruthyTokens | src/context/config-context.tsx:76-79 | for string credentials, validity is the token check the two fetchers make |
| ConfigContext.InitialCredentialsInvalid | src/context/config-context.tsx:38-49 | the initial flags say valid, yet validating the initial `undefined` credentials fails both |
| ConfigContext.ToggleConfigDialog | src/context/config-context.tsx:71-73 | the toggle negates the open flag |
| ConfigContext.ToggleTwice | src/context/config-context.tsx:71-73 | toggling twice restores the flag |
| PrSample.SampleParses | src/features/clipboard-watcher/utils/parse-clipboard.ts:12-31 | `https://x?https://github.com/o/r/pull/5` parses as `PR-5` |
| PrSample.SampleFetchedId | src/features/clipboard-watcher/utils/github-api.ts:4-41 | `getPR` on that whole text reads the path `/` and builds the id `PR-undefined` |
| ClipboardWatcher.PollWith | src/features/clipboard-watcher/clipboard-watcher.tsx:41-99 | invalid credentials give `credentials` with no fetch; an unreadable or empty clipboard, or status `copied` or `error`, changes nothing; no match resets to idle; a known id gives `exists` and highlights it; a new id gives `match` and one fetch, a Linear fetch for the parsed key |
| ClipboardWatcher.Poll | src/features/clipboard-watcher/clipboard-watcher.tsx:85-86 | corrected: the pull-request fetch gets the matched URL, whose metadata id is the parsed number |
| ClipboardWatcher.PollAsWritten | src/features/clipboard-watcher/clipboard-watcher.tsx:86 | as written: the pull-request fetch gets the whole clipboard text |
| ClipboardWatcher.IssueSettled | src/features/clipboard-watcher/clipboard-watcher.tsx:67-82 | a Linear fetch always raises an alert; a success alert exactly on success, which inserts the item; a failure sets `error`, keeps the active item and writes nothing |
| ClipboardWatcher.PrSettled | src/features/clipboard-watcher/clipboard-watcher.tsx:85-98 | a pull-request fetch never raises an alert or changes the status; success inserts the item and a failure is swallowed |
| ClipboardWatcher.OnItemClick | src/features/clipboard-watcher/clipboard-watcher.tsx:113-129 | a click shows `copied`, keeps the active item and raises a success alert with the content |
| ClipboardWatcher.ResetStatus | src/features/clipboard-watcher/clipboard-watcher.tsx:35-38 | back to idle with no active item |
| ClipboardWatcher.HandleRemove | src/features/clipboard-watcher/clipboard-watcher.tsx:131-142 | the id is removed from the history; removing the active item also empties the clipboard and resets; any other removal leaves the watcher alone |
| ClipboardWatcher.ClearHistory | src/features/clipboard-watcher/clipboard-watcher.tsx:152-155 | the history reads as empty afterwards and every other key is kept |
| ClipboardWatcher.PausedIsSticky | src/features/clipboard-watcher/clipboard-watcher.tsx:50-52 | from `copied` or `error`, any number of polls leaves the watcher unchanged |
| ClipboardWatcher.FetchOnlyForNewIds | src/features/clipboard-watcher/clipboard-watcher.tsx:56-92 | a poll fetches exactly for a recognised id the history does not hold, and then shows `match` |
| ClipboardWatcher.ExistsHighlightsKnownId | src/features/clipboard-watcher/clipboard-watcher.tsx:56-62 | `exists` is shown exactly for a recognised id the history holds, and that id becomes active |
| ClipboardWatcher.StoredAfterInsert | src/features/clipboard-watcher/clipboard-watcher.tsx:69-87 | after the insert the history holds the item's id |
| ClipboardWatcher.StoredItemIsRecognised | src/features/clipboard-watcher/clipboard-watcher.tsx:56-87 | once the fetched item is stored, the next poll of the same text shows `exists` and fetches nothing |
| ClipboardWatcher.PaddedMatchFetchesNumber | src/features/clipboard-watcher/clipboard-watcher.tsx:85-87 | corrected: the matched URL, even with C0 controls and spaces around it, fetches the pull request whose id is `PR-` and the matched number |
| ClipboardWatcher.IssueFetchHasParsedId | src/features/clipboard-watcher/clipboard-watcher.tsx:66-69 | the issue fetched for a poll's key carries the parsed id |
| ClipboardWatcher.PrFetchHasParsedId | src/features/clipboard-watcher/clipboard-watcher.tsx:85-87 | corrected: the pull request fetched for the matched URL carries the parsed id |
| ClipboardWatcher.PollAsWrittenOfNewPr | src/features/clipboard-watcher/clipboard-watcher.tsx:64-86 | as written, a new pull request shows `match` and hands the whole text to `getPR` |
| ClipboardWatcher.WholeTextFetchesOtherId | src/features/clipboard-watcher/clipboard-watcher.tsx:86 | as written, for a text that parses as `PR-5`, the fetched item has id `PR-undefined` |
| ClipboardWatcher.OtherIdRefetches | src/features/clipboard-watcher/clipboard-watcher.tsx:56-86 | as written, a history holding only an item with another id makes every poll fetch again |
| ClipboardStatus.StatusMap | src/features/clipboard-watcher/clipboard-status.tsx:7-17 | every status has an entry with a non-empty text; red exactly for `credentials` and `error`; dark exactly for idle |
| ClipboardStatus.Animate | src/features/clipboard-watcher/clipboard-status.tsx:27 | the panel animates exactly when it is dark, that is when idle |
| ClipboardStatus.StatusOfText | src/features/clipboard-watcher/clipboard-status.tsx:7-17 | a status read back from a sentence shows that sentence |
| ClipboardStatus.TextIdentifiesStatus | src/features/clipboard-watcher/clipboard-status.tsx:10-17 | the sentence alone identifies the status, so the two red statuses are told apart |
| ClipboardStatus.TextsDistinct | src/features/clipboard-watcher/clipboard-status.tsx:15-16 | two statuses share a text exactly when they are equal |
| ClipboardStatus.OtherColours | src/features/clipboard-watcher/clipboard-status.tsx:11-14 | match is green, copied yellow, exists light; idle shows dark with `Watching the clipboard...` |
| HistoryPanel.DecodeConfirmation | src/features/clipboard-watcher/history-panel.tsx:52 | a sentence read back as a content type, item type and id is the confirmation of those |
| HistoryPanel.DecodeOfConfirmation | src/features/clipboard-watcher/history-panel.tsx:52 | every confirmation reads back as what it announces |
| HistoryPanel.ConfirmationInjective | src/features/clipboard-watcher/history-panel.tsx:52 | two confirmations are equal exactly when content type, item type and id are |
| HistoryPanel.CopyText | src/features/clipboard-watcher/history-panel.tsx:39-56 | markdown is always written; the PR name and branch name are written only when present, otherwise nothing; the confirmation for the item is announced either way |
| HistoryPanel.CopyThenClick | src/features/clipboard-watcher/history-panel.tsx:52-53 | through `onItemClick` the watcher shows `copied` and the alert announces this item and content type |
| HistoryPanel.InsertPoint | src/features/clipboard-watcher/history-panel.tsx:66 | an entry goes after every strictly newer entry and before the first one that is no newer |
| HistoryPanel.InsertByDate | src/features/clipboard-watcher/history-panel.tsx:66 | insertion adds exactly the one entry |
| HistoryPanel.InsertKeepsSorted | src/features/clipboard-watcher/history-panel.tsx:66 | insertion keeps a newest-first list sorted |
| HistoryPanel.SortByDate | src/features/clipboard-watcher/history-panel.tsx:65-66 | the rows are newest first and a permutation of the history |
| HistoryPanel.SortIsStable | src/features/clipboard-watcher/history-panel.tsx:65-66 | entries of the same date keep their history order, as `Array.prototype.sort` is stable |
| HistoryPanel.SortKeepsUnique | src/features/clipboard-watcher/history-panel.tsx:65-66 | sorting keeps ids unique |
| HistoryPanel.View | src/features/clipboard-watcher/history-panel.tsx:65-153 | one row per entry, newest first; a row is active exactly when its id is the active item; the branch and PR buttons show exactly when those fields are present; the remove button passes the row's id; row i shows the i-th entry of the sorted history |
| HistoryPanel.NoticeWhenEmpty | src/features/clipboard-watcher/history-panel.tsx:60-64 | `Nothing captured yet.` shows exactly when there are no rows |
| HistoryPanel.AtMostOneActive | src/features/clipboard-watcher/history-panel.tsx:69 | with unique ids, at most one row is highlighted |
| HistoryPanel.ActiveIdHasRow | src/features/clipboard-watcher/history-panel.tsx:69 | an active id that the history holds is highlighted on some row |
| HistoryPanel.ExistsHighlightsOneRow | src/features/clipboard-watcher/history-panel.tsx:69 | when a poll shows `exists`, exactly the row of the recognised id is highlighted |
| HistoryPanel.RemoveButtonDropsRow | src/features/clipboard-watcher/history-panel.tsx:147-150 | a row's remove button takes that row's entry out of the stored history; on the active row it also resets the watcher |
| UnicodeMappings.Lookup | src/features/text-formatter/utils/unicode-mappings.ts:19 | `exceptions[char]` is the replacement of the first pair keyed by the character, and absent exactly when no pair has that key |
| UnicodeMappings.MapChar | src/features/text-formatter/utils/unicode-mappings.ts:17-39 | an exception is consulted first; non-letters and non-digits are unchanged; a digit changes exactly when the style has a digit block; nothing maps into ASCII except itself |
| UnicodeMappings.Transform | src/features/text-formatter/utils/unicode-mappings.ts:16-41 | one code point out for each code point in |
| UnicodeMappings.MapCharFixes | src/features/text-formatter/utils/unicode-mappings.ts:19-38 | a styled character is left alone by a second pass |
| UnicodeMappings.TransformIdempotent | src/features/text-formatter/utils/unicode-mappings.ts:16-41 | styling twice is styling once |
| UnicodeMappings.UnmapChar | src/features/text-formatter/utils/unicode-mappings.ts:19-38 | reading back leaves characters outside the style's targets alone |
| UnicodeMappings.UnmapMapChar | src/features/text-formatter/utils/unicode-mappings.ts:19-38 | for a style with disjoint blocks, any character that is not a target reads back as itself |
| UnicodeMappings.UntransformTransform | src/features/text-formatter/utils/unicode-mappings.ts:16-41 | styling loses nothing: a text with no target code points reads back as itself |
| UnicodeMappings.PlainStylesWellFormed | src/features/text-formatter/utils/unicode-mappings.ts:45-155 | Bold, Bold Italic, Monospace and Fullwidth have non-ASCII, disjoint blocks |
| UnicodeMappings.ItalicWellFormed | src/features/text-formatter/utils/unicode-mappings.ts:53-59 | Italic's blocks and its exception are non-ASCII and disjoint |
| UnicodeMappings.ScriptWellFormed | src/features/text-formatter/utils/unicode-mappings.ts:68-84 | Script's eleven exceptions lie outside its blocks and are distinct |
| UnicodeMappings.DoubleStruckWellFormed | src/features/text-formatter/utils/unicode-mappings.ts:87-100 | Double-struck's seven exceptions lie outside its blocks and are distinct |
| UnicodeMappings.FrakturWellFormed | src/features/text-formatter/utils/unicode-mappings.ts:110-120 | Fraktur's five exceptions lie outside its blocks and are distinct |
| UnicodeMappings.CircledWellFormed | src/features/text-formatter/utils/unicode-mappings.ts:123-130 | both circled digit blocks avoid the zero exception and the letter blocks |
| UnicodeMappings.StylesWellFormed | src/features/text-formatter/utils/unicode-mappings.ts:45-155 | every `createTransform` style can be read back |
| UnicodeMappings.ItalicH | src/features/text-formatter/utils/unicode-mappings.ts:53-59 | Italic maps `h` to U+210E PLANCK CONSTANT and other letters into its block |
| UnicodeMappings.CircledDigitsAsWritten | src/features/text-formatter/utils/unicode-mappings.ts:126 | as written, `1` becomes CIRCLED DIGIT TWO and `9` becomes CIRCLED NUMBER TEN |
| UnicodeMappings.CircledDigits | src/features/text-formatter/utils/unicode-mappings.ts:123-130 | corrected, `0` becomes U+24EA and `1` to `9` become CIRCLED DIGIT ONE to NINE |
| UnicodeMappings.SquaredChar | src/features/text-formatter/utils/unicode-mappings.ts:136-145 | a letter of either case goes to U+1F130 plus its alphabet position; anything else is unchanged |
| UnicodeMappings.ToSquared | src/features/text-formatter/utils/unicode-mappings.ts:133-148 | one code point out for each code point in |
| UnicodeMappings.SquaredIsTransform | src/features/text-formatter/utils/unicode-mappings.ts:133-148 | `toSquared` is the transform whose two letter blocks coincide |
| UnicodeMappings.SquaredIgnoresCase | src/features/text-formatter/utils/unicode-mappings.ts:138-144 | texts that differ only in ASCII case square to the same text |
| UnicodeMappings.SquaredIdempotent | src/features/text-formatter/utils/unicode-mappings.ts:133-148 | squaring twice is squaring once |
| UnicodeMappings.LowerKey | src/features/text-formatter/utils/unicode-mappings.ts:190 | the `a-z` letter that `toLowerCase` yields, if any, is the ASCII case fold for letters |
| UnicodeMappings.SmallCapsEntry | src/features/text-formatter/utils/unicode-mappings.ts:158-185 | the table has an entry exactly for the 26 lower-case letters |
| UnicodeMappings.SmallCapsChar | src/features/text-formatter/utils/unicode-mappings.ts:189-195 | a character whose lower case has an entry is replaced by it; any other character is kept |
| UnicodeMappings.SmallCapsEntries | src/features/text-formatter/utils/unicode-mappings.ts:158-185 | corrected, every entry is one code point that is not itself a letter key |
| UnicodeMappings.SmallCapsDistinct | src/features/text-formatter/utils/unicode-mappings.ts:158-185 | corrected, distinct letters have distinct entries |
| UnicodeMappings.SmallCapsPointwise | src/features/text-formatter/utils/unicode-mappings.ts:187-197 | corrected, `toSmallCaps` yields one code point for each code point in |
| UnicodeMappings.SmallCapsIdempotent | src/features/text-formatter/utils/unicode-mappings.ts:187-197 | corrected, a second pass changes nothing |
| UnicodeMappings.SmallCapsIgnoresCase | src/features/text-formatter/utils/unicode-mappings.ts:190 | the output depends only on the lower case of each letter |
| UnicodeMappings.SmallCapsInjective | src/features/text-formatter/utils/unicode-mappings.ts:158-197 | corrected, distinct lower-case texts stay distinct |
| UnicodeMappings.SmallCapsAsWrittenFaults | src/features/text-formatter/utils/unicode-mappings.ts:177-184 | as written, `x` becomes two code points and `s` and `z` become the same one |
| UnicodeMappings.SmallCapsCorrected | src/features/text-formatter/utils/unicode-mappings.ts:177-182 | corrected, `x` is one code point and `s` differs from `z` |
| UnicodeMappings.SmallCapsIdempotentWith | src/features/text-formatter/utils/unicode-mappings.ts:187-197 | with either table, a second pass of `toSmallCaps` changes nothing |
| UnicodeMappings.ApplyWith | src/features/text-formatter/utils/unicode-mappings.ts:275-288 | `TEXT_STYLES` without Zalgo, with the tables as written or corrected (the table picks the circled digit block and the small capitals): every style but Small Caps keeps the number of code points with either table, and Small Caps does too with the corrected one |
| UnicodeMappings.ApplyCorrected | src/features/text-formatter/utils/unicode-mappings.ts:275-288 | corrected: `TEXT_STYLES` without Zalgo, with the corrected circled digit block and small-capitals table, keeps the number of code points |
| UnicodeMappings.AsWrittenStyles | src/features/text-formatter/utils/unicode-mappings.ts:275-288 | with the tables as written, every listed style except Zalgo is idempotent, and every one but Small Caps keeps the number of code points |
| UnicodeMappings.CorrectedStylesKeepLength | src/features/text-formatter/utils/unicode-mappings.ts:275-288 | corrected: with the corrected circled digit block and small-capitals table, every listed style except Zalgo keeps the number of code points and is idempotent |
| DiscordFormats.FormatCodes | src/features/discord-timestamp/utils/discord-formats.ts:10-45 | there are exactly six codes, each one letter and all distinct |
| DiscordFormats.UnixTime | src/features/discord-timestamp/utils/discord-formats.ts:48 | whole seconds, rounded toward zero on both sides of the epoch, as date-fns 3 and later do (`Math.trunc`) |
| DiscordFormats.DiscordTimestamp | src/features/discord-timestamp/utils/discord-formats.ts:47-50 | with a one-letter code, the token reads back as its seconds and its code |
| DiscordFormats.ParseToken | src/features/discord-timestamp/utils/discord-formats.ts:49 | a token read back as seconds and a code is the token of those |
| DiscordFormats.ParseTokenOfToken | src/features/discord-timestamp/utils/discord-formats.ts:49 | every token with a one-letter code splits back uniquely |
| DiscordFormats.TokenOnlySeesSeconds | src/features/discord-timestamp/utils/discord-formats.ts:48-49 | two dates give the same token exactly when they fall in the same second |
| DiscordFormats.TokenSeesCode | src/features/discord-timestamp/utils/discord-formats.ts:49 | different codes give different tokens for the same date |
| DiscordFormats.UnixTimeTruncates | src/features/discord-timestamp/utils/discord-formats.ts:48 | 999 ms after and 999 ms before the epoch both read as second zero |
| GoodMorning.YesterdayPart | src/features/good-morning/good-morning.tsx:31 | the yesterday part is empty exactly when yesterday is |
| GoodMorning.TodayPart | src/features/good-morning/good-morning.tsx:31 | the today part is empty exactly when today is |
| GoodMorning.Gm | src/features/good-morning/good-morning.tsx:30-33 | the note starts with the greeting and ends with a line break |
| GoodMorning.PristineNote | src/features/good-morning/good-morning.tsx:30-37 | the note is the greeting and a line break exactly when pristine |
| GoodMorning.YesterdayShownIff | src/features/good-morning/good-morning.tsx:31 | the yesterday heading follows the greeting exactly when yesterday is filled in |
| GoodMorning.TodayShownIff | src/features/good-morning/good-morning.tsx:31 | the today heading follows the yesterday part, with no separator of its own, exactly when today is filled in |
| GoodMorning.Copy | src/features/good-morning/good-morning.tsx:110-122 | disabled exactly while pristine; otherwise writes the trimmed note and alerts `Copied to clipboard!` |
| GoodMorning.CopyOfFilledNote | src/features/good-morning/good-morning.tsx:110-119 | the closing line break never reaches the clipboard |
| GoodMorning.Reset | src/features/good-morning/good-morning.tsx:127-136 | afterwards the note is pristine; disabled while pristine; otherwise the greeting is rerolled |
| GoodMorning.ResetLeavesGreeting | src/features/good-morning/good-morning.tsx:127-136 | after a reset only the greeting is left and both buttons are disabled |

## Left out

- Network, clipboard, store and opener I/O are left out. Fetch responses, clipboard text, store contents and the current time are inputs; clipboard and store writes are outputs.
- Error handling that the tests expect but the code lacks is not modelled. This covers HTTP status, GraphQL errors and missing fields; the fetchers read the payload as it comes.
- Timers, the alert provider's debounce and dismissal, and overlapping polls are left out. The 2-second return to idle after a click is `ResetStatus`, which the caller applies.
- The read-modify-write race between overlapping `insert`s is left out, because it needs concurrency.
- `toZalgo` and `useGreeting` are left out because they use floating point and randomness. A reroll's new message is an input of `GoodMorning.Reset`.
- The date-fns previews of the Discord formats are left out.
- `DiscordFormats.UnixTime` takes any integer number of milliseconds. A JavaScript `Date` beyond 8.64e15 ms either side of the epoch is an `Invalid Date`, for which `getUnixTime` gives `NaN` and the token reads `<t:NaN:…>`; the model gives the truncated seconds there instead, and `DiscordTimestamp` inherits this.
- `UrlParser.Pathname` models the WHATWG URL parser only for the special network schemes `ftp`, `http`, `https`, `ws` and `wss`. Text with a `file:` or another scheme yields no pathname, though `new URL` accepts it; the parser is only ever handed text that starts with `https://`.
- `UrlParser.ValidHost` checks the host for forbidden domain code points as written, before any percent-decoding, and leaves out IDNA (UTS 46) mapping, IPv4 numbers and bracketed IPv6 hosts. A host that holds `%` or `[` is therefore rejected, though `new URL` decodes `https://%41/x` to the host `a` and accepts `https://[::1]/x` (`EncodedHostRejected`). A host that IDNA or the IPv4 parser would reject is accepted here. None of this reaches the path.
- `UrlParser.Pathname` gives no pathname for a percent-encoded or bracketed host, where `new URL` succeeds.
- `UrlParser.HostAndPort` states acceptance of the host as written; its "exactly when" does not extend to percent-encoded or bracketed hosts, which `new URL` accepts.
- `GitHubApi.GetGitHubMetadata` fails with `Invalid URL` on a percent-encoded or bracketed host, where `new URL` succeeds and `getGitHubMetadata` returns the path segments.
- `UrlParser.InPathEncodeSet` encodes `^`, as the current standard does; some engines leave it unencoded. The userinfo contents are not checked.
- `GitHubApi.GetGitHubMetadata` stands for the `TypeError` of `new URL` with the message `Invalid URL`. The message is engine-specific.
- Lone surrogates are not modelled, because strings are sequences of Unicode scalar values. `charCodeAt(0)` on an astral character yields a surrogate; the model compares the whole code point. Both fall outside every ASCII range, so the result is the same.
- `UnicodeMappings.CorrectedStylesKeepLength` is stated for the corrected tables. As written (`AsWrittenStyles`), Small Caps turns `x` into two code points, so only idempotence holds for it.
- `ClipboardWatcher.PollWith` assumes a provider that supplies the stored history (`clipboardHistory`) and `refreshClipboardHistory`, which `src/features/clipboard-watcher/clipboard-watcher.tsx:27-28` reads from the config context. The context's type (`src/context/config-context.tsx:23-32`) and value (`src/context/config-context.tsx:120-131`) do not provide them, so as written both are `undefined`. The model takes the history as an input of each poll.
- `UnicodeMappings.LowerKey`: `toLowerCase` is modelled only where it lands on `a-z`, which is the ASCII letters and U+212A KELVIN SIGN. No other code point lower-cases to a single `a-z` letter.
- `UnicodeMappings.Transform` requires a well-formed style: one-code-point exceptions and non-ASCII blocks. Every style the source defines meets this (`StylesWellFormed`).
- `HistoryPanel.SortByDate`: `Array.prototype.sort` sorts the history prop in place. The model returns a sorted copy.
- The `Clear` button's `disabled` condition is left out, because it reads the global `history.length`, which is a UI quirk.
- `useConfig`'s `load` is not modelled: the store is `None` until it is loaded, and `Defaults` is what loading seeds.
- `ConfigContext.ValidMeansTruthyTokens` covers only string credentials. A non-string stored value (`NonString`) validates as set, but no fetcher receives it as a string.
- The credentials, config-dialog, waygate, navigation and other UI components are left out, because they are presentation or plumbing.
- The greeting reroll button (`regenerateGreeting`) is left out: it only rerolls the random greeting, with a spin timer.
- The worked example of the branch-name slug for one literal title is not proved. Instead, `SlugChars`, `AlnumsOfSlug` and `SlugIdempotent` state the slug's shape for every title.

## Findings

| source | as written | input that shows it | evidently intended | confidence | as-written member | corrected member |
|---|---|---|---|---|---|---|
| src/features/clipboard-watcher/clipboard-watcher.tsx:86 | `getPR(text, …)` receives the whole clipboard text rather than the matched URL | `https://x?https://github.com/o/r/pull/5`: parsed as `PR-5`, but the fetched item's id is `PR-undefined`, so the id never enters the history and every later poll fetches again | fetch the pull request of the matched URL, so that the stored id is the parsed id | not executed | ClipboardWatcher.PollAsWritten, ClipboardWatcher.WholeTextFetchesOtherId, ClipboardWatcher.OtherIdRefetches | ClipboardWatcher.Poll, ClipboardWatcher.PrFetchHasParsedId, ClipboardWatcher.StoredItemIsRecognised |
| src/features/text-formatter/utils/unicode-mappings.ts:126 | the circled digit block starts at U+2460 CIRCLED DIGIT ONE, so digit d maps to U+2460 + d | `1` becomes U+2461 CIRCLED DIGIT TWO; `9` becomes U+2469 CIRCLED NUMBER TEN | `1` to `9` map to CIRCLED DIGIT ONE to NINE, as the comment on the line says | not executed | UnicodeMappings.CircledDigitsAsWritten | UnicodeMappings.CircledDigits |
| src/features/text-formatter/utils/unicode-mappings.ts:182 | the escape `\u1D431` reads as the four-digit escape `\u1D43` followed by the digit `1` | `x` becomes U+1D43 MODIFIER LETTER SMALL A and the digit `1` | one code point, the mathematical small x its comment names | not executed | UnicodeMappings.SmallCapsAsWrittenFaults | UnicodeMappings.SmallCapsCorrected, UnicodeMappings.SmallCapsPointwise |
| src/features/text-formatter/utils/unicode-mappings.ts:177 | `s` maps to U+1D22 LATIN LETTER SMALL CAPITAL Z, the same code point as `z` | `s` and `z` style to the same character | `s` maps to U+A731 LATIN LETTER SMALL CAPITAL S, as the comment says | not executed | UnicodeMappings.SmallCapsAsWrittenFaults | UnicodeMappings.SmallCapsCorrected, UnicodeMappings.SmallCapsInjective |

=== FILE: clipboard_status.dfy ===
/** src/features/clipboard-watcher/clipboard-status.tsx: the panel that shows the watcher's
    status, as a colour, a sentence, and whether the panel animates. */
module ClipboardStatus {
  import opened Wrappers
  import opened ClipboardWatcher

  /** The `status` colours `StatusPanel` takes that the table uses. */
  datatype Colour = Dark | Green | Yellow | Light | Red

  /** One row of `statusMap`: the panel colour and `statusText`. */
  datatype Display = Display(colour: Colour, text: string)

  const IdleText := "Watching the clipboard..."
  const MatchText := "Match found!"
  const CopiedText := "Copied to clipboard!"
  const ExistsText := "Already in history."
  const CredentialsText := "API credentials not found."
  const ErrorText := "Error occurred."

  /** `statusMap[status]`: the record type makes the table total over `Status`. */
  function StatusMap(s: Status): (d: Display)
    ensures d.text != []
    ensures d.colour == Red <==> s == Credentials || s == Error
    ensures d.colour == Dark <==> s == Idle
  {
    match s
    case Idle => Display(Dark, IdleText)
    case Match => Display(Green, MatchText)
    case Copied => Display(Yellow, CopiedText)
    case Exists => Display(Light, ExistsText)
    case Credentials => Display(Red, CredentialsText)
    case Error => Display(Red, ErrorText)
  }

  /** `animate={status === "idle"}` */
  function Animate(s: Status): (a: bool)
    ensures a <==> StatusMap(s).colour == Dark
  {
    s == Idle
  }

  /** Reads a status back from the sentence the panel shows. */
  function StatusOfText(text: string): (r: Option<Status>)
    ensures r.Some? ==> StatusMap(r.value).text == text
  {
    if text == IdleText then Some(Idle)
    else if text == MatchText then Some(Match)
    else if text == CopiedText then Some(Copied)
    else if text == ExistsText then Some(Exists)
    else if text == CredentialsText then Some(Credentials)
    else if text == ErrorText then Some(Error)
    else None
  }

  /** The sentence alone identifies the status: no two statuses share a text, so the two red
      statuses are told apart by their sentences. */
  lemma TextIdentifiesStatus(s: Status)
    ensures StatusOfText(StatusMap(s).text) == Some(s)
  {
    assert IdleText[0] == 'W' && MatchText[0] == 'M' && CopiedText[0] == 'C';
    assert ExistsText[0] == 'A' && CredentialsText[0] == 'A' && ErrorText[0] == 'E';
    assert ExistsText[1] == 'l' && CredentialsText[1] == 'P';
  }

  lemma TextsDistinct(s: Status, t: Status)
    ensures StatusMap(s).text == StatusMap(t).text <==> s == t
  {
    TextIdentifiesStatus(s);
    TextIdentifiesStatus(t);
  }

  /** The colours of the statuses that are neither red nor idle. */
  lemma OtherColours()
    ensures StatusMap(Match).colour == Green
    ensures StatusMap(Copied).colour == Yellow
    ensures StatusMap(Exists).colour == Light
    ensures StatusMap(Idle) == Display(Dark, IdleText)
  {
  }
}

=== FILE: clipboard_watcher.dfy ===
/** src/features/clipboard-watcher/clipboard-watcher.tsx: the watcher's once-a-second poll of the
    clipboard, the completion of the fetches a poll starts, and the click and remove handlers.
    Each is a pure step on the watcher's state (`status`, `activeItem`) and the persisted store;
    the clipboard text, the credentials check and the HTTP results are inputs, and timers are
    separate events. */
module ClipboardWatcher {
  import opened Wrappers
  import opened JsText
  import opened HistoryItems
  import opened Requests
  import opened ConfigStore
  import opened Clip = ParseClipboard
  import GitHubApi
  import UrlParser
  import LinearApi
  import PrSample

  /** `Status` */
  datatype Status = Idle | Match | Copied | Exists | Credentials | Error

  /** `status` and `activeItem`. */
  datatype Watcher = Watcher(status: Status, active: Option<string>)

  /** The state `useState` starts with, and the one `resetStatus()` restores. */
  const Initial := Watcher(Idle, None)

  /** The request a poll starts: `getIssue(key, …)` or `getPR(target, …)`. */
  datatype Effect = NoEffect | FetchIssue(key: string) | FetchPR(target: string)

  datatype Step = Step(next: Watcher, effect: Effect)

  /** The text handed to `getPR`: the whole clipboard text, as the source passes it, or the
      matched pull-request URL. */
  datatype PrTarget = WholeText | MatchedUrl

  /** The polls that leave the watcher alone: while the clipboard cannot be read, is empty,
      or the watcher shows `copied` or `error`. */
  predicate Paused(w: Watcher, clip: Option<string>) {
    clip.None? || clip == Some("") || w.status == Copied || w.status == Error
  }

  /** One run of the interval callback. `valid` is `configValidation.credentials.valid`,
      `clip` the result of `readText()` (`None` when it throws), `history` the list the
      component was rendered with. */
  function PollWith(target: PrTarget, w: Watcher, valid: bool, clip: Option<string>, history: seq<HistoryItem>): (s: Step)
    ensures !valid ==> s == Step(Watcher(Credentials, w.active), NoEffect)
    ensures valid && Paused(w, clip) ==> s == Step(w, NoEffect)
    ensures valid && !Paused(w, clip) ==>
      match ParseClipboard(clip.value)
      case None => s == Step(Initial, NoEffect)
      case Some(p) =>
        && (HasId(history, p.id) ==> s == Step(Watcher(Exists, Some(p.id)), NoEffect))
        && (!HasId(history, p.id) ==> s.next == Watcher(Match, w.active) && s.effect != NoEffect)
    ensures s.effect != NoEffect ==> clip.Some?
    ensures s.effect.FetchIssue? ==> ParseClipboard(clip.value) == Some(Parsed(Linear, s.effect.key))
    ensures s.effect.FetchPR? ==>
      && ParseClipboard(clip.value).Some? && ParseClipboard(clip.value).value.kind == GitHub
      && GitHubMatch(clip.value).Some?
      && s.effect.target == (if target == WholeText then clip.value else PrText(GitHubMatch(clip.value).value.parts))
  {
    if !valid then Step(w.(status := Credentials), NoEffect)
    else if Paused(w, clip) then Step(w, NoEffect)
    else
      var text := clip.value;
      match ParseClipboard(text)
      case None => Step(Initial, NoEffect)
      case Some(p) =>
        if HasId(history, p.id) then Step(Watcher(Exists, Some(p.id)), NoEffect)
        else if p.kind == Linear then Step(w.(status := Match), FetchIssue(p.id))
        else
          var u := if target == WholeText then text else PrText(GitHubMatch(text).value.parts);
          Step(w.(status := Match), FetchPR(u))
  }

  /** The poll with the matched URL handed to `getPR`, so that the fetched item's id is the id
      the poll compared against the history. */
  function Poll(w: Watcher, valid: bool, clip: Option<string>, history: seq<HistoryItem>): (s: Step)
    ensures s.effect.FetchPR? ==>
      && clip.Some? && GitHubMatch(clip.value).Some?
      && ParseClipboard(clip.value) == Some(Parsed(GitHub, "PR-" + GitHubMatch(clip.value).value.parts.number))
      && s.effect.target == PrText(GitHubMatch(clip.value).value.parts)
  {
    PollWith(MatchedUrl, w, valid, clip, history)
  }

  /** The poll as the source writes it: `getPR` receives the whole clipboard text. */
  function PollAsWritten(w: Watcher, valid: bool, clip: Option<string>, history: seq<HistoryItem>): (s: Step)
    ensures s.effect.FetchPR? ==> clip.Some? && s.effect.target == clip.value
  {
    PollWith(WholeText, w, valid, clip, history)
  }

  /** `sendAlert({ type, content })` */
  datatype AlertKind = SuccessAlert | ErrorAlert
  datatype Alert = Alert(kind: AlertKind, content: string)

  /** The watcher state, the store after the event's writes, and the alert it raised. */
  datatype Outcome = Outcome(next: Watcher, store: Option<Store>, alert: Option<Alert>)

  const IssueFetchedText := "Issue fetched successfully."
  const IssueFailedText := "Failed to fetch issue."

  /** The settling of `getIssue(…)`: on success the item goes into the history and a success
      alert is raised, the status left as it is; on failure an error alert, and the watcher
      stops at `error`. */
  function IssueSettled(w: Watcher, fetched: Result<Fetched, string>, st: Option<Store>): (o: Outcome)
    ensures o.alert.Some?
    ensures o.alert.value.kind == SuccessAlert <==> fetched.Ok?
    ensures fetched.Ok? ==> o.next == w && o.store == Insert(st, ClipboardHistory, fetched.value.item)
    ensures fetched.Err? ==> o.next.status == Error && o.next.active == w.active && o.store == st
  {
    match fetched
    case Ok(f) => Outcome(w, Insert(st, ClipboardHistory, f.item), Some(Alert(SuccessAlert, IssueFetchedText)))
    case Err(_) => Outcome(w.(status := Error), st, Some(Alert(ErrorAlert, IssueFailedText)))
  }

  /** The settling of `await getPR(…)`: on success the item goes into the history; a rejection
      is swallowed by the poll's `catch`. Neither raises an alert nor changes the status. */
  function PrSettled(w: Watcher, fetched: Result<Fetched, string>, st: Option<Store>): (o: Outcome)
    ensures o.next == w && o.alert.None?
    ensures fetched.Err? ==> o.store == st
    ensures fetched.Ok? ==> o.store == Insert(st, ClipboardHistory, fetched.value.item)
  {
    match fetched
    case Ok(f) => Outcome(w, Insert(st, ClipboardHistory, f.item), None)
    case Err(_) => Outcome(w, st, None)
  }

  /** `onItemClick(content)`: the watcher shows `copied` and announces the copied content; the
      two-second timer then fires `ResetStatus`. */
  function OnItemClick(w: Watcher, content: string): (o: (Watcher, Alert))
    ensures o.0.status == Copied && o.0.active == w.active
    ensures o.1 == Alert(SuccessAlert, content)
  {
    (w.(status := Copied), Alert(SuccessAlert, content))
  }

  /** `resetStatus()` */
  function ResetStatus(w: Watcher): (r: Watcher)
    ensures r.status == Idle && r.active.None?
  {
    Initial
  }

  /** The watcher state, the store, and the text written to the clipboard, if any. */
  datatype Removal = Removal(next: Watcher, store: Option<Store>, clipboard: Option<string>)

  /** `handleRemove(id)`: removing the highlighted entry also empties the clipboard and resets
      the watcher; any removal then filters the id out of the history. */
  function HandleRemove(w: Watcher, id: string, st: Option<Store>): (r: Removal)
    ensures r.store == Remove(st, ClipboardHistory, id)
    ensures w.active == Some(id) ==> r.next == Initial && r.clipboard == Some("")
    ensures w.active != Some(id) ==> r.next == w && r.clipboard.None?
  {
    if w.active == Some(id) then Removal(ResetStatus(w), Remove(st, ClipboardHistory, id), Some(""))
    else Removal(w, Remove(st, ClipboardHistory, id), None)
  }

  /** The Clear button: `clear("clipboard-history")`. */
  function ClearHistory(st: Option<Store>): (r: Option<Store>)
    ensures st.Some? ==> r.Some? && ListAt(r.value, ClipboardHistory) == Some([])
    ensures st.Some? ==> forall k :: k != ClipboardHistory && k in st.value ==> k in r.value && r.value[k] == st.value[k]
  {
    Clear(st, ClipboardHistory)
  }

  // ---------------------------------------------------------------------------
  // Properties of the poll.

  /** The watcher after a sequence of polls with valid credentials over the same history. */
  function Run(w: Watcher, clips: seq<Option<string>>, history: seq<HistoryItem>): Watcher
    decreases |clips|
  {
    if clips == [] then w else Run(Poll(w, true, clips[0], history).next, clips[1..], history)
  }

  /** `copied` and `error` are sticky: whatever the clipboard holds, polls change nothing until
      another event (the click timer, a removal) resets the watcher. */
  lemma {:induction false} PausedIsSticky(w: Watcher, clips: seq<Option<string>>, history: seq<HistoryItem>)
    requires w.status == Copied || w.status == Error
    ensures Run(w, clips, history) == w
    decreases |clips|
  {
    if clips != [] {
      assert Poll(w, true, clips[0], history).next == w;
      PausedIsSticky(w, clips[1..], history);
    }
  }

  /** A poll starts a fetch only for a recognised id the history does not hold yet, and then
      shows `match`. */
  lemma FetchOnlyForNewIds(w: Watcher, valid: bool, clip: Option<string>, history: seq<HistoryItem>)
    ensures var s := Poll(w, valid, clip, history);
      s.effect != NoEffect <==>
        && valid && !Paused(w, clip)
        && ParseClipboard(clip.value).Some? && !HasId(history, ParseClipboard(clip.value).value.id)
    ensures var s := Poll(w, valid, clip, history);
      s.effect != NoEffect ==> s.next.status == Match
  {
  }

  /** `exists` is shown exactly for a recognised id the history holds, and highlights it. */
  lemma ExistsHighlightsKnownId(w: Watcher, clip: Option<string>, history: seq<HistoryItem>)
    requires !Paused(w, clip)
    ensures var s := Poll(w, true, clip, history);
      s.next.status == Exists <==>
        ParseClipboard(clip.value).Some? && HasId(history, ParseClipboard(clip.value).value.id)
    ensures var s := Poll(w, true, clip, history);
      s.next.status == Exists ==> s.next.active == Some(ParseClipboard(clip.value).value.id) && HasId(history, s.next.active.value)
  {
  }

  /** After `insert`, the history holds the inserted id. */
  lemma StoredAfterInsert(store: Store, item: HistoryItem)
    requires ListAt(store, ClipboardHistory).Some?
    ensures var st := Insert(Some(store), ClipboardHistory, item);
      st.Some? && ListAt(st.value, ClipboardHistory).Some? && HasId(ListAt(st.value, ClipboardHistory).value, item.id)
  {
    InsertList(store, ClipboardHistory, item);
  }

  /** Storing an item whose id is the one the poll fetched for makes the next poll of the same
      clipboard show `exists`, with no second fetch. */
  lemma StoredItemIsRecognised(w: Watcher, text: string, store: Store, item: HistoryItem)
    requires ListAt(store, ClipboardHistory).Some?
    requires Poll(w, true, Some(text), ListAt(store, ClipboardHistory).value).effect != NoEffect
    requires ParseClipboard(text).Some? && item.id == ParseClipboard(text).value.id
    ensures var s := Poll(w, true, Some(text), ListAt(store, ClipboardHistory).value);
      var st := Insert(Some(store), ClipboardHistory, item);
      && st.Some?
      && Poll(s.next, true, Some(text), ListAt(st.value, ClipboardHistory).value)
           == Step(Watcher(Exists, Some(item.id)), NoEffect)
  {
    StoredAfterInsert(store, item);
  }

  /** The issue `getIssue` returns for the key a poll asked for carries the parsed id. */
  lemma IssueFetchHasParsedId(w: Watcher, text: string, history: seq<HistoryItem>, token: string, response: LinearApi.IssueResponse, now: int)
    requires Poll(w, true, Some(text), history).effect.FetchIssue? && token != ""
    ensures var f := LinearApi.GetIssue(Poll(w, true, Some(text), history).effect.key, Some(token), response, now);
      f.Ok? && ParseClipboard(text) == Some(Parsed(Linear, f.value.item.id))
  {
  }

  /** The pull request `getPR` returns for the matched URL carries the parsed id. */
  lemma PrFetchHasParsedId(w: Watcher, text: string, history: seq<HistoryItem>, token: string, response: GitHubApi.PrResponse, now: int)
    requires Poll(w, true, Some(text), history).effect.FetchPR? && token != ""
    ensures var f := GitHubApi.GetPR(Poll(w, true, Some(text), history).effect.target, Some(token), response, now);
      f.Ok? && ParseClipboard(text) == Some(Parsed(GitHub, f.value.item.id))
  {
    var h := GitHubMatch(text).value;
    FetchOfMatch(text, h.start, h.parts, token, response, now);
  }

  /** Fetching the URL a match covers succeeds with the matched number as the id. */
  lemma FetchOfMatch(t: string, j: nat, p: PrParts, token: string, response: GitHubApi.PrResponse, now: int)
    requires j <= |t| && PrMatchAt(t, j) == Some(p) && token != ""
    ensures var f := GitHubApi.GetPR(PrText(p), Some(token), response, now);
      f.Ok? && f.value.item.id == "PR-" + p.number
  {
    GreedyPartsArePlain(t, j, p);
    GitHubApi.GetPROfPrUrl(p.owner, p.repo, p.number, token, response, now);
  }

  /** White space around the matched URL does not change what `getPR` fetches: the id is
      still the matched number, so handing it a padded URL as written does no harm. */
  lemma PaddedMatchFetchesNumber(t: string, j: nat, p: PrParts, before: string, after: string, token: string, response: GitHubApi.PrResponse, now: int)
    requires j <= |t| && PrMatchAt(t, j) == Some(p) && token != ""
    requires UrlParser.AllC0OrSpace(before) && UrlParser.AllC0OrSpace(after)
    ensures var f := GitHubApi.GetPR(before + PrText(p) + after, Some(token), response, now);
      f.Ok? && f.value.item.id == "PR-" + p.number
  {
    GreedyPartsArePlain(t, j, p);
    GitHubApi.MetadataOfPaddedPrUrl(before, p.owner, p.repo, p.number, after);
  }

  // ---------------------------------------------------------------------------
  // The pull-request fetch as written: `getPR` receives the whole clipboard text.

  /** As written, a poll that recognises a new pull request hands the whole text to `getPR`. */
  lemma PollAsWrittenOfNewPr(w: Watcher, text: string, history: seq<HistoryItem>)
    requires !Paused(w, Some(text))
    requires ParseClipboard(text).Some? && ParseClipboard(text).value.kind == GitHub
    requires !HasId(history, ParseClipboard(text).value.id)
    ensures PollAsWritten(w, true, Some(text), history) == Step(Watcher(Match, w.active), FetchPR(text))
  {
  }

  /** On the sample the first poll fetches with the whole text, and the item `getPR` builds
      from it carries another id than the one parsed. */
  lemma WholeTextFetchesOtherId(t: string, token: string, response: GitHubApi.PrResponse, now: int)
    requires t == PrSample.SampleText
    requires token != ""
    ensures PollAsWritten(Initial, true, Some(t), []) == Step(Watcher(Match, None), FetchPR(t))
    ensures var f := GitHubApi.GetPR(t, Some(token), response, now);
      f.Ok? && ParseClipboard(t).Some? && f.value.item.id != ParseClipboard(t).value.id
  {
    PrSample.SampleParses(t);
    PrSample.SampleFetchedId(t, token, response, now);
    UndefinedIdDiffers(ParseClipboard(t).value.id);
    FirstPollOfNewPr(t);
  }

  /** The first poll of an empty history hands a recognised pull request's text to `getPR`. */
  lemma FirstPollOfNewPr(t: string)
    requires ParseClipboard(t).Some? && ParseClipboard(t).value.kind == GitHub
    ensures PollAsWritten(Initial, true, Some(t), []) == Step(Watcher(Match, None), FetchPR(t))
  {
    PollAsWrittenOfNewPr(Initial, t, []);
  }

  lemma UndefinedIdDiffers(id: string)
    requires id == "PR-" + PrSample.SampleParts.number
    ensures "PR-undefined" != id
  {
    assert |id| == 4;
  }

  /** As written, once the history holds only an item with another id than the parsed one
      (what `insert` leaves in an empty history, `InsertIntoEmpty`), the next poll of the same
      clipboard fetches again: the watcher never reaches `exists`. */
  lemma OtherIdRefetches(w: Watcher, text: string, item: HistoryItem)
    requires w.status == Match
    requires ParseClipboard(text).Some? && ParseClipboard(text).value.kind == GitHub
    requires item.id != ParseClipboard(text).value.id
    ensures PollAsWritten(w, true, Some(text), [item]) == Step(w, FetchPR(text))
  {
    var p := ParseClipboard(text).value;
    OnlyOtherId(item, p.id);
    NewPrAsWritten(w, text, [item], p);
  }

  lemma NewPrAsWritten(w: Watcher, text: string, history: seq<HistoryItem>, p: Parsed)
    requires ParseClipboard(text) == Some(p) && p.kind == GitHub && !HasId(history, p.id)
    requires w.status == Match
    ensures PollAsWritten(w, true, Some(text), history) == Step(w, FetchPR(text))
  {
    assert text != "";
  }

  lemma OnlyOtherId(item: HistoryItem, id: string)
    requires item.id != id
    ensures !HasId([item], id)
  {
  }
}

=== FILE: config_context.dfy ===
/** src/context/config-context.tsx: loading, validating and saving the two API credentials, and
    the configuration dialog flag. */
module ConfigContext {
  import opened Wrappers
  import opened JsText
  import opened ConfigStore

  /** A credential as the context holds it: `undefined` before it is loaded, a string, or some
      other truthy JavaScript value the store returned (`get` reads a missing key as `[]`, and
      `[] || ""` keeps the array). */
  datatype CredValue = Undefined | Str(s: string) | NonString

  datatype Credentials = Credentials(github: CredValue, linear: CredValue)

  /** `configValidation.credentials` */
  datatype Validation = Validation(github: bool, linear: bool, valid: bool)

  const InitialCredentials := Credentials(Undefined, Undefined)

  /** Before the first validation every flag is taken to be valid. */
  const InitialValidation := Validation(true, true, true)

  /** `x !== undefined && x !== ""` */
  predicate IsSet(c: CredValue) { c != Undefined && c != Str("") }

  /** `validateConfig()` */
  function ValidateConfig(c: Credentials): (v: Validation)
    ensures v.github <==> IsSet(c.github)
    ensures v.linear <==> IsSet(c.linear)
    ensures v.valid <==> IsSet(c.github) && IsSet(c.linear)
  {
    var github := c.github != Undefined && c.github != Str("");
    var linear := c.linear != Undefined && c.linear != Str("");
    Validation(github, linear, github && linear)
  }

  /** `(await get(key)) || ""`: falsy values (`undefined`, `""`, `false`) become `""`. */
  function Normalise(v: Option<Value>): (c: CredValue)
    ensures c != Undefined
    ensures v.None? ==> c == Str("")
    ensures v.Some? && v.value.Text? ==> c == Str(v.value.text)
  {
    match v
    case None => Str("")
    case Some(Text(s)) => Str(s)
    case Some(Flag(b)) => if b then NonString else Str("")
    case Some(Items(_)) => NonString
  }

  /** `getCredentials()` */
  function GetCredentials(st: Option<Store>): (c: Credentials)
    ensures c.github != Undefined && c.linear != Undefined
    ensures st.None? ==> c == Credentials(Str(""), Str(""))
  {
    Credentials(Normalise(Get(st, GitHubApiKey)), Normalise(Get(st, LinearApiKey)))
  }

  /** `saveCredentials({ github, linear })`: the GitHub key is written first, then the Linear one. */
  function SaveCredentials(st: Option<Store>, github: string, linear: string): (r: Option<Store>)
    ensures r.None? <==> st.None?
  {
    Update(Update(st, GitHubApiKey, Text(github)).store, LinearApiKey, Text(linear)).store
  }

  /** `toggleConfigDialog()` */
  function ToggleConfigDialog(open: bool): (r: bool)
    ensures r != open
  {
    !open
  }

  /** Saving then loading reads back what was saved, and leaves every other key alone. */
  lemma GetAfterSave(store: Store, github: string, linear: string)
    ensures GetCredentials(SaveCredentials(Some(store), github, linear)) == Credentials(Str(github), Str(linear))
    ensures forall k :: k != GitHubApiKey && k != LinearApiKey ==>
      Get(SaveCredentials(Some(store), github, linear), k) == Get(Some(store), k)
  {
  }

  /** Saved credentials validate exactly when both strings are non-empty. */
  lemma ValidAfterSave(store: Store, github: string, linear: string)
    ensures ValidateConfig(GetCredentials(SaveCredentials(Some(store), github, linear))).valid
      <==> github != "" && linear != ""
  {
    GetAfterSave(store, github, linear);
  }

  /** For string credentials, validity is the token check the fetchers make (`!token` fails):
      once the configuration validates, neither fetcher rejects its token. */
  lemma ValidMeansTruthyTokens(c: Credentials)
    requires !c.github.NonString? && !c.linear.NonString?
    ensures ValidateConfig(c).valid <==> Truthy(TokenOf(c.github)) && Truthy(TokenOf(c.linear))
  {
  }

  /** The token a string credential hands to a fetcher. */
  function TokenOf(c: CredValue): (t: Option<string>)
    requires !c.NonString?
    ensures t.None? <==> c.Undefined?
  {
    match c
    case Undefined => None
    case Str(s) => Some(s)
  }

  /** Validating the credentials the context starts with fails both flags, unlike the initial
      all-valid assumption. */
  lemma InitialCredentialsInvalid()
    ensures ValidateConfig(InitialCredentials) == Validation(false, false, false)
    ensures InitialValidation.valid
  {
  }

  lemma ToggleTwice(open: bool)
    ensures ToggleConfigDialog(ToggleConfigDialog(open)) == open
  {
  }
}

=== FILE: config_store.dfy ===
/** src/hooks/useConfig.ts: the operations of `useConfig` as pure functions on the contents of
    the persisted key-value store. `None` stands for the store before `load` has finished;
    every operation then does nothing. The store is written only when a call completes, so an
    operation the source would abort with a `TypeError` leaves it unchanged. */
module ConfigStore {
  import opened Wrappers
  import opened HistoryItems

  /** `ConfigKey` */
  datatype ConfigKey =
    | ClipboardHistory
    | GitHubApiKey
    | LinearApiKey
    | Today
    | DebugMode
    | DiscordTimestampVisible
    | FancyTextVisible

  /** The JSON values the application keeps under its keys. */
  datatype Value = Items(items: seq<HistoryItem>) | Text(text: string) | Flag(flag: bool)

  type Store = map<ConfigKey, Value>

  /** The defaults `load("config.json", ...)` seeds; `today: undefined` leaves that key unset. */
  const Defaults: Store := map[
    ClipboardHistory := Items([]),
    LinearApiKey := Text(""),
    GitHubApiKey := Text(""),
    DebugMode := Flag(false),
    DiscordTimestampVisible := Flag(false),
    FancyTextVisible := Flag(false)]

  /** `(await store.get(key)) ?? []` read as a list: a missing key is the empty list; a value
      that is not a list has no `some`/`filter`, so the call throws (`None`). */
  function ListAt(store: Store, key: ConfigKey): (r: Option<seq<HistoryItem>>)
    ensures key !in store ==> r == Some([])
    ensures key in store && store[key].Items? ==> r == Some(store[key].items)
    ensures r.None? <==> key in store && !store[key].Items?
  {
    if key !in store then Some([])
    else match store[key]
      case Items(xs) => Some(xs)
      case _ => None
  }

  /** `insert(key, value)`: appends `item` unless an entry with its id is already there. */
  function Insert(st: Option<Store>, key: ConfigKey, item: HistoryItem): (r: Option<Store>)
    ensures st.None? ==> r.None?
    ensures st.Some? ==> r.Some? && r.value.Keys == st.value.Keys + (if ListAt(st.value, key).Some? then {key} else {})
    ensures st.Some? ==> forall k :: k in st.value && k != key ==> r.value[k] == st.value[k]
  {
    match st
    case None => None
    case Some(store) =>
      match ListAt(store, key)
      case None => st
      case Some(previous) =>
        if HasId(previous, item.id) then st
        else Some(store[key := Items(previous + [item])])
  }

  /** `previous.filter((item) => item.id !== id)` */
  function Without(xs: seq<HistoryItem>, id: string): (r: seq<HistoryItem>)
    ensures |r| <= |xs|
    ensures !HasId(r, id)
    ensures forall x :: x in r <==> x in xs && x.id != id
  {
    if xs == [] then []
    else if xs[0].id != id then [xs[0]] + Without(xs[1..], id)
    else Without(xs[1..], id)
  }

  /** `remove(key, id)`: keeps the entries whose id differs, in their order. */
  function Remove(st: Option<Store>, key: ConfigKey, id: string): (r: Option<Store>)
    ensures st.None? ==> r.None?
    ensures st.Some? ==> r.Some? && r.value.Keys == st.value.Keys + (if ListAt(st.value, key).Some? then {key} else {})
    ensures st.Some? ==> forall k :: k in st.value && k != key ==> r.value[k] == st.value[k]
    ensures st.Some? && ListAt(st.value, key).Some? ==> ListAt(r.value, key).Some? && !HasId(ListAt(r.value, key).value, id)
    ensures st.Some? && ListAt(st.value, key).Some? ==> ListAt(r.value, key) == Some(Without(ListAt(st.value, key).value, id))
    ensures st.Some? && ListAt(st.value, key).None? ==> r == st
  {
    match st
    case None => None
    case Some(store) =>
      match ListAt(store, key)
      case None => st
      case Some(previous) => Some(store[key := Items(Without(previous, id))])
  }

  /** `clear(key)`: deletes the key. */
  function Clear(st: Option<Store>, key: ConfigKey): (r: Option<Store>)
    ensures st.None? ==> r.None?
    ensures st.Some? ==> r.Some? && key !in r.value && r.value.Keys == st.value.Keys - {key}
    ensures st.Some? ==> forall k :: k in r.value ==> r.value[k] == st.value[k]
  {
    match st
    case None => None
    case Some(store) => Some(store - {key})
  }

  /** `get(key)`: `undefined` before the store is loaded, otherwise the value with a missing key
      read as `[]`. */
  function Get(st: Option<Store>, key: ConfigKey): (r: Option<Value>)
    ensures r.None? <==> st.None?
    ensures st.Some? && key in st.value ==> r == Some(st.value[key])
    ensures st.Some? && key !in st.value ==> r == Some(Items([]))
  {
    match st
    case None => None
    case Some(store) => Some(if key in store then store[key] else Items([]))
  }

  /** What `update` resolves to: `[]` when there is no store, `undefined` once it has written. */
  datatype UpdateResult = UpdateResult(store: Option<Store>, returnedEmptyList: bool)

  /** `update(key, value)`: overwrites the key. */
  function Update(st: Option<Store>, key: ConfigKey, value: Value): (r: UpdateResult)
    ensures r.returnedEmptyList <==> st.None?
    ensures st.None? ==> r.store.None?
    ensures st.Some? ==> Get(r.store, key) == Some(value)
    ensures st.Some? ==> forall k :: k != key ==> Get(r.store, k) == Get(st, k)
  {
    match st
    case None => UpdateResult(None, true)
    case Some(store) => UpdateResult(Some(store[key := value]), false)
  }

  // ---------------------------------------------------------------------------
  // Properties of the history list.

  /** The list `insert` leaves: unchanged when the id is present, otherwise one longer. */
  lemma InsertList(store: Store, key: ConfigKey, item: HistoryItem)
    requires ListAt(store, key).Some?
    ensures var xs := ListAt(store, key).value;
      var ys := ListAt(Insert(Some(store), key, item).value, key).value;
      && (HasId(xs, item.id) ==> ys == xs)
      && (!HasId(xs, item.id) ==> ys == xs + [item])
      && HasId(ys, item.id)
      && |xs| <= |ys| <= |xs| + 1
      && ys[..|xs|] == xs
  {
    var xs := ListAt(store, key).value;
    if !HasId(xs, item.id) {
      assert (xs + [item])[|xs|] == item;
    }
  }

  /** The first `insert` into an empty list leaves just that item. */
  lemma InsertIntoEmpty(store: Store, key: ConfigKey, item: HistoryItem)
    requires ListAt(store, key) == Some([])
    ensures var st := Insert(Some(store), key, item);
      st.Some? && ListAt(st.value, key) == Some([item])
  {
    InsertList(store, key, item);
    assert [] + [item] == [item];
  }

  /** `insert` keeps ids unique. */
  lemma InsertKeepsUnique(store: Store, key: ConfigKey, item: HistoryItem)
    requires ListAt(store, key).Some? && UniqueIds(ListAt(store, key).value)
    ensures UniqueIds(ListAt(Insert(Some(store), key, item).value, key).value)
  {
    InsertList(store, key, item);
  }

  /** Inserting the same item twice is inserting it once. */
  lemma InsertIdempotent(st: Option<Store>, key: ConfigKey, item: HistoryItem)
    ensures Insert(Insert(st, key, item), key, item) == Insert(st, key, item)
  {
    if st.Some? && ListAt(st.value, key).Some? {
      InsertList(st.value, key, item);
    }
  }

  /** Once an id is stored, inserting any other entry with that id changes nothing: the first
      write wins. */
  lemma InsertFirstWins(store: Store, key: ConfigKey, item: HistoryItem)
    requires ListAt(store, key).Some? && HasId(ListAt(store, key).value, item.id)
    ensures Insert(Some(store), key, item) == Some(store)
  {
  }

  /** An entry whose id differs from every id of a unique list can go in front of it. */
  lemma UniqueCons(x: HistoryItem, w: seq<HistoryItem>)
    requires UniqueIds(w) && forall y :: y in w ==> y.id != x.id
    ensures UniqueIds([x] + w)
  {
    var r := [x] + w;
    forall i, j | 0 <= i < j < |r| ensures r[i].id != r[j].id {
      if i == 0 {
        assert r[j] == w[j - 1];
      } else {
        assert r[i] == w[i - 1] && r[j] == w[j - 1];
      }
    }
  }

  /** `filter` keeps unique ids unique. */
  lemma {:induction false} WithoutKeepsUnique(xs: seq<HistoryItem>, id: string)
    requires UniqueIds(xs)
    ensures UniqueIds(Without(xs, id))
  {
    if xs != [] {
      assert UniqueIds(xs[1..]) by {
        forall i, j | 0 <= i < j < |xs[1..]| ensures xs[1..][i].id != xs[1..][j].id {
          assert xs[1..][i] == xs[i + 1] && xs[1..][j] == xs[j + 1];
        }
      }
      WithoutKeepsUnique(xs[1..], id);
      if xs[0].id != id {
        var w := Without(xs[1..], id);
        forall y | y in w ensures y.id != xs[0].id {
          var k :| 0 <= k < |xs[1..]| && xs[1..][k] == y;
          assert xs[k + 1] == y;
        }
        UniqueCons(xs[0], w);
      }
    }
  }

  /** Removing an absent id leaves the list as it was. */
  lemma {:induction false} WithoutAbsent(xs: seq<HistoryItem>, id: string)
    requires !HasId(xs, id)
    ensures Without(xs, id) == xs
  {
    if xs != [] {
      assert xs[0].id != id;
      assert forall i :: 0 <= i < |xs[1..]| ==> xs[1..][i] == xs[i + 1];
      WithoutAbsent(xs[1..], id);
    }
  }

  /** `filter` distributes over concatenation, so the kept entries stay in order. */
  lemma {:induction false} WithoutConcat(a: seq<HistoryItem>, b: seq<HistoryItem>, id: string)
    ensures Without(a + b, id) == Without(a, id) + Without(b, id)
  {
    if a == [] {
      assert a + b == b;
    } else {
      assert (a + b)[0] == a[0];
      assert (a + b)[1..] == a[1..] + b;
      WithoutConcat(a[1..], b, id);
    }
  }

  /** `remove` undoes an `insert` that added a new id. */
  lemma RemoveUndoesInsert(store: Store, key: ConfigKey, item: HistoryItem)
    requires ListAt(store, key).Some? && !HasId(ListAt(store, key).value, item.id)
    ensures var xs := ListAt(store, key).value;
      Remove(Insert(Some(store), key, item), key, item.id) == Some(store[key := Items(xs)])
  {
    var xs := ListAt(store, key).value;
    WithoutConcat(xs, [item], item.id);
    WithoutAbsent(xs, item.id);
    assert Without([item], item.id) == [];
    assert Without(xs + [item], item.id) == xs + [];
    assert xs + [] == xs;
    var inserted := store[key := Items(xs + [item])];
    assert Insert(Some(store), key, item) == Some(inserted);
    assert ListAt(inserted, key) == Some(xs + [item]);
    assert Remove(Some(inserted), key, item.id) == Some(inserted[key := Items(xs)]);
    assert inserted[key := Items(xs)] == store[key := Items(xs)];
  }

  /** `clear` then `get` reads the empty list. */
  lemma GetAfterClear(store: Store, key: ConfigKey)
    ensures Get(Clear(Some(store), key), key) == Some(Items([]))
  {
  }

  /** The seeded store has an empty history and empty credentials. */
  lemma DefaultsHold()
    ensures ListAt(Defaults, ClipboardHistory) == Some([])
    ensures Get(Some(Defaults), GitHubApiKey) == Some(Text(""))
    ensures Get(Some(Defaults), LinearApiKey) == Some(Text(""))
    ensures Today !in Defaults
  {
  }
}

=== FILE: discord_formats.dfy ===
/** src/features/discord-timestamp/utils/discord-formats.ts: the Discord timestamp token
    `<t:unix:code>` for a date and one of the six display codes. A date is its time value in
    milliseconds since the epoch; the date-fns previews are not part of this model. */
module DiscordFormats {
  import opened Wrappers
  import opened JsText

  /** A `DiscordFormat` without its preview function; `labelText` is the source's `label`. */
  datatype DiscordFormat = DiscordFormat(code: string, labelText: string)

  /** `DISCORD_FORMATS`, in order. */
  const Formats: seq<DiscordFormat> := [
    DiscordFormat("t", "Short time"),
    DiscordFormat("T", "Long time"),
    DiscordFormat("R", "Relative"),
    DiscordFormat("D", "Long date"),
    DiscordFormat("f", "Short datetime"),
    DiscordFormat("F", "Long datetime")]

  /** The six codes are single letters, all different. */
  lemma FormatCodes()
    ensures |Formats| == 6
    ensures forall i :: 0 <= i < |Formats| ==> |Formats[i].code| == 1
    ensures forall i, j :: 0 <= i < j < |Formats| ==> Formats[i].code != Formats[j].code
  {
  }

  /** `getUnixTime(date)`: `Math.trunc(ms / 1000)`, rounding toward zero for dates before the
      epoch as well. */
  function UnixTime(ms: int): (s: int)
    ensures ms >= 0 ==> 0 <= ms - 1000 * s < 1000
    ensures ms < 0 ==> -1000 < ms - 1000 * s <= 0
  {
    if ms >= 0 then ms / 1000 else -((-ms) / 1000)
  }

  const Prefix := "<t:"

  /** The token for a number of seconds. */
  function Token(unix: int, code: string): string {
    Prefix + (IntToString(unix) + (":" + (code + ">")))
  }

  /** `getDiscordTimestamp(date, code)` */
  function DiscordTimestamp(ms: int, code: string): (r: string)
    ensures |code| == 1 ==> ParseToken(r) == Some((UnixTime(ms), code))
  {
    if |code| == 1 then ParseTokenOfToken(UnixTime(ms), code); Token(UnixTime(ms), code)
    else Token(UnixTime(ms), code)
  }

  /** Reads a token with a one-letter code back into its seconds and code. */
  function ParseToken(s: string): (r: Option<(int, string)>)
    ensures r.Some? ==> Token(r.value.0, r.value.1) == s
  {
    if |s| < 7 || s[..3] != Prefix || s[|s| - 3] != ':' || s[|s| - 1] != '>' then None
    else
      match ParseInt(s[3..|s| - 3])
      case None => None
      case Some(n) =>
        var code := [s[|s| - 2]];
        if Token(n, code) == s then Some((n, code)) else None
  }

  /** Where the parts of a token sit. */
  lemma TokenLayout(p: string, n: string, code: char)
    requires |p| == 3 && |n| >= 1
    ensures var s := p + (n + (":" + ([code] + ">")));
      && |s| >= 7
      && s[..3] == p
      && s[|s| - 3] == ':' && s[|s| - 2] == code && s[|s| - 1] == '>'
      && s[3..|s| - 3] == n
  {
    var s := p + (n + (":" + ([code] + ">")));
    assert s[3..] == n + (":" + ([code] + ">"));
  }

  lemma IntToStringNonEmpty(i: int)
    ensures |IntToString(i)| >= 1
  {
  }

  /** A token with a one-letter code splits back uniquely into its seconds and its code. */
  lemma ParseTokenOfToken(unix: int, code: string)
    requires |code| == 1
    ensures ParseToken(Token(unix, code)) == Some((unix, code))
  {
    IntToStringNonEmpty(unix);
    TokenLayout(Prefix, IntToString(unix), code[0]);
    assert [code[0]] == code;
    ParseIntOfIntToString(unix);
  }

  /** The token depends on the date only through its whole seconds: two dates give the same
      token exactly when they fall in the same second. */
  lemma TokenOnlySeesSeconds(ms: int, ms': int, code: string)
    requires |code| == 1
    ensures DiscordTimestamp(ms, code) == DiscordTimestamp(ms', code) <==> UnixTime(ms) == UnixTime(ms')
  {
  }

  /** Different codes give different tokens for the same date. */
  lemma TokenSeesCode(ms: int, code: string, code': string)
    requires |code| == 1 && |code'| == 1
    ensures DiscordTimestamp(ms, code) == DiscordTimestamp(ms, code') <==> code == code'
  {
  }

  /** The second a date falls in, rounding toward zero: 999 ms after the epoch and 999 ms before
      it both read as second zero. */
  lemma UnixTimeTruncates()
    ensures UnixTime(999) == 0 && UnixTime(-999) == 0 && UnixTime(-1000) == -1
    ensures DiscordTimestamp(-999, "R") == DiscordTimestamp(999, "R")
  {
    TokenOnlySeesSeconds(-999, 999, "R");
  }
}

=== FILE: github_api.dfy ===
/** src/features/clipboard-watcher/utils/github-api.ts: the path-segment extraction
    `getGitHubMetadata` and the pull-request fetcher `getPR`, with the HTTP response as input. */
module GitHubApi {
  import opened Wrappers
  import opened JsText
  import opened HistoryItems
  import opened Requests
  import UrlParser

  /** Stands for the `TypeError` the `URL` constructor throws; its message depends on the
      JavaScript engine, and nothing downstream reads it. */
  const InvalidUrl := "Invalid URL"
  const TokenMissing := "GitHub token not found!"

  /** Owner, repository and pull-request number; `None` is an index past the end of the
      split path, which JavaScript reads as `undefined`. */
  datatype Metadata = Metadata(owner: Option<string>, repo: Option<string>, id: Option<string>)

  function Segment(parts: seq<string>, i: nat): Option<string>
  {
    if i < |parts| then Some(parts[i]) else None
  }

  /** `getGitHubMetadata`: segments 1, 2 and 4 of the URL's pathname split on `/`. */
  function GetGitHubMetadata(text: string): (r: Result<Metadata, string>)
    ensures r.Err? <==> UrlParser.Pathname(text).None?
    ensures r.Err? ==> r.error == InvalidUrl
    ensures r.Ok? ==> r.value.owner.Some?
    ensures r.Ok? && r.value.id.Some? ==> r.value.repo.Some?
    ensures r.Ok? ==> PathText(r.value.owner) && PathText(r.value.repo) && PathText(r.value.id)
  {
    match UrlParser.Pathname(text)
    case None => Err(InvalidUrl)
    case Some(path) =>
      var parts := Split(path, '/');
      assert path[0] == '/';
      assert |parts| >= 2;
      UrlParser.SplitPathChars(path);
      Ok(Metadata(Segment(parts, 1), Segment(parts, 2), Segment(parts, 4)))
  }

  /** An absent segment, or one made of path characters only: no `/`, `?`, `#`, white space
      or other character the path percent-encodes. */
  predicate PathText(s: Option<string>)
  {
    s.Some? ==> forall k :: 0 <= k < |s.value| ==> UrlParser.IsPathChar(s.value[k])
  }

  /** The path `/<owner>/<repo>/pull/<number>`. */
  function PrPath(owner: string, repo: string, number: string): string
  {
    "/" + (owner + ("/" + (repo + ("/pull/" + number))))
  }

  const GitHubHost := "github.com"
  const GitHubOrigin := "https://github.com"

  /** The text `https://github.com/<owner>/<repo>/pull/<number>`. */
  function PrUrl(owner: string, repo: string, number: string): string
  {
    GitHubOrigin + PrPath(owner, repo, number)
  }

  /** Segments a URL path holds verbatim. */
  predicate PlainParts(owner: string, repo: string, number: string)
  {
    UrlParser.PlainSegment(owner) && UrlParser.PlainSegment(repo) && UrlParser.PlainSegment(number)
  }

  /** On a pull-request URL the extraction returns exactly the owner, repository and number. */
  lemma MetadataOfPrUrl(owner: string, repo: string, number: string)
    requires PlainParts(owner, repo, number)
    ensures GetGitHubMetadata(PrUrl(owner, repo, number)) == Ok(Metadata(Some(owner), Some(repo), Some(number)))
  {
    PathnameOfPrUrl(owner, repo, number);
    SplitOfPrPath(owner, repo, number);
  }

  /** C0 controls and spaces around a pull-request URL, a trailing newline say, change
      nothing: the extraction still returns the owner, repository and number. */
  lemma MetadataOfPaddedPrUrl(before: string, owner: string, repo: string, number: string, after: string)
    requires UrlParser.AllC0OrSpace(before) && UrlParser.AllC0OrSpace(after)
    requires PlainParts(owner, repo, number)
    ensures GetGitHubMetadata(before + PrUrl(owner, repo, number) + after) == Ok(Metadata(Some(owner), Some(repo), Some(number)))
  {
    UrlParser.PaddingIgnored(before, PrUrl(owner, repo, number), after);
    MetadataOfPrUrl(owner, repo, number);
  }

  /** The pathname of a pull-request URL is everything after the host. */
  lemma PathnameOfPrUrl(owner: string, repo: string, number: string)
    requires PlainParts(owner, repo, number)
    ensures UrlParser.Pathname(PrUrl(owner, repo, number)) == Some(PrPath(owner, repo, number))
  {
    var segs := [owner, repo, "pull", number];
    PullIsPlain();
    assert UrlParser.AllPlain(segs);
    PrPathIsSerialized(owner, repo, number);
    GitHubHostIsValid();
    UrlParser.PathnameOfHttpsUrl(GitHubHost, segs);
    OriginIsHttpsHost(PrPath(owner, repo, number));
  }

  lemma PullIsPlain()
    ensures UrlParser.PlainSegment("pull")
  {
    UrlParser.NoDotSegment("pull");
  }

  lemma GitHubHostIsValid()
    ensures UrlParser.ValidHost(GitHubHost)
  {
  }

  lemma OriginIsHttpsHost(path: string)
    ensures GitHubOrigin + path == "https://" + GitHubHost + path
  {
    assert GitHubOrigin == "https://" + GitHubHost;
  }

  /** A pull-request path is the serialization of its four segments. */
  lemma PrPathIsSerialized(owner: string, repo: string, number: string)
    ensures PrPath(owner, repo, number) == UrlParser.Serialize([owner, repo, "pull", number])
  {
    var s4 := UrlParser.Serialize([number]);
    assert s4 == "/" + number + UrlParser.Serialize([]) by {
      assert [number][1..] == [];
    }
    var s3 := UrlParser.Serialize(["pull", number]);
    assert s3 == "/" + "pull" + s4 by {
      assert ["pull", number][1..] == [number];
    }
    assert s3 == "/pull/" + number;
    var s2 := UrlParser.Serialize([repo, "pull", number]);
    assert s2 == "/" + repo + s3 by {
      assert [repo, "pull", number][1..] == ["pull", number];
    }
    assert UrlParser.Serialize([owner, repo, "pull", number]) == "/" + owner + s2 by {
      assert [owner, repo, "pull", number][1..] == [repo, "pull", number];
    }
  }

  /** Splitting a pull-request path on `/` gives back its segments. */
  lemma SplitOfPrPath(owner: string, repo: string, number: string)
    requires PlainParts(owner, repo, number)
    ensures Split(PrPath(owner, repo, number), '/') == ["", owner, repo, "pull", number]
  {
    var s2 := repo + ("/" + ("pull" + ("/" + number)));
    var s1 := owner + ("/" + s2);
    PrPathSegments(owner, repo, number);
    SplitOfRepoPart(repo, number);
    NoSlash(owner);
    SplitBehind(owner, s2, [repo, "pull", number]);
    SplitBehind("", s1, [owner, repo, "pull", number]);
  }

  /** Splitting `<repo>/pull/<number>` on `/`. */
  lemma SplitOfRepoPart(repo: string, number: string)
    requires UrlParser.PlainSegment(repo) && UrlParser.PlainSegment(number)
    ensures Split(repo + ("/" + ("pull" + ("/" + number))), '/') == [repo, "pull", number]
  {
    NoSlash(number);
    SplitNoSeparator(number, '/');
    SplitBehind("pull", number, [number]);
    NoSlash(repo);
    SplitBehind(repo, "pull" + ("/" + number), ["pull", number]);
  }

  /** A pull-request path is its five segments joined with `/`. */
  lemma PrPathSegments(owner: string, repo: string, number: string)
    ensures PrPath(owner, repo, number) == "" + ("/" + (owner + ("/" + (repo + ("/" + ("pull" + ("/" + number)))))))
  {
    assert "/pull/" + number == "/" + ("pull" + ("/" + number));
  }

  /** A segment without `/` put before a split text comes first in its split. */
  lemma SplitBehind(a: string, b: string, parts: seq<string>)
    requires '/' !in a && Split(b, '/') == parts
    ensures Split(a + ("/" + b), '/') == [a] + parts
  {
    SplitAtSeparator(a, '/', b);
  }

  /** A URL whose host is followed directly by a query string has the path `/`: the owner is
      empty and there is no repository or number. */
  lemma MetadataOfQueryOnlyUrl(host: string, query: string)
    requires UrlParser.ValidHost(host)
    ensures GetGitHubMetadata("https://" + host + ("?" + query)) == Ok(Metadata(Some(""), None, None))
  {
    UrlParser.PathnameOfQueryOnly(host, query);
    SplitAtSeparator("", '/', "");
    SplitNoSeparator("", '/');
    assert "" + (['/'] + "") == "/";
  }

  lemma NoSlash(s: string)
    requires UrlParser.PlainSegment(s)
    ensures '/' !in s
  {
  }

  /** The JSON fields of the pull-request response that `getPR` reads. */
  datatype PrResponse = PrResponse(title: string, htmlUrl: string)

  /** The GET request `getPR` sends: the pull-request endpoint and exactly three headers. */
  function PrRequest(md: Metadata, token: string): (q: Request)
    ensures q.httpMethod == "GET" && q.body.None? && |q.headers| == 3
    ensures HeaderValue(q.headers, "Authorization") == Some("Bearer " + token)
    ensures HeaderValue(q.headers, "Content-Type") == Some("application/vnd.github+json")
    ensures HeaderValue(q.headers, "X-GitHub-Api-Version") == Some("2022-11-28")
  {
    PrHeaderValues(token);
    Request(
      "GET",
      "https://api.github.com/repos/" + Render(md.owner) + "/" + Render(md.repo) + "/pulls/" + Render(md.id),
      PrHeaders(token),
      None)
  }

  function PrHeaders(token: string): seq<Header> {
    [ Header("Content-Type", "application/vnd.github+json"),
      Header("Authorization", "Bearer " + token),
      Header("X-GitHub-Api-Version", "2022-11-28") ]
  }

  /** Each of the three header names is looked up past the others: they differ in their first
      character. */
  lemma PrHeaderValues(token: string)
    ensures HeaderValue(PrHeaders(token), "Content-Type") == Some("application/vnd.github+json")
    ensures HeaderValue(PrHeaders(token), "Authorization") == Some("Bearer " + token)
    ensures HeaderValue(PrHeaders(token), "X-GitHub-Api-Version") == Some("2022-11-28")
  {
    var hs := PrHeaders(token);
    assert hs[0].name[0] == 'C' && hs[1].name[0] == 'A' && hs[2].name[0] == 'X';
    var x := "X-GitHub-Api-Version";
    assert x[0] == 'X';
    assert hs[1..][1..] == [hs[2]] && hs[1..][0] == hs[1];
    assert HeaderValue(hs, x) == HeaderValue(hs[1..], x) == HeaderValue([hs[2]], x);
  }

  function PrItem(md: Metadata, response: PrResponse, now: int): HistoryItem
  {
    var id := Render(md.id);
    HistoryItem(
      "PR-" + id, GitHub, response.title,
      "[PR #" + id + " - " + response.title + "](" + response.htmlUrl + ")",
      now, response.htmlUrl, None, None)
  }

  /** `getPR(text, token)`: the URL is parsed first, so a malformed URL fails even without a
      token; a missing or empty token then fails before any request is built. */
  function GetPR(text: string, token: Option<string>, response: PrResponse, now: int): (r: Result<Fetched, string>)
    ensures GetGitHubMetadata(text).Err? ==> r == Err(InvalidUrl)
    ensures GetGitHubMetadata(text).Ok? && !Truthy(token) ==> r == Err(TokenMissing)
    ensures r.Ok? <==> GetGitHubMetadata(text).Ok? && Truthy(token)
    ensures r.Ok? ==>
      var md := GetGitHubMetadata(text).value;
      && r.value.request.httpMethod == "GET"
      && r.value.request.url == "https://api.github.com/repos/" + Render(md.owner) + "/" + Render(md.repo) + "/pulls/" + Render(md.id)
      && HeaderValue(r.value.request.headers, "Authorization") == Some("Bearer " + token.value)
      && HeaderValue(r.value.request.headers, "Content-Type") == Some("application/vnd.github+json")
      && HeaderValue(r.value.request.headers, "X-GitHub-Api-Version") == Some("2022-11-28")
      && |r.value.request.headers| == 3 && r.value.request.body.None?
      && r.value.item.id == "PR-" + Render(md.id)
      && r.value.item.kind == GitHub
      && r.value.item.labelText == response.title
      && r.value.item.url == response.htmlUrl
      && r.value.item.date == now
      && r.value.item.markdown == "[PR #" + Render(md.id) + " - " + response.title + "](" + response.htmlUrl + ")"
      && r.value.item.branchName.None? && r.value.item.prName.None?
  {
    match GetGitHubMetadata(text)
    case Err(e) => Err(e)
    case Ok(md) =>
      if !Truthy(token) then Err(TokenMissing)
      else Ok(Fetched(PrRequest(md, token.value), PrItem(md, response, now)))
  }

  /** For a bare pull-request URL the request targets `/repos/<owner>/<repo>/pulls/<number>`
      and the item id is `PR-<number>`. */
  lemma GetPROfPrUrl(owner: string, repo: string, number: string, token: string, response: PrResponse, now: int)
    requires PlainParts(owner, repo, number)
    requires token != ""
    ensures var r := GetPR(PrUrl(owner, repo, number), Some(token), response, now);
      && r.Ok?
      && r.value.request.url == "https://api.github.com/repos/" + owner + "/" + repo + "/pulls/" + number
      && r.value.item.id == "PR-" + number
      && r.value.item.markdown == "[PR #" + number + " - " + response.title + "](" + response.htmlUrl + ")"
  {
    MetadataOfPrUrl(owner, repo, number);
  }
}

=== FILE: good_morning.dfy ===
/** src/features/good-morning/good-morning.tsx: the stand-up note built from the greeting and
    the two text areas, and the copy and reset buttons. The greeting is random
    (`useGreeting`), so its message is an input, and so is the one a reroll draws. */
module GoodMorning {
  import opened Wrappers
  import opened JsText

  /** `greeting.message`, `yesterday` and `today`. */
  datatype Note = Note(message: string, yesterday: string, today: string)

  const YesterdayHeading := "\n\nYesterday:\n"
  const TodayHeading := "Today:\n"

  /** The part `gm` writes for yesterday: nothing when it is empty. */
  function YesterdayPart(y: string): (r: string)
    ensures r == [] <==> y == []
  {
    if y != "" then YesterdayHeading + (y + "\n\n") else ""
  }

  /** The part `gm` writes for today: nothing when it is empty. */
  function TodayPart(t: string): (r: string)
    ensures r == [] <==> t == []
  {
    if t != "" then TodayHeading + t else ""
  }

  /** The `gm` memo: the message, the two parts, and a closing line break. */
  function Gm(n: Note): (r: string)
    ensures StartsWith(r, n.message)
    ensures |r| > |n.message| && r[|r| - 1] == '\n'
  {
    var r := n.message + (YesterdayPart(n.yesterday) + (TodayPart(n.today) + "\n"));
    assert r[..|n.message|] == n.message;
    r
  }

  /** The `pristine` memo. */
  predicate Pristine(n: Note) {
    n.yesterday == "" && n.today == ""
  }

  /** A pristine note is the greeting alone. */
  lemma PristineNote(n: Note)
    ensures Pristine(n) <==> Gm(n) == n.message + "\n"
  {
    if !Pristine(n) {
      assert |Gm(n)| > |n.message + "\n"|;
    }
  }

  /** The yesterday heading follows the message exactly when yesterday is filled in. */
  lemma YesterdayShownIff(n: Note)
    ensures var g := Gm(n);
      n.yesterday != "" <==> StartsWith(g[|n.message|..], YesterdayHeading)
  {
    var g := Gm(n);
    var rest := YesterdayPart(n.yesterday) + (TodayPart(n.today) + "\n");
    assert g[|n.message|..] == rest;
    if n.yesterday != "" {
      assert rest[..|YesterdayHeading|] == YesterdayHeading;
    } else if n.today != "" {
      assert rest[0] == 'T';
    } else {
      assert rest == "\n";
    }
  }

  /** The today heading follows the yesterday part exactly when today is filled in; with
      yesterday empty it follows the message directly. */
  lemma TodayShownIff(n: Note)
    ensures var g := Gm(n);
      var at := |n.message| + |YesterdayPart(n.yesterday)|;
      at <= |g| && (n.today != "" <==> StartsWith(g[at..], TodayHeading))
  {
    var g := Gm(n);
    var at := |n.message| + |YesterdayPart(n.yesterday)|;
    var rest := TodayPart(n.today) + "\n";
    assert g[at..] == rest;
    if n.today != "" {
      assert rest[..|TodayHeading|] == TodayHeading;
    } else {
      assert rest == "\n";
    }
  }

  /** `alert` raised by the copy button. */
  const CopiedText := "Copied to clipboard!"

  /** The clipboard text and the alert of the copy button. */
  datatype Copied = Copied(written: string, alert: string)

  /** The copy button: disabled on a pristine note, otherwise writes the trimmed note. */
  function Copy(n: Note): (r: Option<Copied>)
    ensures r.None? <==> Pristine(n)
    ensures r.Some? ==> r.value.written == Trim(Gm(n)) && r.value.alert == CopiedText
  {
    if Pristine(n) then None else Some(Copied(Trim(Gm(n)), CopiedText))
  }

  /** The closing line break never reaches the clipboard: a note whose text neither starts nor
      ends with white space is copied as written, without it. */
  lemma TrimDropsClosingBreak(s: string)
    requires s != [] && !IsSpace(s[0]) && !IsSpace(s[|s| - 1])
    ensures Trim(s + "\n") == s
  {
    var u := s + "\n";
    var r := Trim(u);
    assert Span(u, IsSpace) == 0 by {
      assert u[0] == s[0];
    }
    assert u[..|r|] == r;
    assert u[|s| - 1] == s[|s| - 1] && u[|s|] == '\n';
    assert |r| == |s|;
    assert r == u[..|s|] == s;
  }

  /** A note built from a greeting, a middle and a closing part loses only its final line break
      when trimmed, provided it starts and its closing part ends with visible text. */
  lemma TrimOfParts(m: string, y: string, t: string)
    requires m != [] && !IsSpace(m[0])
    requires t != [] && !IsSpace(t[|t| - 1])
    ensures Trim(m + (y + (t + "\n"))) == m + (y + t)
  {
    var s := m + (y + t);
    assert s[0] == m[0];
    assert s[|s| - 1] == t[|t| - 1];
    assert m + (y + (t + "\n")) == s + "\n";
    TrimDropsClosingBreak(s);
  }

  lemma CopyOfFilledNote(n: Note)
    requires n.message != [] && !IsSpace(n.message[0])
    requires n.today != [] && !IsSpace(n.today[|n.today| - 1])
    ensures Copy(n) == Some(Copied(n.message + (YesterdayPart(n.yesterday) + (TodayHeading + n.today)), CopiedText))
  {
    var t := TodayPart(n.today);
    assert t == TodayHeading + n.today;
    assert t[|t| - 1] == n.today[|n.today| - 1];
    TrimOfParts(n.message, YesterdayPart(n.yesterday), t);
  }

  /** The reset button: disabled on a pristine note, otherwise rerolls the greeting to
      `rerolled` and empties both text areas. */
  function Reset(n: Note, rerolled: string): (r: Note)
    ensures Pristine(r)
    ensures Pristine(n) ==> r == n
    ensures !Pristine(n) ==> r.message == rerolled
  {
    if Pristine(n) then n else Note(rerolled, "", "")
  }

  /** After a reset only the greeting is left, and both buttons are disabled again. */
  lemma ResetLeavesGreeting(n: Note, rerolled: string)
    ensures var r := Reset(n, rerolled);
      Gm(r) == r.message + "\n" && Copy(r).None? && Reset(r, rerolled) == r
  {
    PristineNote(Reset(n, rerolled));
  }
}

=== FILE: history_items.dfy ===
/** The record the clipboard watcher keeps per captured link (`HistoryItem` in
    src/features/clipboard-watcher/history-panel.tsx), and the id bookkeeping on lists of them. */
module HistoryItems {
  import opened Wrappers

  datatype ItemType = Linear | GitHub

  /** `labelText` is the source's `label` (a reserved word here); `date` is the capture time in milliseconds since the epoch; `branchName` and `prName`
      are the optional fields (`undefined` is `None`). */
  datatype HistoryItem = HistoryItem(
    id: string,
    kind: ItemType,
    labelText: string,
    markdown: string,
    date: int,
    url: string,
    branchName: Option<string>,
    prName: Option<string>)

  /** `items.some((h) => h.id === id)` */
  predicate HasId(items: seq<HistoryItem>, id: string) {
    exists i :: 0 <= i < |items| && items[i].id == id
  }

  /** No two entries share an id: the invariant the history store maintains. */
  predicate UniqueIds(items: seq<HistoryItem>) {
    forall i, j :: 0 <= i < j < |items| ==> items[i].id != items[j].id
  }
}

=== FILE: history_panel.dfy ===
/** src/features/clipboard-watcher/history-panel.tsx: what each history row copies, the
    sentence a copy announces, the order the rows are shown in, and which row is highlighted. */
module HistoryPanel {
  import opened Wrappers
  import opened JsText
  import opened HistoryItems
  import ConfigStore
  import ClipboardWatcher

  /** `contentType` of `copyText`; `Markdown` is its default. */
  datatype ContentType = Markdown | PrName | BranchName

  function Label(ct: ContentType): string {
    match ct
    case Markdown => "Markdown"
    case PrName => "PR name"
    case BranchName => "Branch name"
  }

  function KindText(k: ItemType): string {
    match k
    case Linear => "Linear issue"
    case GitHub => "GitHub"
  }

  const ForText := " for "
  const CopiedSuffix := " copied to clipboard."

  /** The message `copyText` hands to `onItemClick`. */
  function Confirmation(ct: ContentType, k: ItemType, id: string): string {
    Label(ct) + (ForText + (KindText(k) + (" " + (id + CopiedSuffix))))
  }

  function ContentOfHead(c: char): Option<ContentType> {
    if c == 'M' then Some(Markdown)
    else if c == 'P' then Some(PrName)
    else if c == 'B' then Some(BranchName)
    else None
  }

  function KindOfHead(c: char): ItemType {
    if c == 'L' then Linear else GitHub
  }

  /** The first letter of a label, and of an item type's name, tells which one it is. */
  lemma HeadsDecode(ct: ContentType, k: ItemType)
    ensures |Label(ct)| > 0 && ContentOfHead(Label(ct)[0]) == Some(ct)
    ensures |KindText(k)| > 0 && KindOfHead(KindText(k)[0]) == k
  {
  }

  /** Reads the content type, the item type and the id back from a confirmation. */
  function DecodeConfirmation(s: string): (r: Option<(ContentType, ItemType, string)>)
    ensures r.Some? ==> Confirmation(r.value.0, r.value.1, r.value.2) == s
  {
    if s == [] || ContentOfHead(s[0]).None? then None
    else
      var ct := ContentOfHead(s[0]).value;
      var a := |Label(ct)| + |ForText|;
      if |s| <= a then None
      else
        var k := KindOfHead(s[a]);
        var b := a + |KindText(k)| + 1;
        if |s| < b + |CopiedSuffix| then None
        else
          var id := s[b..|s| - |CopiedSuffix|];
          if Confirmation(ct, k, id) == s then Some((ct, k, id)) else None
  }

  /** Where the parts of a sentence laid out as a confirmation sit. */
  lemma ConfirmationLayout(l: string, f: string, k: string, id: string, x: string)
    requires |l| > 0 && |k| > 0
    ensures var s := l + (f + (k + (" " + (id + x))));
      && s[0] == l[0]
      && s[|l| + |f|] == k[0]
      && |l| + |f| + |k| + 1 + |x| <= |s|
      && s[|l| + |f| + |k| + 1..|s| - |x|] == id
  {
    var s := l + (f + (k + (" " + (id + x))));
    assert s[|l|..] == f + (k + (" " + (id + x)));
    assert s[|l| + |f|..] == k + (" " + (id + x));
    assert s[|l| + |f| + |k| + 1..] == id + x;
  }

  /** Every confirmation reads back as what it announces. */
  lemma DecodeOfConfirmation(ct: ContentType, k: ItemType, id: string)
    ensures DecodeConfirmation(Confirmation(ct, k, id)) == Some((ct, k, id))
  {
    HeadsDecode(ct, k);
    ConfirmationLayout(Label(ct), ForText, KindText(k), id, CopiedSuffix);
  }

  /** Distinct copies never announce the same sentence. */
  lemma ConfirmationInjective(ct: ContentType, k: ItemType, id: string, ct': ContentType, k': ItemType, id': string)
    ensures Confirmation(ct, k, id) == Confirmation(ct', k', id') <==> ct == ct' && k == k' && id == id'
  {
    DecodeOfConfirmation(ct, k, id);
    DecodeOfConfirmation(ct', k', id');
  }

  /** The text `copyText` writes to the clipboard, if any, and the confirmation it announces. */
  datatype Copy = Copy(written: Option<string>, content: string)

  /** `copyText(item, contentType)`: the markdown is always written; the PR name and the branch
      name only when the item has a non-empty one. The confirmation is announced either way. */
  function CopyText(item: HistoryItem, ct: ContentType): (c: Copy)
    ensures DecodeConfirmation(c.content) == Some((ct, item.kind, item.id))
    ensures c.written.None? <==> ct != Markdown && !Truthy(if ct == PrName then item.prName else item.branchName)
    ensures c.written.Some? ==> c.written == (match ct
      case Markdown => Some(item.markdown)
      case PrName => item.prName
      case BranchName => item.branchName)
  {
    DecodeOfConfirmation(ct, item.kind, item.id);
    var content := Confirmation(ct, item.kind, item.id);
    if ct == Markdown then Copy(Some(item.markdown), content)
    else if ct == PrName && Truthy(item.prName) then Copy(item.prName, content)
    else if ct == BranchName && Truthy(item.branchName) then Copy(item.branchName, content)
    else Copy(None, content)
  }

  /** A click on a row, through the watcher's `onItemClick`: the watcher shows `copied` and the
      alert announces the copied item, whether or not anything was written. */
  lemma CopyThenClick(w: ClipboardWatcher.Watcher, item: HistoryItem, ct: ContentType)
    ensures var c := CopyText(item, ct);
      var (next, alert) := ClipboardWatcher.OnItemClick(w, c.content);
      && next.status == ClipboardWatcher.Copied
      && DecodeConfirmation(alert.content) == Some((ct, item.kind, item.id))
  {
  }

  // ---------------------------------------------------------------------------
  // The display order: a stable sort on the difference of the two items' timestamps in
  // milliseconds, `b`'s minus `a`'s, which puts the newest first.

  predicate SortedByDate(s: seq<HistoryItem>) {
    forall i, j :: 0 <= i < j < |s| ==> s[i].date >= s[j].date
  }

  /** Where an item goes in a list sorted newest first: before the first entry no newer than it. */
  function InsertPoint(x: HistoryItem, s: seq<HistoryItem>): (k: nat)
    ensures k <= |s|
    ensures forall i :: 0 <= i < k ==> s[i].date > x.date
    ensures k < |s| ==> s[k].date <= x.date
  {
    if s == [] || s[0].date <= x.date then 0 else 1 + InsertPoint(x, s[1..])
  }

  function InsertByDate(x: HistoryItem, s: seq<HistoryItem>): (r: seq<HistoryItem>)
    ensures |r| == |s| + 1
    ensures multiset(r) == multiset(s) + multiset{x}
  {
    var k := InsertPoint(x, s);
    assert s == s[..k] + s[k..];
    s[..k] + ([x] + s[k..])
  }

  lemma InsertKeepsSorted(x: HistoryItem, s: seq<HistoryItem>)
    requires SortedByDate(s)
    ensures SortedByDate(InsertByDate(x, s))
  {
    var k := InsertPoint(x, s);
    var r := InsertByDate(x, s);
    forall i, j | 0 <= i < j < |r| ensures r[i].date >= r[j].date {
      if j < k {
        assert r[i] == s[i] && r[j] == s[j];
      } else if j == k {
        assert r[j] == x && r[i] == s[i];
      } else if i < k {
        assert r[i] == s[i] && r[j] == s[j - 1];
      } else if i == k {
        assert r[i] == x && r[j] == s[j - 1];
        assert s[k].date <= x.date;
      } else {
        assert r[i] == s[i - 1] && r[j] == s[j - 1];
      }
    }
  }

  /** The rows in display order. */
  function SortByDate(xs: seq<HistoryItem>): (r: seq<HistoryItem>)
    ensures SortedByDate(r)
    ensures |r| == |xs|
    ensures multiset(r) == multiset(xs)
  {
    if xs == [] then []
    else
      var rest := SortByDate(xs[1..]);
      InsertKeepsSorted(xs[0], rest);
      assert xs == [xs[0]] + xs[1..];
      InsertByDate(xs[0], rest)
  }

  /** The entries of one date, in order. */
  function WithDate(xs: seq<HistoryItem>, d: int): seq<HistoryItem>
  {
    if xs == [] then []
    else (if xs[0].date == d then [xs[0]] else []) + WithDate(xs[1..], d)
  }

  lemma {:induction false} WithDateConcat(a: seq<HistoryItem>, b: seq<HistoryItem>, d: int)
    ensures WithDate(a + b, d) == WithDate(a, d) + WithDate(b, d)
  {
    if a == [] {
      assert a + b == b;
    } else {
      var c := a + b;
      var h := if a[0].date == d then [a[0]] else [];
      assert c[0] == a[0] && c[1..] == a[1..] + b;
      assert WithDate(c, d) == h + WithDate(a[1..] + b, d);
      WithDateConcat(a[1..], b, d);
      assert WithDate(a, d) == h + WithDate(a[1..], d);
    }
  }

  lemma {:induction false} WithDateNone(xs: seq<HistoryItem>, d: int)
    requires forall i :: 0 <= i < |xs| ==> xs[i].date > d
    ensures WithDate(xs, d) == []
  {
    if xs != [] {
      WithDateNone(xs[1..], d);
    }
  }

  lemma InsertKeepsOrder(x: HistoryItem, s: seq<HistoryItem>, d: int)
    ensures WithDate(InsertByDate(x, s), d) == (if x.date == d then [x] else []) + WithDate(s, d)
  {
    var k := InsertPoint(x, s);
    assert InsertByDate(x, s) == s[..k] + ([x] + s[k..]);
    WithDateOfInsert(s[..k], x, s[k..], d);
    assert s[..k] + s[k..] == s;
  }

  /** Putting `x` after entries that are all newer adds it, and nothing else, to its date. */
  lemma WithDateOfInsert(a: seq<HistoryItem>, x: HistoryItem, b: seq<HistoryItem>, d: int)
    requires forall i :: 0 <= i < |a| ==> a[i].date > x.date
    ensures WithDate(a + ([x] + b), d) == (if x.date == d then [x] else []) + WithDate(a + b, d)
  {
    WithDateConcat(a, [x] + b, d);
    WithDateConcat([x], b, d);
    assert WithDate([x], d) == (if x.date == d then [x] else []) + WithDate([], d);
    WithDateConcat(a, b, d);
    if x.date == d {
      WithDateNone(a, d);
    }
  }

  /** The sort is stable: entries of the same date keep the order they have in the history. */
  lemma {:induction false} SortIsStable(xs: seq<HistoryItem>, d: int)
    ensures WithDate(SortByDate(xs), d) == WithDate(xs, d)
  {
    if xs != [] {
      SortIsStable(xs[1..], d);
      InsertKeepsOrder(xs[0], SortByDate(xs[1..]), d);
    }
  }

  lemma InsertKeepsUnique(x: HistoryItem, s: seq<HistoryItem>)
    requires UniqueIds(s) && !HasId(s, x.id)
    ensures UniqueIds(InsertByDate(x, s))
  {
    var k := InsertPoint(x, s);
    var r := InsertByDate(x, s);
    forall i, j | 0 <= i < j < |r| ensures r[i].id != r[j].id {
      if j < k {
        assert r[i] == s[i] && r[j] == s[j];
      } else if j == k {
        assert r[j] == x && r[i] == s[i];
      } else if i < k {
        assert r[i] == s[i] && r[j] == s[j - 1];
      } else if i == k {
        assert r[i] == x && r[j] == s[j - 1];
      } else {
        assert r[i] == s[i - 1] && r[j] == s[j - 1];
      }
    }
  }

  /** Sorting keeps ids unique. */
  lemma {:induction false} SortKeepsUnique(xs: seq<HistoryItem>)
    requires UniqueIds(xs)
    ensures UniqueIds(SortByDate(xs))
  {
    if xs != [] {
      var rest := SortByDate(xs[1..]);
      SortKeepsUnique(xs[1..]);
      forall i | 0 <= i < |rest| ensures rest[i].id != xs[0].id {
        assert rest[i] in multiset(xs[1..]);
        var j :| 0 <= j < |xs[1..]| && xs[1..][j] == rest[i];
        assert xs[j + 1] == rest[i];
      }
      InsertKeepsUnique(xs[0], rest);
    }
  }

  // ---------------------------------------------------------------------------
  // The rows.

  /** One rendered row: whether it is highlighted, which copy buttons it shows, and the id its
      remove button passes to `onRemoveClick`. */
  datatype Row = Row(item: HistoryItem, active: bool, branchButton: bool, prButton: bool, removes: string)

  function RowOf(item: HistoryItem, activeItem: Option<string>): Row {
    Row(item, activeItem == Some(item.id), Truthy(item.branchName), Truthy(item.prName), item.id)
  }

  /** The panel's rows, newest first. */
  function View(history: seq<HistoryItem>, activeItem: Option<string>): (rows: seq<Row>)
    ensures |rows| == |history|
    ensures forall i, j :: 0 <= i < j < |rows| ==> rows[i].item.date >= rows[j].item.date
    ensures forall i :: 0 <= i < |rows| ==>
      && (rows[i].active <==> activeItem == Some(rows[i].item.id))
      && (rows[i].branchButton <==> Truthy(rows[i].item.branchName))
      && (rows[i].prButton <==> Truthy(rows[i].item.prName))
      && rows[i].removes == rows[i].item.id
      && rows[i].item in history
    ensures forall i :: 0 <= i < |rows| ==> rows[i].item == SortByDate(history)[i]
  {
    var s := SortByDate(history);
    SortedItemsIn(history, s);
    Rows(s, activeItem)
  }

  /** One row per item, in order. */
  function Rows(s: seq<HistoryItem>, activeItem: Option<string>): (rows: seq<Row>)
    ensures |rows| == |s|
    ensures forall i :: 0 <= i < |s| ==> rows[i] == RowOf(s[i], activeItem)
  {
    seq(|s|, i requires 0 <= i < |s| => RowOf(s[i], activeItem))
  }

  /** A reordering holds only items of the original history. */
  lemma SortedItemsIn(history: seq<HistoryItem>, s: seq<HistoryItem>)
    requires multiset(s) == multiset(history)
    ensures forall i :: 0 <= i < |s| ==> s[i] in history
  {
    assert forall i :: 0 <= i < |s| ==> s[i] in multiset(history);
  }

  /** `Nothing captured yet.` shows exactly when there are no rows. */
  lemma NoticeWhenEmpty(history: seq<HistoryItem>, activeItem: Option<string>)
    ensures View(history, activeItem) == [] <==> history == []
  {
  }

  /** With unique ids, at most one row is highlighted. */
  lemma AtMostOneActive(history: seq<HistoryItem>, activeItem: Option<string>)
    requires UniqueIds(history)
    ensures var rows := View(history, activeItem);
      forall i, j :: 0 <= i < |rows| && 0 <= j < |rows| && rows[i].active && rows[j].active ==> i == j
  {
    SortKeepsUnique(history);
    var rows := View(history, activeItem);
    var s := SortByDate(history);
    assert forall i :: 0 <= i < |rows| ==> rows[i].item == s[i];
  }

  /** An active id the history holds is highlighted on some row. */
  lemma ActiveIdHasRow(history: seq<HistoryItem>, id: string)
    requires HasId(history, id)
    ensures var rows := View(history, Some(id));
      exists i :: 0 <= i < |rows| && rows[i].active
  {
    var k :| 0 <= k < |history| && history[k].id == id;
    var s := SortByDate(history);
    assert history[k] in multiset(s);
    var i :| 0 <= i < |s| && s[i] == history[k];
    assert View(history, Some(id))[i].active;
  }

  /** When a poll shows `exists`, exactly the row of the recognised id is highlighted. */
  lemma ExistsHighlightsOneRow(w: ClipboardWatcher.Watcher, clip: Option<string>, history: seq<HistoryItem>)
    requires UniqueIds(history) && !ClipboardWatcher.Paused(w, clip)
    requires ClipboardWatcher.Poll(w, true, clip, history).next.status == ClipboardWatcher.Exists
    ensures var rows := View(history, ClipboardWatcher.Poll(w, true, clip, history).next.active);
      && (exists i :: 0 <= i < |rows| && rows[i].active)
      && (forall i, j :: 0 <= i < |rows| && 0 <= j < |rows| && rows[i].active && rows[j].active ==> i == j)
  {
    var active := ClipboardWatcher.Poll(w, true, clip, history).next.active;
    ClipboardWatcher.ExistsHighlightsKnownId(w, clip, history);
    ActiveIdHasRow(history, active.value);
    AtMostOneActive(history, active);
  }

  /** The remove button of a row takes that row's entry out of the stored history, and, on the
      highlighted row, resets the watcher and empties the clipboard. */
  lemma RemoveButtonDropsRow(w: ClipboardWatcher.Watcher, store: ConfigStore.Store, history: seq<HistoryItem>, i: nat)
    requires ConfigStore.ListAt(store, ConfigStore.ClipboardHistory) == Some(history)
    requires i < |history|
    ensures var row := View(history, w.active)[i];
      var r := ClipboardWatcher.HandleRemove(w, row.removes, Some(store));
      && r.store.Some?
      && ConfigStore.ListAt(r.store.value, ConfigStore.ClipboardHistory).Some?
      && !HasId(ConfigStore.ListAt(r.store.value, ConfigStore.ClipboardHistory).value, row.item.id)
      && (row.active ==> r.next == ClipboardWatcher.Initial && r.clipboard == Some(""))
  {
  }
}

=== FILE: js_text.dfy ===
/** The JavaScript string built-ins the core relies on, stated on code-point sequences:
    the white-space class shared by `String.prototype.trim` and the regular-expression `\s`,
    `trim`, `split` on one separator, truthiness of an optional string, and the decimal
    rendering of integers used by template literals. */
module JsText {
  import opened Wrappers

  /** ECMAScript WhiteSpace and LineTerminator code points: exactly what `trim` strips and
      what the regular-expression class `\s` matches. */
  predicate IsSpace(c: char) {
    || c == '\t' || c == '\n' || c == '\U{B}' || c == '\U{C}' || c == '\r' || c == ' '
    || c == '\U{A0}' || c == '\U{1680}' || ('\U{2000}' <= c <= '\U{200A}')
    || c == '\U{2028}' || c == '\U{2029}' || c == '\U{202F}' || c == '\U{205F}'
    || c == '\U{3000}' || c == '\U{FEFF}'
  }

  predicate IsDigit(c: char) { '0' <= c <= '9' }
  predicate IsAsciiUpper(c: char) { 'A' <= c <= 'Z' }
  predicate IsAsciiLower(c: char) { 'a' <= c <= 'z' }
  predicate IsAsciiLetter(c: char) { IsAsciiUpper(c) || IsAsciiLower(c) }
  predicate IsAsciiAlnum(c: char) { IsAsciiLetter(c) || IsDigit(c) }

  predicate AllDigits(s: string) { forall i :: 0 <= i < |s| ==> IsDigit(s[i]) }
  predicate NoSpace(s: string) { forall i :: 0 <= i < |s| ==> !IsSpace(s[i]) }

  /** `s.startsWith(p)` */
  predicate StartsWith(s: string, p: string) { |p| <= |s| && s[..|p|] == p }

  /** JavaScript truthiness of an optional string: defined and non-empty (`!token` is its negation). */
  predicate Truthy(s: Option<string>) { s.Some? && s.value != "" }

  /** Length of the longest prefix of `s` whose characters all satisfy `p`. */
  function Span(s: string, p: char -> bool): (n: nat)
    ensures n <= |s|
    ensures forall k :: 0 <= k < n ==> p(s[k])
    ensures n == |s| || !p(s[n])
  {
    if s == [] || !p(s[0]) then 0 else 1 + Span(s[1..], p)
  }

  /** `Span` is pinned down by its contract: any `n` meeting it is the span. */
  lemma SpanIs(s: string, p: char -> bool, n: nat)
    requires n <= |s|
    requires forall k :: 0 <= k < n ==> p(s[k])
    requires n == |s| || !p(s[n])
    ensures Span(s, p) == n
  {
  }

  /** How a template literal prints a value that may be `undefined`. */
  function Render(s: Option<string>): string
  {
    if s.Some? then s.value else "undefined"
  }

  /** Length of the longest suffix of `s` made of white space. */
  function TrailingSpaces(s: string): (n: nat)
    ensures n <= |s|
    ensures forall k :: |s| - n <= k < |s| ==> IsSpace(s[k])
    ensures n == |s| || !IsSpace(s[|s| - n - 1])
  {
    if s == [] || !IsSpace(s[|s| - 1]) then 0 else 1 + TrailingSpaces(s[..|s| - 1])
  }

  /** `s.trim()`: the slice of `s` left after removing white space at both ends. */
  function Trim(s: string): (r: string)
    ensures var i := Span(s, IsSpace);
            && i + |r| <= |s| && s[i..i + |r|] == r
            && (forall k :: 0 <= k < i ==> IsSpace(s[k]))
            && (forall k :: i + |r| <= k < |s| ==> IsSpace(s[k]))
    ensures r == [] || (!IsSpace(r[0]) && !IsSpace(r[|r| - 1]))
  {
    var a := Span(s, IsSpace);
    var rest := s[a..];
    var b := TrailingSpaces(rest);
    var r := rest[..|rest| - b];
    assert s[a..a + |r|] == r;
    r
  }

  /** Text that neither starts nor ends with whitespace is its own trim. */
  lemma TrimOfUntrimmed(s: string)
    requires s != [] && !IsSpace(s[0]) && !IsSpace(s[|s| - 1])
    ensures Trim(s) == s
  {
    assert Span(s, IsSpace) == 0;
    assert TrailingSpaces(s) == 0;
  }

  lemma TrimOfNoSpace(s: string)
    requires NoSpace(s)
    ensures Trim(s) == s
  {
    assert Span(s, IsSpace) == 0 by {
      if s != [] { assert !IsSpace(s[0]); }
    }
    assert TrailingSpaces(s) == 0 by {
      if s != [] { assert !IsSpace(s[|s| - 1]); }
    }
  }

  // ---------------------------------------------------------------------------
  // `s.split(sep)` for a one-character separator, and its inverse `parts.join(sep)`.

  function Join(parts: seq<string>, sep: char): string
    requires |parts| >= 1
  {
    if |parts| == 1 then parts[0] else parts[0] + [sep] + Join(parts[1..], sep)
  }

  /** `s.split(sep)`: the pieces between separators, in order; there is always one piece more
      than there are separators, so `"".split("/")` is `[""]`. */
  function Split(s: string, sep: char): (parts: seq<string>)
    ensures |parts| >= 1
    ensures forall i :: 0 <= i < |parts| ==> sep !in parts[i]
    ensures Join(parts, sep) == s
  {
    if s == [] then [""]
    else
      var rest := Split(s[1..], sep);
      if s[0] == sep then
        [""] + rest
      else
        assert [s[0]] + rest[0] + Join(rest, sep)[|rest[0]|..] == s by {
          if |rest| > 1 {
            assert Join(rest, sep) == rest[0] + [sep] + Join(rest[1..], sep);
          }
        }
        [[s[0]] + rest[0]] + rest[1..]
  }

  lemma {:induction false} SplitNoSeparator(s: string, sep: char)
    requires sep !in s
    ensures Split(s, sep) == [s]
  {
    if s != [] {
      SplitNoSeparator(s[1..], sep);
      assert [s[0]] + s[1..] == s;
    }
  }

  lemma {:induction false} SplitAtSeparator(a: string, sep: char, b: string)
    requires sep !in a
    ensures Split(a + ([sep] + b), sep) == [a] + Split(b, sep)
  {
    if a == [] {
      assert a + ([sep] + b) == [sep] + b;
      assert ([sep] + b)[1..] == b;
    } else {
      var s := a + ([sep] + b);
      assert s[1..] == a[1..] + ([sep] + b);
      SplitAtSeparator(a[1..], sep, b);
      assert [a[0]] + a[1..] == a;
    }
  }

  /** `split` undoes `join` when no piece contains the separator. */
  lemma {:induction false} SplitOfJoin(parts: seq<string>, sep: char)
    requires |parts| >= 1
    requires forall i :: 0 <= i < |parts| ==> sep !in parts[i]
    ensures Split(Join(parts, sep), sep) == parts
  {
    if |parts| == 1 {
      SplitNoSeparator(parts[0], sep);
    } else {
      SplitOfJoin(parts[1..], sep);
      SplitAtSeparator(parts[0], sep, Join(parts[1..], sep));
      assert [parts[0]] + parts[1..] == parts;
    }
  }

  // ---------------------------------------------------------------------------
  // Decimal rendering of integers, as `${n}` prints an integral number.

  function DigitChar(d: nat): (c: char)
    requires d < 10
    ensures IsDigit(c)
  {
    ('0' as int + d) as char
  }

  function DigitValue(c: char): nat
    requires IsDigit(c)
  {
    c as int - '0' as int
  }

  /** The value of a string of decimal digits. */
  function DigitsValue(s: string): nat
    requires AllDigits(s)
  {
    if s == [] then 0 else 10 * DigitsValue(s[..|s| - 1]) + DigitValue(s[|s| - 1])
  }

  /** Decimal digits of `n`, most significant first, without leading zeros. */
  function NatToString(n: nat): (s: string)
    ensures |s| >= 1 && AllDigits(s)
    ensures s[0] == '0' ==> n == 0
  {
    if n < 10 then [DigitChar(n)] else NatToString(n / 10) + [DigitChar(n % 10)]
  }

  function IntToString(i: int): (s: string)
  {
    if i < 0 then "-" + NatToString(-i) else NatToString(i)
  }

  /** Reads back what `IntToString` prints: an optional minus sign and at least one digit. */
  function ParseInt(s: string): Option<int>
  {
    if |s| >= 2 && s[0] == '-' && AllDigits(s[1..]) then Some(0 - DigitsValue(s[1..]) as int)
    else if |s| >= 1 && AllDigits(s) then Some(DigitsValue(s))
    else None
  }

  lemma {:induction false} NatToStringValue(n: nat)
    ensures DigitsValue(NatToString(n)) == n
  {
    if n >= 10 {
      NatToStringValue(n / 10);
      var s := NatToString(n);
      assert s[..|s| - 1] == NatToString(n / 10);
    }
  }

  lemma ParseIntOfIntToString(i: int)
    ensures ParseInt(IntToString(i)) == Some(i)
  {
    if i < 0 {
      var d := NatToString(-i);
      var s := "-" + d;
      assert s[0] == '-' && s[1..] == d;
      NatToStringValue(-i);
      assert ParseInt(s) == Some(0 - DigitsValue(d));
    } else {
      var d := NatToString(i);
      assert IsDigit(d[0]);
      NatToStringValue(i);
      assert ParseInt(d) == Some(DigitsValue(d));
    }
  }
}

=== FILE: json_text.dfy ===
/** The string quoting of `JSON.stringify` (QuoteJSONString, section 25.5.2.3 of ECMA-262) and
    the matching decoding of a JSON string body (section 7 of RFC 8259). Characters here are
    Unicode scalar values, so the lone-surrogate case of QuoteJSONString cannot arise. */
module JsonText {
  import opened Wrappers

  /** A character JSON may not carry unescaped inside a string. */
  predicate NeedsEscape(c: char) { c == '"' || c == '\\' || (c as int) < 0x20 }

  function HexDigit(d: nat): (c: char)
    requires d < 16
    ensures HexValue(c) == Some(d)
  {
    if d < 10 then ('0' as int + d) as char else ('a' as int + d - 10) as char
  }

  function HexValue(c: char): (r: Option<nat>)
    ensures r.Some? ==> r.value < 16
  {
    if '0' <= c <= '9' then Some(c as int - '0' as int)
    else if 'a' <= c <= 'f' then Some(c as int - 'a' as int + 10)
    else if 'A' <= c <= 'F' then Some(c as int - 'A' as int + 10)
    else None
  }

  /** The one-letter escapes: `\b \t \n \f \r \" \\`. */
  function ShortEscape(c: char): Option<char>
  {
    if c == '\U{8}' then Some('b')
    else if c == '\t' then Some('t')
    else if c == '\n' then Some('n')
    else if c == '\U{C}' then Some('f')
    else if c == '\r' then Some('r')
    else if c == '"' then Some('"')
    else if c == '\\' then Some('\\')
    else None
  }

  /** The character a `\x` escape stands for, `u` excepted. `\/` is accepted on input though
      `JSON.stringify` never writes it. */
  function ShortUnescape(x: char): (r: Option<char>)
    ensures r.Some? ==> ShortEscape(r.value) == Some(x) || x == '/'
  {
    if x == 'b' then Some('\U{8}')
    else if x == 't' then Some('\t')
    else if x == 'n' then Some('\n')
    else if x == 'f' then Some('\U{C}')
    else if x == 'r' then Some('\r')
    else if x == '"' then Some('"')
    else if x == '\\' then Some('\\')
    else if x == '/' then Some('/')
    else None
  }

  /** How one character is written inside a JSON string. */
  function EscapeChar(c: char): (r: string)
    ensures 1 <= |r| <= 6
    ensures !NeedsEscape(c) <==> r == [c]
    ensures NeedsEscape(c) ==> r[0] == '\\'
  {
    match ShortEscape(c)
    case Some(x) => ['\\', x]
    case None =>
      if (c as int) < 0x20 then ['\\', 'u', '0', '0', HexDigit(c as int / 16), HexDigit(c as int % 16)]
      else [c]
  }

  /** `JSON.stringify(s)` without the surrounding quotes. */
  function Escape(s: string): (r: string)
    ensures |r| >= |s|
    ensures (forall k :: 0 <= k < |s| ==> !NeedsEscape(s[k])) ==> r == s
  {
    if s == [] then [] else EscapeChar(s[0]) + Escape(s[1..])
  }

  /** `JSON.stringify(s)`. */
  function Quote(s: string): (r: string)
    ensures |r| >= 2 && r[0] == '"' && r[|r| - 1] == '"'
  {
    "\"" + Escape(s) + "\""
  }

  /** Decodes the body of a JSON string; `None` when it holds a raw quote or control character,
      a malformed escape, or a `\u` escape naming a surrogate. */
  function Unescape(s: string): (r: Option<string>)
    decreases |s|
  {
    if s == [] then Some([])
    else if s[0] == '\\' then
      if |s| < 2 then None
      else if ShortUnescape(s[1]).Some? then Prepend(ShortUnescape(s[1]).value, Unescape(s[2..]))
      else if s[1] == 'u' && |s| >= 6 then
        match HexQuad(s[2], s[3], s[4], s[5])
        case None => None
        case Some(v) =>
          if 0xD800 <= v < 0xE000 then None
          else Prepend(v as char, Unescape(s[6..]))
      else None
    else if NeedsEscape(s[0]) then None
    else Prepend(s[0], Unescape(s[1..]))
  }

  function HexQuad(a: char, b: char, c: char, d: char): (r: Option<nat>)
    ensures r.Some? ==> r.value < 0x10000
  {
    match (HexValue(a), HexValue(b), HexValue(c), HexValue(d))
    case (Some(w), Some(x), Some(y), Some(z)) => Some(((w * 16 + x) * 16 + y) * 16 + z)
    case _ => None
  }

  function Prepend(c: char, r: Option<string>): Option<string>
  {
    match r
    case None => None
    case Some(s) => Some([c] + s)
  }

  /** Decoding one escaped character and then the rest. */
  lemma UnescapeEscapeChar(c: char, rest: string)
    ensures Unescape(EscapeChar(c) + rest) == Prepend(c, Unescape(rest))
  {
    var e := EscapeChar(c);
    var s := e + rest;
    if ShortEscape(c).Some? {
      assert s[2..] == rest;
    } else if (c as int) < 0x20 {
      assert s[6..] == rest;
      assert HexQuad(s[2], s[3], s[4], s[5]) == Some(c as int);
    } else {
      assert s[1..] == rest;
    }
  }

  /** Decoding undoes `JSON.stringify` on strings. */
  lemma {:induction false} UnescapeEscape(s: string)
    ensures Unescape(Escape(s)) == Some(s)
  {
    if s != [] {
      UnescapeEscapeChar(s[0], Escape(s[1..]));
      UnescapeEscape(s[1..]);
      assert [s[0]] + s[1..] == s;
    }
  }
}

=== FILE: linear_api.dfy ===
/** src/features/clipboard-watcher/utils/linear-api.ts: fetching a Linear issue by key through
    the GraphQL endpoint and turning it into a history item with a branch-name slug. The
    response is an input: `title` and `url` of `data.issue`. */
module LinearApi {
  import opened Wrappers
  import opened JsText
  import opened HistoryItems
  import opened Requests
  import JsonText

  const TokenMissing := "Linear token not found!"
  const Endpoint := "https://api.linear.app/graphql"

  /** The GraphQL document, with the template literal's line breaks and indentation. */
  function IssueQuery(key: string): string
  {
    QueryHead + key + QueryTail
  }

  const QueryHead := "\n    query {\n      issue(id: \""
  const QueryTail := "\") {\n        title\n        url\n        state {\n          name\n        }\n      }\n    }\n  "

  /** `JSON.stringify({ query })`. */
  function IssueBody(key: string): string
  {
    BodyHead + JsonText.Escape(IssueQuery(key)) + BodyTail
  }

  const BodyHead := "{\"query\":\""
  const BodyTail := "\"}"

  /** Reads the `query` member back out of a body of the shape `JSON.stringify` writes. */
  function QueryOfBody(body: string): Option<string>
  {
    if |body| >= |BodyHead| + |BodyTail| && body[..|BodyHead|] == BodyHead
       && body[|body| - |BodyTail|..] == BodyTail
    then JsonText.Unescape(body[|BodyHead|..|body| - |BodyTail|])
    else None
  }

  /** The body carries the query for any key, whatever characters it holds. */
  lemma QueryOfIssueBody(key: string)
    ensures QueryOfBody(IssueBody(key)) == Some(IssueQuery(key))
  {
    var e := JsonText.Escape(IssueQuery(key));
    var body := IssueBody(key);
    assert body[..|BodyHead|] == BodyHead;
    assert body[|body| - |BodyTail|..] == BodyTail;
    assert body[|BodyHead|..|body| - |BodyTail|] == e;
    JsonText.UnescapeEscape(IssueQuery(key));
  }

  /** A key that needs no JSON escaping appears verbatim in the body, right after the escaped
      head of the query, as the request test expects of `ENG-123`. */
  lemma IssueBodyContainsKey(key: string)
    requires forall k :: 0 <= k < |key| ==> !JsonText.NeedsEscape(key[k])
    ensures var body := IssueBody(key);
      var i := |BodyHead| + |JsonText.Escape(QueryHead)|;
      i + |key| <= |body| && body[i..i + |key|] == key
  {
    EscapedMiddle(BodyHead, QueryHead, key, QueryTail, BodyTail);
  }

  lemma EscapedMiddle(bh: string, head: string, key: string, tail: string, bt: string)
    requires forall k :: 0 <= k < |key| ==> !JsonText.NeedsEscape(key[k])
    ensures var body := bh + JsonText.Escape(head + key + tail) + bt;
      var i := |bh| + |JsonText.Escape(head)|;
      i + |key| <= |body| && body[i..i + |key|] == key
  {
    EscapeOfMiddle(head, key, tail);
    KeyAt(bh, JsonText.Escape(head), key, JsonText.Escape(tail), bt);
  }

  /** Escaping text around a key that needs no escaping leaves the key in place. */
  lemma EscapeOfMiddle(head: string, key: string, tail: string)
    requires forall k :: 0 <= k < |key| ==> !JsonText.NeedsEscape(key[k])
    ensures JsonText.Escape(head + key + tail) == (JsonText.Escape(head) + key) + JsonText.Escape(tail)
  {
    EscapeConcat(head, key);
    EscapeConcat(head + key, tail);
    assert JsonText.Escape(key) == key;
  }

  lemma KeyAt(bh: string, eh: string, key: string, et: string, bt: string)
    ensures var body := bh + ((eh + key) + et) + bt;
      var i := |bh| + |eh|;
      i + |key| <= |body| && body[i..i + |key|] == key
  {
    var e := (eh + key) + et;
    var body := bh + e + bt;
    var i := |bh| + |eh|;
    forall k | 0 <= k < |key|
      ensures body[i + k] == key[k]
    {
      assert body[i + k] == e[|eh| + k] == (eh + key)[|eh| + k];
    }
    assert body[i..i + |key|] == key;
  }

  lemma {:induction false} EscapeConcat(a: string, b: string)
    ensures JsonText.Escape(a + b) == JsonText.Escape(a) + JsonText.Escape(b)
  {
    if a == [] {
      assert a + b == b;
    } else {
      assert (a + b)[0] == a[0];
      assert (a + b)[1..] == a[1..] + b;
      EscapeConcat(a[1..], b);
    }
  }

  function IssueRequest(key: string, token: string): Request
  {
    Request(
      "POST", Endpoint,
      [ Header("Content-Type", "application/json"),
        Header("Authorization", token) ],
      Some(IssueBody(key)))
  }

  // ---------------------------------------------------------------------------
  // The branch-name slug: trim, drop [^a-zA-Z0-9\s-], turn each \s+ into '-', lower-case.

  /** Characters `/[^a-zA-Z0-9\s-]/g` leaves in place. */
  predicate IsSlugInput(c: char) { IsAsciiAlnum(c) || IsSpace(c) || c == '-' }

  /** Characters a slug consists of. */
  predicate IsSlugChar(c: char) { IsAsciiLower(c) || IsDigit(c) || c == '-' }

  /** `.replace(/[^a-zA-Z0-9\s-]/g, "")` */
  function KeepSlugInput(s: string): (r: string)
    ensures |r| <= |s|
    ensures forall k :: 0 <= k < |r| ==> IsSlugInput(r[k])
  {
    if s == [] then []
    else if IsSlugInput(s[0]) then [s[0]] + KeepSlugInput(s[1..])
    else KeepSlugInput(s[1..])
  }

  /** `.replace(/\s+/g, "-")`: every maximal whitespace run becomes one hyphen. */
  function HyphenateSpaces(s: string): (r: string)
    ensures NoSpace(r)
    ensures forall k :: 0 <= k < |r| ==> r[k] == '-' || r[k] in s
    decreases |s|
  {
    if s == [] then []
    else if IsSpace(s[0]) then
      var n := Span(s, IsSpace);
      "-" + HyphenateSpaces(s[n..])
    else [s[0]] + HyphenateSpaces(s[1..])
  }

  function LowerChar(c: char): char
  {
    if IsAsciiUpper(c) then (c as int + 32) as char else c
  }

  /** `.toLowerCase()` on text of ASCII letters, digits and hyphens, which is all a slug holds
      at that point; every other character is left alone. */
  function LowerAscii(s: string): (r: string)
    ensures |r| == |s|
    ensures forall k :: 0 <= k < |s| ==> r[k] == LowerChar(s[k])
  {
    if s == [] then [] else [LowerChar(s[0])] + LowerAscii(s[1..])
  }

  function Slug(title: string): string
  {
    LowerAscii(HyphenateSpaces(KeepSlugInput(Trim(title))))
  }

  /** The letters and digits of `s`, in order. */
  function Alnums(s: string): (r: string)
    ensures |r| <= |s|
  {
    if s == [] then []
    else if IsAsciiAlnum(s[0]) then [s[0]] + Alnums(s[1..])
    else Alnums(s[1..])
  }

  /** A slug holds only lower-case letters, digits and hyphens. */
  lemma SlugChars(title: string)
    ensures forall k :: 0 <= k < |Slug(title)| ==> IsSlugChar(Slug(title)[k])
  {
    var kept := KeepSlugInput(Trim(title));
    var h := HyphenateSpaces(kept);
    assert forall k :: 0 <= k < |h| ==> IsAsciiAlnum(h[k]) || h[k] == '-' by {
      forall k | 0 <= k < |h| ensures IsAsciiAlnum(h[k]) || h[k] == '-' {
        if h[k] != '-' {
          var i :| 0 <= i < |kept| && kept[i] == h[k];
          assert IsSlugInput(kept[i]);
          assert !IsSpace(h[k]);
        }
      }
    }
  }

  lemma {:induction false} AlnumsConcat(a: string, b: string)
    ensures Alnums(a + b) == Alnums(a) + Alnums(b)
  {
    if a == [] {
      assert a + b == b;
    } else {
      assert (a + b)[0] == a[0];
      assert (a + b)[1..] == a[1..] + b;
      AlnumsConcat(a[1..], b);
    }
  }

  lemma {:induction false} AlnumsOfSpaces(s: string)
    requires forall k :: 0 <= k < |s| ==> IsSpace(s[k])
    ensures Alnums(s) == []
  {
    if s != [] {
      AlnumsOfSpaces(s[1..]);
    }
  }

  /** Leading whitespace contributes nothing. */
  lemma AlnumsAfterSpaces(s: string, n: nat)
    requires n <= |s| && forall k :: 0 <= k < n ==> IsSpace(s[k])
    ensures Alnums(s) == Alnums(s[n..])
  {
    assert s == s[..n] + s[n..];
    AlnumsConcat(s[..n], s[n..]);
    AlnumsOfSpaces(s[..n]);
  }

  lemma AlnumsOfTrim(s: string)
    ensures Alnums(Trim(s)) == Alnums(s)
  {
    var r := Trim(s);
    var i := Span(s, IsSpace);
    AroundSlice(s, i, r);
    AlnumsConcat(s[..i] + r, s[i + |r|..]);
    AlnumsConcat(s[..i], r);
    AlnumsOfSpaces(s[..i]);
    AlnumsOfSpaces(s[i + |r|..]);
  }

  /** A text is what comes before a slice, the slice, and what comes after it. */
  lemma AroundSlice(s: string, i: nat, r: string)
    requires i + |r| <= |s| && s[i..i + |r|] == r
    ensures s == s[..i] + r + s[i + |r|..]
  {
    assert s == s[..i] + s[i..i + |r|] + s[i + |r|..];
  }

  lemma {:induction false} AlnumsOfKeep(s: string)
    ensures Alnums(KeepSlugInput(s)) == Alnums(s)
  {
    if s != [] {
      AlnumsOfKeep(s[1..]);
    }
  }

  lemma {:induction false} AlnumsOfHyphenate(s: string)
    ensures Alnums(HyphenateSpaces(s)) == Alnums(s)
    decreases |s|
  {
    if s != [] {
      if IsSpace(s[0]) {
        var n := Span(s, IsSpace);
        AlnumsOfHyphenate(s[n..]);
        AlnumsAfterSpaces(s, n);
      } else {
        AlnumsOfHyphenate(s[1..]);
      }
    }
  }

  lemma {:induction false} AlnumsOfLower(s: string)
    ensures Alnums(LowerAscii(s)) == LowerAscii(Alnums(s))
  {
    if s != [] {
      AlnumsOfLower(s[1..]);
      assert LowerAscii(s)[1..] == LowerAscii(s[1..]);
    }
  }

  /** The slug keeps every letter and digit of the title, in order, lower-cased; only
      punctuation, whitespace and hyphens are rewritten. */
  lemma AlnumsOfSlug(title: string)
    ensures Alnums(Slug(title)) == LowerAscii(Alnums(title))
  {
    AlnumsOfLower(HyphenateSpaces(KeepSlugInput(Trim(title))));
    AlnumsOfHyphenate(KeepSlugInput(Trim(title)));
    AlnumsOfKeep(Trim(title));
    AlnumsOfTrim(title);
  }

  lemma {:induction false} KeepAll(s: string)
    requires forall k :: 0 <= k < |s| ==> IsSlugInput(s[k])
    ensures KeepSlugInput(s) == s
  {
    if s != [] {
      KeepAll(s[1..]);
    }
  }

  lemma {:induction false} HyphenateNoSpace(s: string)
    requires NoSpace(s)
    ensures HyphenateSpaces(s) == s
  {
    if s != [] {
      HyphenateNoSpace(s[1..]);
    }
  }

  /** A maximal whitespace run after text without white space becomes exactly one hyphen, and
      the text before it is kept as it is. */
  lemma {:induction false} HyphenateRun(a: string, w: string, b: string)
    requires NoSpace(a) && w != [] && (forall k :: 0 <= k < |w| ==> IsSpace(w[k]))
    requires b == [] || !IsSpace(b[0])
    ensures HyphenateSpaces(a + w + b) == a + "-" + HyphenateSpaces(b)
    decreases |a|
  {
    var s := a + w + b;
    if a == [] {
      assert s == w + b;
      HyphenateRunFirst(w, b);
    } else {
      var rest := a[1..] + w + b;
      assert s == [a[0]] + rest;
      HyphenateCons(a[0], rest);
      HyphenateRun(a[1..], w, b);
      ConsRegroup(a, HyphenateSpaces(b));
    }
  }

  lemma HyphenateCons(c: char, t: string)
    requires !IsSpace(c)
    ensures HyphenateSpaces([c] + t) == [c] + HyphenateSpaces(t)
  {
    assert ([c] + t)[1..] == t;
  }

  lemma ConsRegroup(a: string, g: string)
    requires a != []
    ensures [a[0]] + (a[1..] + "-" + g) == a + "-" + g
  {
    assert [a[0]] + a[1..] == a;
  }

  lemma HyphenateRunFirst(w: string, b: string)
    requires w != [] && (forall k :: 0 <= k < |w| ==> IsSpace(w[k]))
    requires b == [] || !IsSpace(b[0])
    ensures HyphenateSpaces(w + b) == "-" + HyphenateSpaces(b)
  {
    var s := w + b;
    SpanIs(s, IsSpace, |w|);
    assert s[|w|..] == b;
  }

  lemma LowerNoUpper(s: string)
    requires forall k :: 0 <= k < |s| ==> !IsAsciiUpper(s[k])
    ensures LowerAscii(s) == s
  {
  }

  /** Slugging a slug changes nothing. */
  lemma SlugIdempotent(title: string)
    ensures Slug(Slug(title)) == Slug(title)
  {
    SlugChars(title);
    SlugOfSlugText(Slug(title));
  }

  /** Text made of slug characters is its own slug. */
  lemma SlugOfSlugText(s: string)
    requires forall k :: 0 <= k < |s| ==> IsSlugChar(s[k])
    ensures Slug(s) == s
  {
    assert NoSpace(s);
    TrimOfNoSpace(s);
    KeepAll(s);
    HyphenateNoSpace(s);
    LowerNoUpper(s);
  }

  /** The history item of a fetched issue. */
  function IssueItem(key: string, title: string, url: string, now: int): HistoryItem
  {
    HistoryItem(
      key, Linear, title,
      "[" + key + " - " + title + "](" + url + ")",
      now, url,
      Some(key + "-" + Slug(title)),
      Some(key + " - " + title))
  }

  /** The two fields of `data.issue` the item is built from. */
  datatype IssueResponse = IssueResponse(title: string, url: string)

  /** `getIssue(key, token)`: a missing or empty token fails before any request is made. */
  function GetIssue(key: string, token: Option<string>, response: IssueResponse, now: int): (r: Result<Fetched, string>)
    ensures r.Err? <==> !Truthy(token)
    ensures r.Err? ==> r.error == TokenMissing
    ensures r.Ok? ==>
      && r.value.request.httpMethod == "POST"
      && r.value.request.url == Endpoint
      && HeaderValue(r.value.request.headers, "Authorization") == token
      && HeaderValue(r.value.request.headers, "Content-Type") == Some("application/json")
      && r.value.request.body.Some?
      && QueryOfBody(r.value.request.body.value) == Some(IssueQuery(key))
      && r.value.item.id == key && r.value.item.kind == Linear
      && r.value.item.labelText == response.title && r.value.item.url == response.url
      && r.value.item.date == now
      && r.value.item.markdown == "[" + key + " - " + response.title + "](" + response.url + ")"
      && r.value.item.branchName == Some(key + "-" + Slug(response.title))
      && r.value.item.prName == Some(key + " - " + response.title)
  {
    if !Truthy(token) then Err(TokenMissing)
    else
      QueryOfIssueBody(key);
      Ok(Fetched(IssueRequest(key, token.value), IssueItem(key, response.title, response.url, now)))
  }

  /** The branch name is the key, a hyphen and a slug of lower-case letters, digits and
      hyphens that keeps every letter and digit of the title. */
  lemma GetIssueBranchName(key: string, token: string, response: IssueResponse, now: int)
    requires token != ""
    ensures var r := GetIssue(key, Some(token), response, now);
      && r.Ok?
      && r.value.item.branchName.Some?
      && var b := r.value.item.branchName.value;
      && |b| > |key| && b[..|key| + 1] == key + "-"
      && (forall k :: |key| < k < |b| ==> IsSlugChar(b[k]))
      && Alnums(b[|key| + 1..]) == LowerAscii(Alnums(response.title))
  {
    var b := key + "-" + Slug(response.title);
    assert b[|key| + 1..] == Slug(response.title);
    SlugChars(response.title);
    AlnumsOfSlug(response.title);
  }
}

=== FILE: parse_clipboard.dfy ===
/** src/features/clipboard-watcher/utils/parse-clipboard.ts: recognising a Linear issue key or
    a GitHub pull-request URL in clipboard text. The two regular expressions are written out as
    leftmost-match functions on code points. */
module ParseClipboard {
  import opened Wrappers
  import opened JsText
  import opened HistoryItems
  import GitHubApi
  import UrlParser

  /** What `parseClipboard` returns when it recognises something. */
  datatype Parsed = Parsed(kind: ItemType, id: string)

  // ---------------------------------------------------------------------------
  // /(ENG-|PAY-)\d+/

  predicate IsTeamPrefix(p: string) { p == "ENG-" || p == "PAY-" }

  /** A match of `(ENG-|PAY-)\d+` can start at `j`: a team prefix followed by a digit. */
  predicate LinearKeyStartsAt(t: string, j: nat) {
    j + 5 <= |t| && IsTeamPrefix(t[j..j + 4]) && IsDigit(t[j + 4])
  }

  /** The text matches `(ENG-|PAY-)\d+` in full. */
  predicate IsLinearKey(k: string) {
    |k| >= 5 && IsTeamPrefix(k[..4]) && AllDigits(k[4..])
  }

  /** A match found at position `start` with matched text `text`. */
  datatype Hit = Hit(start: nat, text: string)

  /** `k` is the greedy match at `j`: it occurs there, has the key shape, and its digit run
      cannot be extended. */
  predicate IsGreedyLinearMatchAt(t: string, j: nat, k: string) {
    && j + |k| <= |t| && t[j..j + |k|] == k && IsLinearKey(k)
    && (j + |k| == |t| || !IsDigit(t[j + |k|]))
  }

  /** The greedy match at a position where a key starts. */
  function LinearKeyAt(t: string, j: nat): (k: string)
    requires LinearKeyStartsAt(t, j)
    ensures IsGreedyLinearMatchAt(t, j, k)
  {
    var n := Span(t[j + 4..], IsDigit);
    assert t[j..j + 4 + n][4..] == t[j + 4..][..n];
    t[j..j + 4 + n]
  }

  /** The leftmost position at or after `from` where a key starts. */
  function FirstLinearKey(t: string, from: nat): (r: Option<nat>)
    requires from <= |t|
    ensures r.Some? ==> from <= r.value && LinearKeyStartsAt(t, r.value)
    ensures r.Some? ==> forall j :: from <= j < r.value ==> !LinearKeyStartsAt(t, j)
    ensures r.None? ==> forall j :: from <= j ==> !LinearKeyStartsAt(t, j)
    decreases |t| - from
  {
    if from + 5 > |t| then None
    else if LinearKeyStartsAt(t, from) then Some(from)
    else FirstLinearKey(t, from + 1)
  }

  /** `t.match(linearRegex)`: the leftmost, greedy match, if any. */
  function LinearMatch(t: string): (r: Option<Hit>)
    ensures r.Some? ==> LinearKeyStartsAt(t, r.value.start) && r.value.text == LinearKeyAt(t, r.value.start)
    ensures r.Some? ==> IsGreedyLinearMatchAt(t, r.value.start, r.value.text)
    ensures r.Some? ==> forall j :: 0 <= j < r.value.start ==> !LinearKeyStartsAt(t, j)
    ensures r.None? <==> forall j :: 0 <= j ==> !LinearKeyStartsAt(t, j)
  {
    match FirstLinearKey(t, 0)
    case None => None
    case Some(j) => Some(Hit(j, LinearKeyAt(t, j)))
  }

  // ---------------------------------------------------------------------------
  // /https:\/\/github\.com\/[a-zA-Z0-9_-]+\/[a-zA-Z0-9_-]+\/pull\/[0-9]+/

  predicate IsNameChar(c: char) { IsAsciiAlnum(c) || c == '_' || c == '-' }

  /** The two character classes the pull-request expression repeats: `[a-zA-Z0-9_-]` and `[0-9]`. */
  datatype CharClass = NameChars | Digits

  predicate InClass(cl: CharClass, c: char) {
    match cl
    case NameChars => IsNameChar(c)
    case Digits => IsDigit(c)
  }

  /** The captured pieces of a pull-request URL match. */
  datatype PrParts = PrParts(owner: string, repo: string, number: string)

  /** A match of the pull-request regular expression found at position `start`. */
  datatype PrHit = PrHit(start: nat, parts: PrParts)

  /** The matched text. */
  function PrText(p: PrParts): string {
    GitHubApi.PrUrl(p.owner, p.repo, p.number)
  }

  /** `w` occurs in `t` at `i`. */
  predicate OccursAt(t: string, i: nat, w: string) {
    i + |w| <= |t| && t[i..i + |w|] == w
  }

  /** `w` is a maximal run at `i` of characters satisfying `p`: it occurs there, it is
      non-empty, every character satisfies `p`, and the next one does not. */
  predicate IsRunAt(t: string, i: nat, w: string, cl: CharClass) {
    && OccursAt(t, i, w) && |w| >= 1
    && (forall k :: 0 <= k < |w| ==> InClass(cl, w[k]))
    && (i + |w| == |t| || !InClass(cl, t[i + |w|]))
  }

  /** `/pull/` at `c`, then the maximal digit run `number`. */
  predicate IsPullAt(t: string, c: nat, number: string) {
    OccursAt(t, c, "/pull/") && IsRunAt(t, c + 6, number, Digits)
  }

  /** The maximal name run `repo` at `i`, then `/pull/<number>`. */
  predicate IsRepoAt(t: string, i: nat, repo: string, number: string) {
    IsRunAt(t, i, repo, NameChars) && IsPullAt(t, i + |repo|, number)
  }

  /** The maximal name run `p.owner` at `i`, then `/`, then the repository part. */
  predicate IsOwnerAt(t: string, i: nat, p: PrParts) {
    && IsRunAt(t, i, p.owner, NameChars)
    && i + |p.owner| < |t| && t[i + |p.owner|] == '/'
    && IsRepoAt(t, i + |p.owner| + 1, p.repo, p.number)
  }

  /** `p` is the greedy match at position `j` of `t`: `https://github.com/<owner>/<repo>/pull/<number>`
      is laid out from `j`, owner and repository are maximal name runs, and the number is a
      maximal digit run. */
  predicate IsGreedyPrMatchAt(t: string, j: nat, p: PrParts) {
    OccursAt(t, j, GitHubApi.GitHubOrigin) && OccursAt(t, j + 18, "/") && IsOwnerAt(t, j + 19, p)
  }

  /** The end of the longest run of characters satisfying `p` that starts at `i`. */
  function RunEnd(t: string, i: nat, cl: CharClass): (e: nat)
    requires i <= |t|
    ensures i <= e <= |t|
    ensures forall k :: i <= k < e ==> InClass(cl, t[k])
    ensures e == |t| || !InClass(cl, t[e])
    decreases |t| - i
  {
    if i == |t| || !InClass(cl, t[i]) then i else RunEnd(t, i + 1, cl)
  }

  /** The maximal non-empty run at `i`, if `t[i]` starts one. */
  function RunAt(t: string, i: nat, cl: CharClass): (r: Option<string>)
    requires i <= |t|
    ensures r.Some? ==> IsRunAt(t, i, r.value, cl)
    ensures r.None? <==> i == |t| || !InClass(cl, t[i])
  {
    var e := RunEnd(t, i, cl);
    if e == i then None else Some(t[i..e])
  }

  /** `/pull/<number>` at `c`. */
  function PullAt(t: string, c: nat): (r: Option<string>)
    requires c <= |t|
    ensures r.Some? ==> IsPullAt(t, c, r.value)
  {
    if !OccursAt(t, c, "/pull/") then None else RunAt(t, c + 6, Digits)
  }

  /** `<repo>/pull/<number>` at `i`. */
  function RepoAt(t: string, i: nat): (r: Option<(string, string)>)
    requires i <= |t|
    ensures r.Some? ==> IsRepoAt(t, i, r.value.0, r.value.1)
  {
    match RunAt(t, i, NameChars)
    case None => None
    case Some(repo) =>
      match PullAt(t, i + |repo|)
      case None => None
      case Some(number) => Some((repo, number))
  }

  /** `<owner>/<repo>/pull/<number>` at `i`. */
  function OwnerAt(t: string, i: nat): (r: Option<PrParts>)
    requires i <= |t|
    ensures r.Some? ==> IsOwnerAt(t, i, r.value)
  {
    match RunAt(t, i, NameChars)
    case None => None
    case Some(owner) =>
      var b := i + |owner|;
      if b >= |t| || t[b] != '/' then None
      else
        match RepoAt(t, b + 1)
        case None => None
        case Some(rest) =>
          OwnerOfRuns(t, i, owner, rest.0, rest.1);
          Some(PrParts(owner, rest.0, rest.1))
  }

  /** The owner run, the slash and the repository part make up an owner match. */
  lemma OwnerOfRuns(t: string, i: nat, owner: string, repo: string, number: string)
    requires IsRunAt(t, i, owner, NameChars)
    requires i + |owner| < |t| && t[i + |owner|] == '/'
    requires IsRepoAt(t, i + |owner| + 1, repo, number)
    ensures IsOwnerAt(t, i, PrParts(owner, repo, number))
  {
  }

  /** The match of the pull-request regular expression at position `j`, if there is one. The
      character classes exclude `/`, so each name is its maximal run and backtracking never
      finds a shorter alternative. */
  function PrMatchAt(t: string, j: nat): (r: Option<PrParts>)
    requires j <= |t|
    ensures r.Some? ==> IsGreedyPrMatchAt(t, j, r.value)
  {
    if !OccursAt(t, j, GitHubApi.GitHubOrigin) || !OccursAt(t, j + 18, "/") then None
    else OwnerAt(t, j + 19)
  }

  /** The first position from `from` on where the pull-request expression matches. */
  function FirstPrMatch(t: string, from: nat): (r: Option<nat>)
    requires from <= |t|
    ensures r.Some? ==> from <= r.value <= |t| && PrMatchAt(t, r.value).Some?
    ensures r.Some? ==> forall j :: from <= j < r.value ==> PrMatchAt(t, j).None?
    ensures r.None? ==> forall j :: from <= j <= |t| ==> PrMatchAt(t, j).None?
    decreases |t| - from
  {
    if PrMatchAt(t, from).Some? then Some(from)
    else if from == |t| then None
    else
      var r := FirstPrMatch(t, from + 1);
      NoMatchExtends(t, from, if r.Some? then r.value else |t| + 1);
      r
  }

  /** A stretch without matches grows by one position on the left when that position does not
      match either. */
  lemma NoMatchExtends(t: string, from: nat, end: nat)
    requires from < end <= |t| + 1 && PrMatchAt(t, from).None?
    requires forall j :: from + 1 <= j < end ==> PrMatchAt(t, j).None?
    ensures forall j :: from <= j < end ==> PrMatchAt(t, j).None?
  {
  }

  /** `t.match(gitHubRegex)`: the leftmost match, if any. */
  function GitHubMatch(t: string): (r: Option<PrHit>)
    ensures r.Some? ==> r.value.start <= |t| && PrMatchAt(t, r.value.start) == Some(r.value.parts)
    ensures r.Some? ==> forall j :: 0 <= j < r.value.start ==> PrMatchAt(t, j).None?
    ensures r.None? <==> forall j :: 0 <= j <= |t| ==> PrMatchAt(t, j).None?
  {
    match FirstPrMatch(t, 0)
    case None => None
    case Some(j) => Some(PrHit(j, PrMatchAt(t, j).value))
  }

  /** The matched text is the pull-request URL built from the captures. */
  lemma GreedyPrMatchText(t: string, j: nat, p: PrParts)
    requires IsGreedyPrMatchAt(t, j, p)
    ensures OccursAt(t, j, PrText(p))
  {
    var path := p.owner + ("/" + (p.repo + ("/pull/" + p.number)));
    OwnerMatchText(t, j + 19, p);
    OccursConcat(t, j + 18, "/", path);
    OccursConcat(t, j, GitHubApi.GitHubOrigin, GitHubApi.PrPath(p.owner, p.repo, p.number));
  }

  /** The text an owner match covers. */
  lemma OwnerMatchText(t: string, i: nat, p: PrParts)
    requires IsOwnerAt(t, i, p)
    ensures OccursAt(t, i, p.owner + ("/" + (p.repo + ("/pull/" + p.number))))
  {
    var b := i + |p.owner|;
    var rest := p.repo + ("/pull/" + p.number);
    RepoMatchText(t, b + 1, p.repo, p.number);
    SlashAt(t, b);
    OccursConcat(t, b, "/", rest);
    OccursConcat(t, i, p.owner, "/" + rest);
  }

  /** The text a repository match covers. */
  lemma RepoMatchText(t: string, i: nat, repo: string, number: string)
    requires IsRepoAt(t, i, repo, number)
    ensures OccursAt(t, i, repo + ("/pull/" + number))
  {
    var c := i + |repo|;
    OccursConcat(t, c, "/pull/", number);
    OccursConcat(t, i, repo, "/pull/" + number);
  }

  /** Adjacent occurrences join into one. */
  lemma OccursConcat(t: string, i: nat, u: string, w: string)
    requires OccursAt(t, i, u) && OccursAt(t, i + |u|, w)
    ensures OccursAt(t, i, u + w)
  {
    assert t[i..i + |u| + |w|] == t[i..i + |u|] + t[i + |u|..i + |u| + |w|];
  }

  // ---------------------------------------------------------------------------

  /** `parseClipboard(text)`. Only text starting with `https://` is looked at; a Linear key
      anywhere in it wins; otherwise a pull-request URL gives `PR-` followed by its number, the
      path segment `getGitHubMetadata` extracts (`ParseClipboardIdFromMetadata`). */
  function ParseClipboard(text: string): (r: Option<Parsed>)
    ensures !StartsWith(text, "https://") ==> r.None?
    ensures r.Some? ==> |text| >= 8
    ensures r.Some? && r.value.kind == Linear ==> IsLinearKey(r.value.id)
    ensures r.Some? && r.value.kind == GitHub ==>
      |r.value.id| >= 4 && r.value.id[..3] == "PR-" && AllDigits(r.value.id[3..])
    ensures r.Some? && r.value.kind == GitHub ==>
      GitHubMatch(text).Some? && r.value.id == "PR-" + GitHubMatch(text).value.parts.number
  {
    if !StartsWith(text, "https://") then None
    else
      match LinearMatch(text)
      case Some(k) => Some(Parsed(Linear, k.text))
      case None =>
        match GitHubMatch(text)
        case None => None
        case Some(h) => Some(Parsed(GitHub, "PR-" + h.parts.number))
  }

  /** The pull-request id is built as the source builds it: `PR-` and the `id` that
      `getGitHubMetadata` extracts from the matched URL, which is its number. */
  lemma ParseClipboardIdFromMetadata(text: string)
    requires ParseClipboard(text).Some? && ParseClipboard(text).value.kind == GitHub
    ensures var md := GitHubApi.GetGitHubMetadata(PrText(GitHubMatch(text).value.parts));
      && md.Ok? && md.value.id.Some?
      && ParseClipboard(text).value.id == "PR-" + Render(md.value.id)
  {
    var h := GitHubMatch(text).value;
    GreedyPartsArePlain(text, h.start, h.parts);
    GitHubApi.MetadataOfPrUrl(h.parts.owner, h.parts.repo, h.parts.number);
  }

  /** The captures of a match hold none of the URL delimiters. */
  lemma GreedyPartsArePlain(t: string, j: nat, p: PrParts)
    requires j <= |t| && PrMatchAt(t, j) == Some(p)
    ensures GitHubApi.PlainParts(p.owner, p.repo, p.number)
  {
    NamesArePlain(p.owner);
    NamesArePlain(p.repo);
    DigitsArePlain(p.number);
  }

  /** Nothing is recognised exactly when the text does not start with `https://`, or holds
      neither a Linear key nor a pull-request URL. */
  lemma ParseClipboardNone(text: string)
    ensures ParseClipboard(text).None? <==>
      || !StartsWith(text, "https://")
      || ((forall j :: 0 <= j ==> !LinearKeyStartsAt(text, j))
          && (forall j :: 0 <= j <= |text| ==> PrMatchAt(text, j).None?))
  {
  }

  /** Letters, digits, `_` and `-` are path characters, and without a `.` no dot segment. */
  lemma NamesArePlain(s: string)
    requires forall k :: 0 <= k < |s| ==> IsNameChar(s[k])
    ensures UrlParser.PlainSegment(s)
  {
    UrlParser.NoDotSegment(s);
  }

  lemma DigitsArePlain(s: string)
    requires AllDigits(s)
    ensures UrlParser.PlainSegment(s)
  {
    UrlParser.NoDotSegment(s);
  }

  /** A run that holds on `i..e` and stops at `e` is the run `RunEnd` finds. */
  lemma {:induction false} RunEndIs(t: string, i: nat, cl: CharClass, e: nat)
    requires i <= e <= |t|
    requires forall k :: i <= k < e ==> InClass(cl, t[k])
    requires e == |t| || !InClass(cl, t[e])
    ensures RunEnd(t, i, cl) == e
    decreases e - i
  {
    if i < e {
      RunEndIs(t, i + 1, cl, e);
    }
  }

  /** A maximal run at `i` is the one `RunAt` returns. */
  lemma RunAtIs(t: string, i: nat, w: string, cl: CharClass)
    requires IsRunAt(t, i, w, cl)
    ensures RunAt(t, i, cl) == Some(w)
  {
    assert forall k :: i <= k < i + |w| ==> t[k] == w[k - i];
    RunEndIs(t, i, cl, i + |w|);
  }

  lemma PullAtComplete(t: string, c: nat, number: string)
    requires IsPullAt(t, c, number)
    ensures PullAt(t, c) == Some(number)
  {
    RunAtIs(t, c + 6, number, Digits);
  }

  lemma RepoAtComplete(t: string, i: nat, repo: string, number: string)
    requires IsRepoAt(t, i, repo, number)
    ensures RepoAt(t, i) == Some((repo, number))
  {
    RunAtIs(t, i, repo, NameChars);
    PullAtComplete(t, i + |repo|, number);
  }

  lemma OwnerAtComplete(t: string, i: nat, p: PrParts)
    requires IsOwnerAt(t, i, p)
    ensures OwnerAt(t, i) == Some(p)
  {
    RunAtIs(t, i, p.owner, NameChars);
    RepoAtComplete(t, i + |p.owner| + 1, p.repo, p.number);
  }

  /** A one-character occurrence of `/` is that character at that position. */
  lemma SlashAt(t: string, b: nat)
    ensures OccursAt(t, b, "/") <==> b < |t| && t[b] == '/'
  {
    if b < |t| && t[b] == '/' {
      assert t[b..b + 1] == "/";
    }
  }

  /** The matcher finds every greedy match: whatever is laid out at `j` is exactly what
      `PrMatchAt` returns there. */
  lemma PrMatchAtComplete(t: string, j: nat, p: PrParts)
    requires IsGreedyPrMatchAt(t, j, p)
    ensures PrMatchAt(t, j) == Some(p)
  {
    OwnerAtComplete(t, j + 19, p);
  }

  /** A Linear key anywhere in an `https://` text wins, and the leftmost one is returned. */
  lemma ParseClipboardLinear(text: string, j: nat)
    requires StartsWith(text, "https://")
    requires LinearKeyStartsAt(text, j)
    requires forall i :: 0 <= i < j ==> !LinearKeyStartsAt(text, i)
    ensures ParseClipboard(text) == Some(Parsed(Linear, LinearKeyAt(text, j)))
  {
    var h := LinearMatch(text);
    assert h.Some?;
  }

  /** The leftmost greedy match is the one `GitHubMatch` reports. */
  lemma GitHubMatchIs(t: string, j: nat, p: PrParts)
    requires IsGreedyPrMatchAt(t, j, p)
    requires forall i :: 0 <= i < j ==> PrMatchAt(t, i).None?
    ensures GitHubMatch(t) == Some(PrHit(j, p))
  {
    PrMatchAtComplete(t, j, p);
  }

  /** With no Linear key, the leftmost pull-request URL gives `PR-` and its number. */
  lemma ParseClipboardGitHub(text: string, j: nat, p: PrParts)
    requires StartsWith(text, "https://")
    requires forall i :: 0 <= i ==> !LinearKeyStartsAt(text, i)
    requires IsGreedyPrMatchAt(text, j, p)
    requires forall i :: 0 <= i < j ==> PrMatchAt(text, i).None?
    ensures ParseClipboard(text) == Some(Parsed(GitHub, "PR-" + p.number))
  {
    GitHubMatchIs(text, j, p);
  }

  // ---------------------------------------------------------------------------
  // Laying out a pull-request URL: the converse of `GreedyPrMatchText`.

  /** `w` is a non-empty string of characters of class `cl`. */
  predicate IsClassText(w: string, cl: CharClass) {
    |w| >= 1 && forall k :: 0 <= k < |w| ==> InClass(cl, w[k])
  }

  /** Captures a pull-request URL can be built from. */
  predicate IsPrParts(p: PrParts) {
    IsClassText(p.owner, NameChars) && IsClassText(p.repo, NameChars) && IsClassText(p.number, Digits)
  }

  lemma OccursHead(w: string, u: string)
    ensures OccursAt(w + u, 0, w)
  {
    assert (w + u)[..|w|] == w;
  }

  lemma RunHead(w: string, u: string, cl: CharClass)
    requires IsClassText(w, cl) && (u == [] || !InClass(cl, u[0]))
    ensures IsRunAt(w + u, 0, w, cl)
  {
    OccursHead(w, u);
  }

  /** Prepending text moves an occurrence along with it. */
  lemma OccursShift(x: string, u: string, i: nat, w: string)
    requires OccursAt(u, i, w)
    ensures OccursAt(x + u, |x| + i, w)
  {
    assert (x + u)[|x| + i..|x| + i + |w|] == u[i..i + |w|];
  }

  lemma RunShift(x: string, u: string, i: nat, w: string, cl: CharClass)
    requires IsRunAt(u, i, w, cl)
    ensures IsRunAt(x + u, |x| + i, w, cl)
  {
    OccursShift(x, u, i, w);
  }

  lemma PullShift(x: string, u: string, c: nat, n: string)
    requires IsPullAt(u, c, n)
    ensures IsPullAt(x + u, |x| + c, n)
  {
    OccursShift(x, u, c, "/pull/");
    RunShift(x, u, c + 6, n, Digits);
  }

  lemma RepoShift(x: string, u: string, i: nat, r: string, n: string)
    requires IsRepoAt(u, i, r, n)
    ensures IsRepoAt(x + u, |x| + i, r, n)
  {
    RunShift(x, u, i, r, NameChars);
    PullShift(x, u, i + |r|, n);
  }

  lemma OwnerShift(x: string, u: string, i: nat, p: PrParts)
    requires IsOwnerAt(u, i, p)
    ensures IsOwnerAt(x + u, |x| + i, p)
  {
    RunShift(x, u, i, p.owner, NameChars);
    assert (x + u)[|x| + i + |p.owner|] == u[i + |p.owner|];
    RepoShift(x, u, i + |p.owner| + 1, p.repo, p.number);
  }

  lemma GreedyShift(x: string, u: string, j: nat, p: PrParts)
    requires IsGreedyPrMatchAt(u, j, p)
    ensures IsGreedyPrMatchAt(x + u, |x| + j, p)
  {
    OccursShift(x, u, j, GitHubApi.GitHubOrigin);
    OccursShift(x, u, j + 18, "/");
    OwnerShift(x, u, j + 19, p);
  }

  lemma RepoLaidOut(r: string, n: string)
    requires IsClassText(r, NameChars) && IsClassText(n, Digits)
    ensures IsRepoAt(r + ("/pull/" + n), 0, r, n)
  {
    OccursHead("/pull/", n);
    RunHead(n, [], Digits);
    assert n + [] == n;
    RunShift("/pull/", n, 0, n, Digits);
    RunHead(r, "/pull/" + n, NameChars);
    PullShift(r, "/pull/" + n, 0, n);
  }

  lemma OwnerLaidOut(p: PrParts)
    requires IsPrParts(p)
    ensures IsOwnerAt(p.owner + ("/" + (p.repo + ("/pull/" + p.number))), 0, p)
  {
    var s4 := p.repo + ("/pull/" + p.number);
    var s3 := "/" + s4;
    RepoLaidOut(p.repo, p.number);
    RepoShift("/", s4, 0, p.repo, p.number);
    RunHead(p.owner, s3, NameChars);
    assert (p.owner + s3)[|p.owner|] == s3[0] == '/';
    RepoShift(p.owner, s3, 1, p.repo, p.number);
  }

  lemma PathLaidOut(p: PrParts)
    requires IsPrParts(p)
    ensures var path := GitHubApi.PrPath(p.owner, p.repo, p.number);
      OccursAt(path, 0, "/") && IsOwnerAt(path, 1, p)
  {
    var s2 := p.owner + ("/" + (p.repo + ("/pull/" + p.number)));
    OwnerLaidOut(p);
    OwnerShift("/", s2, 0, p);
    OccursHead("/", s2);
  }

  /** The URL built from captures is a greedy match of itself, with those captures. */
  lemma PrTextLaidOut(p: PrParts)
    requires IsPrParts(p)
    ensures IsGreedyPrMatchAt(PrText(p), 0, p)
  {
    var path := GitHubApi.PrPath(p.owner, p.repo, p.number);
    PathLaidOut(p);
    OwnerShift(GitHubApi.GitHubOrigin, path, 1, p);
    OccursHead(GitHubApi.GitHubOrigin, path);
    OccursShift(GitHubApi.GitHubOrigin, path, 0, "/");
  }

  /** A pull-request URL at the end of a text is a greedy match there. */
  lemma LaidOutGreedy(a: string, p: PrParts)
    requires IsPrParts(p)
    ensures IsGreedyPrMatchAt(a + PrText(p), |a|, p)
  {
    PrTextLaidOut(p);
    GreedyShift(a, PrText(p), 0, p);
  }

  /** A key starts with `E` or `P`, so text with neither letter holds no key. */
  lemma NoTeamLetterNoKey(t: string)
    requires 'E' !in t && 'P' !in t
    ensures forall i :: 0 <= i ==> !LinearKeyStartsAt(t, i)
  {
    forall i | 0 <= i ensures !LinearKeyStartsAt(t, i) {
      if i + 5 <= |t| {
        assert t[i..i + 4][0] == t[i];
        assert t[i] in t;
      }
    }
  }

  /** Parsing recovers the number from any pull-request URL built from captures, unless the
      owner or repository spells a Linear key, which wins. */
  lemma ParseClipboardOfPrText(p: PrParts)
    requires IsPrParts(p)
    requires forall i :: 0 <= i ==> !LinearKeyStartsAt(PrText(p), i)
    ensures ParseClipboard(PrText(p)) == Some(Parsed(GitHub, "PR-" + p.number))
  {
    PrTextLaidOut(p);
    OccursHead(GitHubApi.GitHubOrigin, GitHubApi.PrPath(p.owner, p.repo, p.number));
    assert PrText(p)[..8] == "https://";
    ParseClipboardGitHub(PrText(p), 0, p);
  }
}

=== FILE: pr_sample.dfy ===
/** A clipboard text that `parseClipboard` reads as a pull request while `getPR`, given the
    whole text, reads another path: `https://x?https://github.com/o/r/pull/5`, a link whose
    query string carries a pull-request URL. The lemmas take the text as a parameter equal to
    `SampleText`. */
module PrSample {
  import opened Wrappers
  import opened HistoryItems
  import opened JsText
  import opened Clip = ParseClipboard
  import GitHubApi
  import UrlParser

  const SampleParts := PrParts("o", "r", "5")
  const SamplePrefix := "https://x?"
  const SampleText := SamplePrefix + PrText(SampleParts)

  lemma SampleNoKey(t: string)
    requires t == SampleText
    ensures forall i :: 0 <= i ==> !LinearKeyStartsAt(t, i)
  {
    SampleLetters(t);
    NoTeamLetterNoKey(t);
  }

  /** The sample holds neither of the letters a Linear key starts with. */
  lemma SampleLetters(t: string)
    requires t == SampleText
    ensures 'E' !in t && 'P' !in t
  {
    var o := GitHubApi.GitHubOrigin;
    assert 'E' !in SamplePrefix && 'P' !in SamplePrefix;
    assert 'E' !in o && 'P' !in o;
    assert 'E' !in "/pull/" && 'P' !in "/pull/";
    assert t == SamplePrefix + (o + ("/" + ("o" + ("/" + ("r" + ("/pull/" + "5"))))));
  }

  lemma SampleNoEarlierOrigin(t: string)
    requires t == SampleText
    ensures forall i :: 0 <= i < 10 ==> !OccursAt(t, i, GitHubApi.GitHubOrigin)
  {
    assert t[..10] == SamplePrefix;
    forall i | 0 <= i < 10 ensures !OccursAt(t, i, GitHubApi.GitHubOrigin) {
      if i == 0 {
        assert t[8] != GitHubApi.GitHubOrigin[8];
      } else {
        assert t[i] != 'h';
      }
    }
  }

  /** A pull-request URL after a prefix that holds no match of its own is what parsing
      reports. */
  lemma ParsesAfterPrefix(a: string, p: PrParts, t: string)
    requires t == a + PrText(p) && IsPrParts(p) && StartsWith(a, "https://")
    requires forall i :: 0 <= i ==> !LinearKeyStartsAt(t, i)
    requires forall i :: 0 <= i < |a| ==> !OccursAt(t, i, GitHubApi.GitHubOrigin)
    ensures ParseClipboard(t) == Some(Parsed(GitHub, "PR-" + p.number))
  {
    LaidOutGreedy(a, p);
    assert t[..8] == a[..8];
    ParseClipboardGitHub(t, |a|, p);
  }

  lemma SampleParses(t: string)
    requires t == SampleText
    ensures ParseClipboard(t) == Some(Parsed(GitHub, "PR-" + SampleParts.number))
  {
    SampleNoKey(t);
    SampleNoEarlierOrigin(t);
    ParsesAfterPrefix(SamplePrefix, SampleParts, t);
  }

  /** On the whole text `getPR` reads the path `/` and builds the id `PR-undefined`. */
  lemma SampleFetchedId(t: string, token: string, response: GitHubApi.PrResponse, now: int)
    requires t == SampleText
    requires token != ""
    ensures var f := GitHubApi.GetPR(t, Some(token), response, now);
      f.Ok? && f.value.item.id == "PR-undefined"
  {
    SampleIsQueryOnly(t);
    IdOfQueryOnlyUrl(t, "x", PrText(SampleParts), token, response, now);
  }

  /** The sample is the host `x` followed directly by a query string. */
  lemma SampleIsQueryOnly(t: string)
    requires t == SampleText
    ensures t == "https://" + "x" + ("?" + PrText(SampleParts))
  {
  }

  /** On a URL whose path is empty `getPR` builds the id `PR-undefined`. */
  lemma IdOfQueryOnlyUrl(t: string, host: string, query: string, token: string, response: GitHubApi.PrResponse, now: int)
    requires UrlParser.ValidHost(host) && token != ""
    requires t == "https://" + host + ("?" + query)
    ensures var f := GitHubApi.GetPR(t, Some(token), response, now);
      f.Ok? && f.value.item.id == "PR-undefined"
  {
    GitHubApi.MetadataOfQueryOnlyUrl(host, query);
    UndefinedPrId();
  }

  lemma UndefinedPrId()
    ensures "PR-" + Render(None) == "PR-undefined"
  {
  }

}

=== FILE: requests.dfy ===
/** The HTTP request a metadata fetcher hands to `fetch`, and what a successful fetch yields.
    The network itself is not modelled: the response body is an input of each fetcher. */
module Requests {
  import opened Wrappers
  import opened HistoryItems

  datatype Header = Header(name: string, value: string)

  datatype Request = Request(httpMethod: string, url: string, headers: seq<Header>, body: Option<string>)

  datatype Fetched = Fetched(request: Request, item: HistoryItem)

  /** The value of the first header called `name`, if any. */
  function HeaderValue(headers: seq<Header>, name: string): Option<string>
  {
    if headers == [] then None
    else if headers[0].name == name then Some(headers[0].value)
    else HeaderValue(headers[1..], name)
  }
}

=== FILE: unicode_mappings.dfy ===
/** src/features/text-formatter/utils/unicode-mappings.ts: the text stylers that replace ASCII
    letters and digits by look-alike code points from the Mathematical Alphanumeric Symbols,
    Enclosed Alphanumerics and Halfwidth and Fullwidth Forms blocks. A string is the sequence
    of code points `Array.from(text)` iterates over. */
module UnicodeMappings {
  import opened Wrappers
  import opened JsText

  // ---------------------------------------------------------------------------
  // `createTransform`

  /** `TransformOptions`. Every exception of the source replaces one code point by one code
      point, so an exception is a pair of characters; the first pair for a key is the one used. */
  datatype Style = Style(upperStart: int, lowerStart: int, digitStart: Option<int>, exceptions: seq<(char, char)>)

  /** `n` consecutive code points from `start`, all scalar values outside ASCII. */
  predicate ValidBlock(start: int, n: nat) {
    || (0x80 <= start && start + n <= 0xD800)
    || (0xE000 <= start && start + n <= 0x11_0000)
  }

  predicate InBlock(start: int, n: nat, d: char) { start <= d as int < start + n }

  /** What every style of the source satisfies: its target blocks hold scalar values outside
      ASCII, and its exceptions replace ASCII letters or digits by code points outside ASCII. */
  predicate WellFormed(st: Style) {
    && ValidBlock(st.upperStart, 26)
    && ValidBlock(st.lowerStart, 26)
    && (st.digitStart.Some? ==> ValidBlock(st.digitStart.value, 10))
    && (forall i :: 0 <= i < |st.exceptions| ==> IsAsciiAlnum(st.exceptions[i].0) && st.exceptions[i].1 as int >= 0x80)
  }

  predicate InBlocks(st: Style, d: char) {
    || InBlock(st.upperStart, 26, d)
    || InBlock(st.lowerStart, 26, d)
    || (st.digitStart.Some? && InBlock(st.digitStart.value, 10, d))
  }

  /** The blocks do not overlap and no exception's replacement lies in a block or repeats:
      then a styled text can be read back. */
  predicate Invertible(st: Style) {
    && (st.upperStart + 26 <= st.lowerStart || st.lowerStart + 26 <= st.upperStart)
    && (st.digitStart.Some? ==>
          && (st.digitStart.value + 10 <= st.upperStart || st.upperStart + 26 <= st.digitStart.value)
          && (st.digitStart.value + 10 <= st.lowerStart || st.lowerStart + 26 <= st.digitStart.value))
    && (forall i :: 0 <= i < |st.exceptions| ==> !InBlocks(st, st.exceptions[i].1))
    && (forall i, j :: 0 <= i < j < |st.exceptions| ==> st.exceptions[i].1 != st.exceptions[j].1)
  }

  /** `exceptions[char]`: the replacement of the first pair whose key is `c`. */
  function Lookup(exc: seq<(char, char)>, c: char): (r: Option<char>)
    ensures r.None? <==> forall i :: 0 <= i < |exc| ==> exc[i].0 != c
    ensures r.Some? ==> exists i :: 0 <= i < |exc| && exc[i] == (c, r.value) && forall j :: 0 <= j < i ==> exc[j].0 != c
  {
    if exc == [] then None
    else if exc[0].0 == c then Some(exc[0].1)
    else
      var r := Lookup(exc[1..], c);
      assert r.Some? ==> exists i :: 1 <= i < |exc| && exc[i] == (c, r.value) && forall j :: 0 <= j < i ==> exc[j].0 != c by {
        if r.Some? {
          var i :| 0 <= i < |exc[1..]| && exc[1..][i] == (c, r.value) && forall j :: 0 <= j < i ==> exc[1..][j].0 != c;
          assert exc[i + 1] == (c, r.value);
          assert forall j :: 1 <= j < i + 1 ==> exc[j] == exc[1..][j - 1];
        }
      }
      r
  }

  /** The key of the first pair whose replacement is `d`. */
  function ReverseLookup(exc: seq<(char, char)>, d: char): (r: Option<char>)
    ensures r.None? <==> forall i :: 0 <= i < |exc| ==> exc[i].1 != d
    ensures r.Some? ==> exists i :: 0 <= i < |exc| && exc[i] == (r.value, d) && forall j :: 0 <= j < i ==> exc[j].1 != d
  {
    if exc == [] then None
    else if exc[0].1 == d then Some(exc[0].0)
    else
      var r := ReverseLookup(exc[1..], d);
      assert r.Some? ==> exists i :: 1 <= i < |exc| && exc[i] == (r.value, d) && forall j :: 0 <= j < i ==> exc[j].1 != d by {
        if r.Some? {
          var i :| 0 <= i < |exc[1..]| && exc[1..][i] == (r.value, d) && forall j :: 0 <= j < i ==> exc[1..][j].1 != d;
          assert exc[i + 1] == (r.value, d);
          assert forall j :: 1 <= j < i + 1 ==> exc[j] == exc[1..][j - 1];
        }
      }
      r
  }

  /** The per-character function `createTransform` maps over the text: an exception first, then
      the letter and digit blocks, and anything else unchanged. */
  function MapChar(st: Style, c: char): (d: char)
    requires WellFormed(st)
    ensures Lookup(st.exceptions, c).Some? ==> d == Lookup(st.exceptions, c).value
    ensures (d as int) < 0x80 ==> d == c
    ensures Lookup(st.exceptions, c).None? && !IsAsciiAlnum(c) ==> d == c
    ensures Lookup(st.exceptions, c).None? && IsDigit(c) ==> (d == c <==> st.digitStart.None?)
  {
    match Lookup(st.exceptions, c)
    case Some(e) => e
    case None =>
      if IsAsciiUpper(c) then (st.upperStart + (c as int - 'A' as int)) as char
      else if IsAsciiLower(c) then (st.lowerStart + (c as int - 'a' as int)) as char
      else if st.digitStart.Some? && IsDigit(c) then (st.digitStart.value + (c as int - '0' as int)) as char
      else c
  }

  /** `createTransform(options)(text)`: one code point out for each code point in. */
  function Transform(st: Style, text: string): (r: string)
    requires WellFormed(st)
    ensures |r| == |text|
    ensures forall i :: 0 <= i < |text| ==> r[i] == MapChar(st, text[i])
  {
    if text == [] then [] else [MapChar(st, text[0])] + Transform(st, text[1..])
  }

  /** A styled character is left alone by a second pass. */
  lemma MapCharFixes(st: Style, c: char)
    requires WellFormed(st)
    ensures MapChar(st, MapChar(st, c)) == MapChar(st, c)
  {
    var d := MapChar(st, c);
    if d != c {
      assert !IsAsciiAlnum(d);
      assert Lookup(st.exceptions, d).None?;
    }
  }

  /** Styling twice is styling once. */
  lemma TransformIdempotent(st: Style, text: string)
    requires WellFormed(st)
    ensures Transform(st, Transform(st, text)) == Transform(st, text)
  {
    var once := Transform(st, text);
    forall i | 0 <= i < |text| ensures Transform(st, once)[i] == once[i] {
      MapCharFixes(st, text[i]);
    }
  }

  /** A code point some character is styled into. */
  predicate IsTarget(st: Style, d: char) {
    InBlocks(st, d) || ReverseLookup(st.exceptions, d).Some?
  }

  /** Reads one styled character back. */
  function UnmapChar(st: Style, d: char): (c: char)
    requires WellFormed(st)
    ensures !IsTarget(st, d) ==> c == d
  {
    match ReverseLookup(st.exceptions, d)
    case Some(k) => k
    case None =>
      if InBlock(st.upperStart, 26, d) then ('A' as int + (d as int - st.upperStart)) as char
      else if InBlock(st.lowerStart, 26, d) then ('a' as int + (d as int - st.lowerStart)) as char
      else if st.digitStart.Some? && InBlock(st.digitStart.value, 10, d) then ('0' as int + (d as int - st.digitStart.value)) as char
      else d
  }

  /** Reads a styled text back, character by character. */
  function Untransform(st: Style, text: string): (r: string)
    requires WellFormed(st)
    ensures |r| == |text|
    ensures forall i :: 0 <= i < |text| ==> r[i] == UnmapChar(st, text[i])
  {
    if text == [] then [] else [UnmapChar(st, text[0])] + Untransform(st, text[1..])
  }

  lemma UnmapMapChar(st: Style, c: char)
    requires WellFormed(st) && Invertible(st) && !IsTarget(st, c)
    ensures UnmapChar(st, MapChar(st, c)) == c
  {
    match Lookup(st.exceptions, c)
    case Some(e) => UnmapOfException(st, c, e);
    case None => UnmapOfBlock(st, c);
  }

  /** An exception's replacement reads back as its key: replacements do not repeat. */
  lemma UnmapOfException(st: Style, c: char, e: char)
    requires WellFormed(st) && Invertible(st) && Lookup(st.exceptions, c) == Some(e)
    ensures UnmapChar(st, e) == c
  {
    var exc := st.exceptions;
    var i :| 0 <= i < |exc| && exc[i] == (c, e) && forall j :: 0 <= j < i ==> exc[j].0 != c;
    var k := ReverseLookup(exc, e);
    var j :| 0 <= j < |exc| && exc[j] == (k.value, e) && forall m :: 0 <= m < j ==> exc[m].1 != e;
    assert !(j < i) && !(i < j);
  }

  /** A character no exception covers reads back from its block: the blocks do not overlap and
      hold no exception's replacement. */
  lemma UnmapOfBlock(st: Style, c: char)
    requires WellFormed(st) && Invertible(st) && !IsTarget(st, c)
    requires Lookup(st.exceptions, c).None?
    ensures UnmapChar(st, MapChar(st, c)) == c
  {
    var d := MapChar(st, c);
    var exc := st.exceptions;
    assert ReverseLookup(exc, d).None? by {
      forall i | 0 <= i < |exc| ensures exc[i].1 != d {
        assert !InBlocks(st, exc[i].1);
      }
    }
  }

  /** Styling loses nothing: a text holding no styled code points reads back as itself. */
  lemma UntransformTransform(st: Style, text: string)
    requires WellFormed(st) && Invertible(st)
    requires forall i :: 0 <= i < |text| ==> !IsTarget(st, text[i])
    ensures Untransform(st, Transform(st, text)) == text
  {
    forall i | 0 <= i < |text| ensures Untransform(st, Transform(st, text))[i] == text[i] {
      UnmapMapChar(st, text[i]);
    }
  }

  // ---------------------------------------------------------------------------
  // The styles.

  const Bold := Style(0x1D400, 0x1D41A, Some(0x1D7CE), [])
  const Italic := Style(0x1D434, 0x1D44E, None, [('h', '\U{210E}')])
  const BoldItalic := Style(0x1D468, 0x1D482, None, [])
  const Script := Style(0x1D49C, 0x1D4B6, None, [
    ('B', '\U{212C}'), ('E', '\U{2130}'), ('F', '\U{2131}'), ('H', '\U{210B}'), ('I', '\U{2110}'),
    ('L', '\U{2112}'), ('M', '\U{2133}'), ('R', '\U{211B}'), ('e', '\U{212F}'), ('g', '\U{210A}'),
    ('o', '\U{2134}')])
  const DoubleStruck := Style(0x1D538, 0x1D552, Some(0x1D7D8), [
    ('C', '\U{2102}'), ('H', '\U{210D}'), ('N', '\U{2115}'), ('P', '\U{2119}'), ('Q', '\U{211A}'),
    ('R', '\U{211D}'), ('Z', '\U{2124}')])
  const Monospace := Style(0x1D670, 0x1D68A, Some(0x1D7F6), [])
  const Fraktur := Style(0x1D504, 0x1D51E, None, [
    ('C', '\U{212D}'), ('H', '\U{210C}'), ('I', '\U{2111}'), ('R', '\U{211C}'), ('Z', '\U{2128}')])
  const Fullwidth := Style(0xFF21, 0xFF41, Some(0xFF10), [])

  /** Circled as the source writes it: the digit block starts at U+2460 CIRCLED DIGIT ONE, so
      `d` lands on the circled number `d + 1`. */
  const CircledAsWritten := Style(0x24B6, 0x24D0, Some(0x2460), [('0', '\U{24EA}')])

  /** Circled with the digit block starting one before CIRCLED DIGIT ONE, so that `1` to `9`
      land on U+2460 to U+2468; `0` keeps its exception, CIRCLED DIGIT ZERO. */
  const Circled := Style(0x24B6, 0x24D0, Some(0x245F), [('0', '\U{24EA}')])

  /** `toSquared` as a `createTransform` style: both cases share the one block. */
  const Squared := Style(0x1F130, 0x1F130, None, [])

  lemma PlainStylesWellFormed()
    ensures WellFormed(Bold) && WellFormed(BoldItalic) && WellFormed(Monospace)
    ensures WellFormed(Fullwidth) && WellFormed(Squared)
    ensures Invertible(Bold) && Invertible(BoldItalic) && Invertible(Monospace) && Invertible(Fullwidth)
  {
  }

  lemma ItalicWellFormed()
    ensures WellFormed(Italic) && Invertible(Italic)
  {
  }

  lemma ScriptWellFormed()
    ensures WellFormed(Script) && Invertible(Script)
  {
    ScriptExceptionsOutside();
    ScriptExceptionsDistinct();
  }

  lemma ScriptExceptionsOutside()
    ensures forall i :: 0 <= i < |Script.exceptions| ==> !InBlocks(Script, Script.exceptions[i].1)
    ensures WellFormed(Script)
  {
  }

  lemma ScriptExceptionsDistinct()
    ensures forall i, j :: 0 <= i < j < |Script.exceptions| ==> Script.exceptions[i].1 != Script.exceptions[j].1
  {
  }

  lemma DoubleStruckWellFormed()
    ensures WellFormed(DoubleStruck) && Invertible(DoubleStruck)
  {
  }

  lemma FrakturWellFormed()
    ensures WellFormed(Fraktur) && Invertible(Fraktur)
  {
  }

  lemma CircledWellFormed()
    ensures WellFormed(CircledAsWritten) && Invertible(CircledAsWritten)
    ensures WellFormed(Circled) && Invertible(Circled)
  {
  }

  /** Every `createTransform` style of the source meets `WellFormed` and can be read back. */
  lemma StylesWellFormed()
    ensures WellFormed(Bold) && WellFormed(Italic) && WellFormed(BoldItalic) && WellFormed(Script)
    ensures WellFormed(DoubleStruck) && WellFormed(Monospace) && WellFormed(Fraktur)
    ensures WellFormed(Fullwidth) && WellFormed(Circled) && WellFormed(Squared)
    ensures Invertible(Bold) && Invertible(Italic) && Invertible(BoldItalic) && Invertible(Script)
    ensures Invertible(DoubleStruck) && Invertible(Monospace) && Invertible(Fraktur)
    ensures Invertible(Fullwidth) && Invertible(Circled)
  {
    PlainStylesWellFormed();
    ItalicWellFormed();
    ScriptWellFormed();
    DoubleStruckWellFormed();
    FrakturWellFormed();
    CircledWellFormed();
  }

  /** Italic has no code point for `h` in its block; the exception supplies U+210E PLANCK
      CONSTANT, while `g` comes from the block. */
  lemma ItalicH()
    ensures WellFormed(Italic)
    ensures MapChar(Italic, 'h') == '\U{210E}'
    ensures MapChar(Italic, 'g') == '\U{1D454}'
  {
  }

  /** As written, `1` becomes U+2461 CIRCLED DIGIT TWO and `9` becomes U+2469 CIRCLED NUMBER TEN. */
  lemma CircledDigitsAsWritten()
    ensures WellFormed(CircledAsWritten)
    ensures MapChar(CircledAsWritten, '1') == '\U{2461}'
    ensures MapChar(CircledAsWritten, '9') == '\U{2469}'
  {
  }

  /** With the corrected block, `0` to `9` become CIRCLED DIGIT ZERO to CIRCLED DIGIT NINE. */
  lemma CircledDigits(c: char)
    requires IsDigit(c)
    ensures WellFormed(Circled)
    ensures c == '0' ==> MapChar(Circled, c) == '\U{24EA}'
    ensures c != '0' ==> MapChar(Circled, c) as int == 0x2460 + (c as int - '1' as int)
  {
  }

  // ---------------------------------------------------------------------------
  // `toSquared`

  function SquaredChar(c: char): (d: char)
    ensures IsAsciiLetter(c) ==> d as int == 0x1F130 + (if IsAsciiUpper(c) then c as int - 'A' as int else c as int - 'a' as int)
    ensures !IsAsciiLetter(c) ==> d == c
  {
    if IsAsciiUpper(c) then (0x1F130 + (c as int - 'A' as int)) as char
    else if IsAsciiLower(c) then (0x1F130 + (c as int - 'a' as int)) as char
    else c
  }

  /** `toSquared(text)` */
  function ToSquared(text: string): (r: string)
    ensures |r| == |text|
    ensures forall i :: 0 <= i < |text| ==> r[i] == SquaredChar(text[i])
  {
    if text == [] then [] else [SquaredChar(text[0])] + ToSquared(text[1..])
  }

  /** `toSquared` is the transform whose upper- and lower-case blocks coincide. */
  lemma SquaredIsTransform(text: string)
    ensures WellFormed(Squared)
    ensures ToSquared(text) == Transform(Squared, text)
  {
  }

  /** ASCII case folding, the one difference `toSquared` ignores. */
  function FoldAscii(c: char): (d: char)
    ensures IsAsciiUpper(c) ==> IsAsciiLower(d) && d as int == c as int + 32
    ensures !IsAsciiUpper(c) ==> d == c
  {
    if IsAsciiUpper(c) then (c as int + 32) as char else c
  }

  predicate SameIgnoringCase(a: string, b: string) {
    |a| == |b| && forall i :: 0 <= i < |a| ==> FoldAscii(a[i]) == FoldAscii(b[i])
  }

  /** Texts that differ only in ASCII case square to the same text. */
  lemma SquaredIgnoresCase(a: string, b: string)
    requires SameIgnoringCase(a, b)
    ensures ToSquared(a) == ToSquared(b)
  {
    forall i | 0 <= i < |a| ensures SquaredChar(a[i]) == SquaredChar(b[i]) {
      SquaredCharIgnoresCase(a[i], b[i]);
    }
  }

  /** Letters that fold to the same lower case square to the same character. */
  lemma SquaredCharIgnoresCase(c: char, d: char)
    requires FoldAscii(c) == FoldAscii(d)
    ensures SquaredChar(c) == SquaredChar(d)
  {
    if IsAsciiUpper(c) {
      assert d == c || d as int == c as int + 32;
    } else if IsAsciiUpper(d) {
      assert c as int == d as int + 32;
    }
  }

  lemma SquaredIdempotent(text: string)
    ensures ToSquared(ToSquared(text)) == ToSquared(text)
  {
    SquaredIsTransform(text);
    SquaredIsTransform(ToSquared(text));
    TransformIdempotent(Squared, text);
  }

  // ---------------------------------------------------------------------------
  // `toSmallCaps`

  /** The a-z letter `c.toLowerCase()` is, if it is one: the ASCII letters, and U+212A KELVIN
      SIGN, whose lower case is `k`. */
  function LowerKey(c: char): (r: Option<char>)
    ensures r.Some? ==> IsAsciiLower(r.value)
    ensures IsAsciiLetter(c) ==> r == Some(FoldAscii(c))
  {
    if IsAsciiUpper(c) then Some((c as int + 32) as char)
    else if IsAsciiLower(c) then Some(c)
    else if c == '\U{212A}' then Some('k')
    else None
  }

  /** Which `smallCapsMap`: as the source writes it, or as its comments describe it. */
  datatype SmallCapsTable = AsWritten | Corrected

  /** `smallCapsMap[l]` for a lower-case letter. As written, the escape for `x` reads as
      U+1D43 followed by the digit `1`, and `s` gets U+1D22 LATIN LETTER SMALL CAPITAL Z, the
      code point `z` gets too. Corrected, `s` gets U+A731 LATIN LETTER SMALL CAPITAL S and `x`
      the single code point U+1D431. */
  function SmallCapsEntry(table: SmallCapsTable, l: char): (r: Option<string>)
    ensures r.Some? <==> IsAsciiLower(l)
  {
    match l
    case 'a' => Some("\U{1D00}")
    case 'b' => Some("\U{0299}")
    case 'c' => Some("\U{1D04}")
    case 'd' => Some("\U{1D05}")
    case 'e' => Some("\U{1D07}")
    case 'f' => Some("\U{A730}")
    case 'g' => Some("\U{0262}")
    case 'h' => Some("\U{029C}")
    case 'i' => Some("\U{026A}")
    case 'j' => Some("\U{1D0A}")
    case 'k' => Some("\U{1D0B}")
    case 'l' => Some("\U{029F}")
    case 'm' => Some("\U{1D0D}")
    case 'n' => Some("\U{0274}")
    case 'o' => Some("\U{1D0F}")
    case 'p' => Some("\U{1D18}")
    case 'q' => Some("\U{01EB}")
    case 'r' => Some("\U{0280}")
    case 's' => Some(if table == AsWritten then "\U{1D22}" else "\U{A731}")
    case 't' => Some("\U{1D1B}")
    case 'u' => Some("\U{1D1C}")
    case 'v' => Some("\U{1D20}")
    case 'w' => Some("\U{1D21}")
    case 'x' => Some(if table == AsWritten then "\U{1D43}1" else "\U{1D431}")
    case 'y' => Some("\U{028F}")
    case 'z' => Some("\U{1D22}")
    case _ => None
  }

  /** One character through `toSmallCaps`: a truthy entry for its lower case replaces it,
      anything else is kept. */
  function SmallCapsChar(table: SmallCapsTable, c: char): (r: string)
    ensures LowerKey(c).None? ==> r == [c]
    ensures LowerKey(c).Some? ==> r == SmallCapsEntry(table, LowerKey(c).value).value
  {
    match LowerKey(c)
    case None => [c]
    case Some(l) =>
      match SmallCapsEntry(table, l)
      case Some(v) => if v != "" then v else [c]
      case None => [c]
  }

  /** `toSmallCaps(text)` with the given table. */
  function SmallCapsWith(table: SmallCapsTable, text: string): string
  {
    if text == [] then [] else SmallCapsChar(table, text[0]) + SmallCapsWith(table, text[1..])
  }

  /** `toSmallCaps(text)` with the corrected table, the one the rest of the model uses. */
  function ToSmallCapsCorrected(text: string): string {
    SmallCapsWith(Corrected, text)
  }

  /** Corrected, every letter has one small capital, none of them a letter again, and no two
      letters share one. */
  lemma SmallCapsEntries(l: char)
    requires IsAsciiLower(l)
    ensures var v := SmallCapsEntry(Corrected, l).value;
      |v| == 1 && LowerKey(v[0]).None?
  {
  }

  lemma SmallCapsDistinct(l: char, m: char)
    requires IsAsciiLower(l) && IsAsciiLower(m) && l != m
    ensures SmallCapsEntry(Corrected, l) != SmallCapsEntry(Corrected, m)
  {
  }

  lemma SmallCapsCharOne(c: char)
    ensures |SmallCapsChar(Corrected, c)| == 1
    ensures LowerKey(SmallCapsChar(Corrected, c)[0]).None? || SmallCapsChar(Corrected, c) == [c]
  {
    if LowerKey(c).Some? {
      SmallCapsEntries(LowerKey(c).value);
    }
  }

  /** Corrected, `toSmallCaps` works character by character, one code point for one. */
  lemma {:induction false} SmallCapsPointwise(text: string)
    ensures |ToSmallCapsCorrected(text)| == |text|
    ensures forall i :: 0 <= i < |text| ==> ToSmallCapsCorrected(text)[i] == SmallCapsChar(Corrected, text[i])[0]
  {
    if text != [] {
      SmallCapsCharOne(text[0]);
      SmallCapsPointwise(text[1..]);
      forall i | 1 <= i < |text| ensures ToSmallCapsCorrected(text)[i] == SmallCapsChar(Corrected, text[i])[0] {
        assert text[1..][i - 1] == text[i];
      }
    }
  }

  /** Corrected, a second pass of `toSmallCaps` changes nothing. */
  lemma SmallCapsIdempotent(text: string)
    ensures ToSmallCapsCorrected(ToSmallCapsCorrected(text)) == ToSmallCapsCorrected(text)
  {
    var once := ToSmallCapsCorrected(text);
    SmallCapsPointwise(text);
    SmallCapsPointwise(once);
    forall i | 0 <= i < |once| ensures ToSmallCapsCorrected(once)[i] == once[i] {
      SmallCapsCharOne(text[i]);
      SmallCapsCharOne(once[i]);
    }
  }

  /** `toSmallCaps` looks only at the lower case: texts that differ in ASCII case give the same
      result. */
  lemma {:induction false} SmallCapsIgnoresCase(table: SmallCapsTable, a: string, b: string)
    requires SameIgnoringCase(a, b)
    ensures SmallCapsWith(table, a) == SmallCapsWith(table, b)
  {
    if a != [] {
      assert SmallCapsChar(table, a[0]) == SmallCapsChar(table, b[0]) by {
        assert FoldAscii(a[0]) == FoldAscii(b[0]);
      }
      SmallCapsIgnoresCase(table, a[1..], b[1..]);
    }
  }

  lemma SmallCapsCharInjective(l: char, m: char)
    requires IsAsciiLower(l) && IsAsciiLower(m)
    requires SmallCapsChar(Corrected, l)[0] == SmallCapsChar(Corrected, m)[0]
    ensures l == m
  {
    SmallCapsEntries(l);
    SmallCapsEntries(m);
    var v, u := SmallCapsEntry(Corrected, l).value, SmallCapsEntry(Corrected, m).value;
    assert v == [v[0]] && u == [u[0]];
    if l != m {
      SmallCapsDistinct(l, m);
    }
  }

  /** Corrected, distinct lower-case texts of letters stay distinct. */
  lemma SmallCapsInjective(a: string, b: string)
    requires forall i :: 0 <= i < |a| ==> IsAsciiLower(a[i])
    requires forall i :: 0 <= i < |b| ==> IsAsciiLower(b[i])
    requires ToSmallCapsCorrected(a) == ToSmallCapsCorrected(b)
    ensures a == b
  {
    SmallCapsPointwise(a);
    SmallCapsPointwise(b);
    forall i | 0 <= i < |a| ensures a[i] == b[i] {
      SmallCapsCharInjective(a[i], b[i]);
    }
  }

  /** As written, `x` becomes two code points, and `s` and `z` become the same one. */
  lemma SmallCapsAsWrittenFaults()
    ensures SmallCapsWith(AsWritten, "x") == ['\U{1D43}', '1']
    ensures SmallCapsWith(AsWritten, "s") == SmallCapsWith(AsWritten, "z")
  {
    assert "x"[1..] == [] && "s"[1..] == [] && "z"[1..] == [];
  }

  /** Corrected, the small capitals of `s` and `z` differ and `x` is one code point. */
  lemma SmallCapsCorrected()
    ensures ToSmallCapsCorrected("x") == ['\U{1D431}']
    ensures ToSmallCapsCorrected("s") != ToSmallCapsCorrected("z")
  {
    assert "x"[1..] == [] && "s"[1..] == [] && "z"[1..] == [];
    assert ToSmallCapsCorrected("s") == "\U{A731}";
    assert ToSmallCapsCorrected("z") == "\U{1D22}";
  }

  // ---------------------------------------------------------------------------
  // `TEXT_STYLES`, without Zalgo.

  datatype TextStyle =
    | BoldText | ItalicText | BoldItalicText | ScriptText | DoubleStruckText | MonospaceText
    | FrakturText | CircledText | SquaredText | FullwidthText | SmallCapsText

  /** A text none of whose characters lower-cases to a letter key of the table. */
  predicate NoLetterKeys(text: string) {
    forall i :: 0 <= i < |text| ==> LowerKey(text[i]).None?
  }

  /** With either table, no entry holds a character that `toSmallCaps` would replace again. */
  lemma SmallCapsEntryHasNoKeys(table: SmallCapsTable, l: char)
    requires IsAsciiLower(l)
    ensures NoLetterKeys(SmallCapsEntry(table, l).value)
  {
  }

  lemma SmallCapsCharHasNoKeys(table: SmallCapsTable, c: char)
    ensures NoLetterKeys(SmallCapsChar(table, c))
  {
    if LowerKey(c).Some? {
      SmallCapsEntryHasNoKeys(table, LowerKey(c).value);
    }
  }

  /** A text without letter keys passes `toSmallCaps` unchanged. */
  lemma {:induction false} SmallCapsKeepsKeyless(table: SmallCapsTable, text: string)
    requires NoLetterKeys(text)
    ensures SmallCapsWith(table, text) == text
  {
    if text != [] {
      assert NoLetterKeys(text[1..]) by {
        forall i | 0 <= i < |text[1..]| ensures LowerKey(text[1..][i]).None? {
          assert text[1..][i] == text[i + 1];
        }
      }
      SmallCapsKeepsKeyless(table, text[1..]);
    }
  }

  /** With either table, `toSmallCaps` leaves no character it would replace again. */
  lemma {:induction false} SmallCapsLeavesNoKeys(table: SmallCapsTable, text: string)
    ensures NoLetterKeys(SmallCapsWith(table, text))
  {
    if text != [] {
      var head, tail := SmallCapsChar(table, text[0]), SmallCapsWith(table, text[1..]);
      SmallCapsCharHasNoKeys(table, text[0]);
      SmallCapsLeavesNoKeys(table, text[1..]);
      forall i | 0 <= i < |head + tail| ensures LowerKey((head + tail)[i]).None? {
        if i < |head| {
          assert (head + tail)[i] == head[i];
        } else {
          assert (head + tail)[i] == tail[i - |head|];
        }
      }
    }
  }

  /** With either table, a second pass of `toSmallCaps` changes nothing. */
  lemma SmallCapsIdempotentWith(table: SmallCapsTable, text: string)
    ensures SmallCapsWith(table, SmallCapsWith(table, text)) == SmallCapsWith(table, text)
  {
    SmallCapsLeavesNoKeys(table, text);
    SmallCapsKeepsKeyless(table, SmallCapsWith(table, text));
  }

  /** The eleven styles with the tables as the source writes them (`AsWritten`) or corrected:
      the table picks both the circled digit block and the small capitals. */
  function ApplyWith(table: SmallCapsTable, s: TextStyle, text: string): (r: string)
    ensures s != SmallCapsText || table == Corrected ==> |r| == |text|
  {
    StylesWellFormed();
    CircledDigitsAsWritten();
    SmallCapsPointwise(text);
    match s
    case BoldText => Transform(Bold, text)
    case ItalicText => Transform(Italic, text)
    case BoldItalicText => Transform(BoldItalic, text)
    case ScriptText => Transform(Script, text)
    case DoubleStruckText => Transform(DoubleStruck, text)
    case MonospaceText => Transform(Monospace, text)
    case FrakturText => Transform(Fraktur, text)
    case CircledText => Transform(if table == AsWritten then CircledAsWritten else Circled, text)
    case SquaredText => ToSquared(text)
    case FullwidthText => Transform(Fullwidth, text)
    case SmallCapsText => SmallCapsWith(table, text)
  }

  /** The styles as the rest of the model uses them: with the corrected tables. */
  function ApplyCorrected(s: TextStyle, text: string): (r: string)
    ensures |r| == |text|
  {
    ApplyWith(Corrected, s, text)
  }

  /** As written, every style is idempotent, and every style but Small Caps keeps the number of
      code points; Small Caps turns `x` into two code points (`SmallCapsAsWrittenFaults`). */
  lemma AsWrittenStyles(s: TextStyle, text: string)
    ensures s != SmallCapsText ==> |ApplyWith(AsWritten, s, text)| == |text|
    ensures ApplyWith(AsWritten, s, ApplyWith(AsWritten, s, text)) == ApplyWith(AsWritten, s, text)
  {
    StylesWellFormed();
    CircledDigitsAsWritten();
    match s
    case BoldText => TransformIdempotent(Bold, text);
    case ItalicText => TransformIdempotent(Italic, text);
    case BoldItalicText => TransformIdempotent(BoldItalic, text);
    case ScriptText => TransformIdempotent(Script, text);
    case DoubleStruckText => TransformIdempotent(DoubleStruck, text);
    case MonospaceText => TransformIdempotent(Monospace, text);
    case FrakturText => TransformIdempotent(Fraktur, text);
    case CircledText => TransformIdempotent(CircledAsWritten, text);
    case SquaredText => SquaredIdempotent(text);
    case FullwidthText => TransformIdempotent(Fullwidth, text);
    case SmallCapsText => SmallCapsIdempotentWith(AsWritten, text);
  }

  /** With the corrected tables, every style keeps the number of code points and is idempotent. */
  lemma CorrectedStylesKeepLength(s: TextStyle, text: string)
    ensures |ApplyCorrected(s, text)| == |text|
    ensures ApplyCorrected(s, ApplyCorrected(s, text)) == ApplyCorrected(s, text)
  {
    StylesWellFormed();
    match s
    case BoldText => TransformIdempotent(Bold, text);
    case ItalicText => TransformIdempotent(Italic, text);
    case BoldItalicText => TransformIdempotent(BoldItalic, text);
    case ScriptText => TransformIdempotent(Script, text);
    case DoubleStruckText => TransformIdempotent(DoubleStruck, text);
    case MonospaceText => TransformIdempotent(Monospace, text);
    case FrakturText => TransformIdempotent(Fraktur, text);
    case CircledText => TransformIdempotent(Circled, text);
    case SquaredText => SquaredIdempotent(text);
    case FullwidthText => TransformIdempotent(Fullwidth, text);
    case SmallCapsText => SmallCapsPointwise(text); SmallCapsIdempotent(text);
  }
}

=== FILE: url_parser.dfy ===
/** `new URL(text).pathname` as the basic URL parser of the WHATWG URL Standard (section 4.4,
    "URL parsing") computes it for an absolute URL with no base: the input clean-up, the
    scheme, the authority of a special scheme, and the path with its dot segments and
    percent-encoding, serialized as section 4.5 does. */
module UrlParser {
  import opened Wrappers
  import opened JsText

  // ---------------------------------------------------------------------------
  // Input clean-up: strip C0 controls and spaces at both ends, drop tabs and newlines.

  /** A C0 control (U+0000 to U+001F) or U+0020 SPACE. */
  predicate IsC0OrSpace(c: char) { c <= ' ' }

  /** U+0009 TAB, U+000A LF or U+000D CR. */
  predicate IsTabOrNewline(c: char) { c == '\t' || c == '\n' || c == '\r' }

  predicate AllC0OrSpace(s: string) { forall i :: 0 <= i < |s| ==> IsC0OrSpace(s[i]) }

  /** Length of the longest suffix of `s` made of C0 controls and spaces. */
  function TrailingC0(s: string): (n: nat)
    ensures n <= |s|
    ensures forall k :: |s| - n <= k < |s| ==> IsC0OrSpace(s[k])
    ensures n == |s| || !IsC0OrSpace(s[|s| - n - 1])
  {
    if s == [] || !IsC0OrSpace(s[|s| - 1]) then 0 else 1 + TrailingC0(s[..|s| - 1])
  }

  /** `s` without its leading and trailing C0 controls and spaces. */
  function StripC0(s: string): (r: string)
    ensures r == [] || (!IsC0OrSpace(r[0]) && !IsC0OrSpace(r[|r| - 1]))
    ensures var i := Span(s, IsC0OrSpace);
      && i + |r| <= |s| && s[i..i + |r|] == r
      && AllC0OrSpace(s[..i]) && AllC0OrSpace(s[i + |r|..])
  {
    var rest := s[Span(s, IsC0OrSpace)..];
    rest[..|rest| - TrailingC0(rest)]
  }

  /** `s` with every tab and newline removed and the other characters kept in order. */
  function DropTabsAndNewlines(s: string): (r: string)
    ensures |r| <= |s|
    ensures forall i :: 0 <= i < |r| ==> !IsTabOrNewline(r[i])
    ensures (forall i :: 0 <= i < |s| ==> !IsTabOrNewline(s[i])) ==> r == s
    ensures |s| == 1 ==> r == (if IsTabOrNewline(s[0]) then [] else s)
  {
    if s == [] then []
    else if IsTabOrNewline(s[0]) then DropTabsAndNewlines(s[1..])
    else [s[0]] + DropTabsAndNewlines(s[1..])
  }

  /** The input the parser's state machine reads. */
  function Cleaned(text: string): string
  {
    DropTabsAndNewlines(StripC0(text))
  }

  // ---------------------------------------------------------------------------
  // Scheme.

  predicate IsSchemeChar(c: char) { IsAsciiAlnum(c) || c == '+' || c == '-' || c == '.' }

  function AsciiLowerChar(c: char): char
  {
    if IsAsciiUpper(c) then (c as int + 32) as char else c
  }

  /** The special schemes whose URLs carry an authority: every special scheme but `file`. */
  predicate IsSpecialNetScheme(s: string) { s == "ftp" || s == "http" || s == "https" || s == "ws" || s == "wss" }

  /** Where the `:` ending the scheme sits, when `s` opens with an ASCII letter, then scheme
      characters up to a `:`, and the scheme, lower-cased, is special and not `file`. */
  function SchemeEnd(s: string): (r: Option<nat>)
    ensures r.Some? ==> r.value < |s| && s[r.value] == ':'
  {
    if s == [] || !IsAsciiLetter(s[0]) then None
    else
      var n := Span(s, IsSchemeChar);
      if n == |s| || s[n] != ':' then None
      else if IsSpecialNetScheme(seq(n, i requires 0 <= i < n => AsciiLowerChar(s[i]))) then Some(n)
      else None
  }

  // ---------------------------------------------------------------------------
  // Authority: userinfo, host and port.

  /** `/` and, in a special URL, `\`. */
  predicate IsSlash(c: char) { c == '/' || c == '\\' }

  predicate IsAuthorityEnd(c: char) { IsSlash(c) || c == '?' || c == '#' }

  predicate IsForbiddenHostCodePoint(c: char) {
    || c == '\0' || c == '\t' || c == '\n' || c == '\r' || c == ' ' || c == '#' || c == '/'
    || c == ':' || c == '<' || c == '>' || c == '?' || c == '@' || c == '[' || c == '\\'
    || c == ']' || c == '^' || c == '|'
  }

  predicate IsForbiddenDomainCodePoint(c: char) {
    IsForbiddenHostCodePoint(c) || c < ' ' || c == '%' || c == '\U{7F}'
  }

  /** A host the model accepts: a non-empty domain without forbidden domain code points. */
  predicate ValidHost(h: string) {
    h != [] && forall i :: 0 <= i < |h| ==> !IsForbiddenDomainCodePoint(h[i])
  }

  /** A port: decimal digits, possibly none, whose value fits in 16 bits. */
  predicate ValidPort(p: string) { AllDigits(p) && (p == [] || DigitsValue(p) <= 65535) }

  /** Where the host starts: just past the last `@`, or at 0 when there is none. */
  function HostStart(a: string): (i: nat)
    ensures i <= |a|
    ensures forall k :: i <= k < |a| ==> a[k] != '@'
    ensures i == 0 || a[i - 1] == '@'
  {
    if a == [] || a[|a| - 1] == '@' then |a| else HostStart(a[..|a| - 1])
  }

  /** The authority parses: after the userinfo comes a valid host, then optionally `:` and a
      valid port. */
  predicate AuthorityOk(a: string) {
    var hp := a[HostStart(a)..];
    var h := Span(hp, c => c != ':');
    ValidHost(hp[..h]) && (h == |hp| || ValidPort(hp[h + 1..]))
  }

  // ---------------------------------------------------------------------------
  // Path: percent-encoding, dot segments and serialization.

  /** The path percent-encode set. */
  predicate InPathEncodeSet(c: char) {
    || c <= ' ' || c > '~'
    || c == '"' || c == '#' || c == '<' || c == '>' || c == '?' || c == '^' || c == '`'
    || c == '{' || c == '}'
  }

  /** A character a serialized path segment may hold: printable ASCII, never percent-encoded,
      and not a slash. */
  predicate IsPathChar(c: char) { !InPathEncodeSet(c) && !IsSlash(c) }

  predicate IsSingleDot(s: string) { s == "." || s == "%2e" || s == "%2E" }

  predicate IsDoubleDot(s: string) {
    || s == ".." || s == ".%2e" || s == ".%2E" || s == "%2e." || s == "%2E."
    || s == "%2e%2e" || s == "%2e%2E" || s == "%2E%2e" || s == "%2E%2E"
  }

  /** A segment that serializes as itself: path characters only, and not a dot segment. */
  predicate PlainSegment(s: string) {
    (forall i :: 0 <= i < |s| ==> IsPathChar(s[i])) && !IsSingleDot(s) && !IsDoubleDot(s)
  }

  predicate AllPlain(segs: seq<string>) { forall i :: 0 <= i < |segs| ==> PlainSegment(segs[i]) }

  function HexUpper(d: nat): (c: char)
    requires d < 16
    ensures IsPathChar(c)
  {
    if d < 10 then DigitChar(d) else ('A' as int + (d - 10)) as char
  }

  /** The UTF-8 encoding of one code point. */
  function Utf8(c: char): (bytes: seq<nat>)
    ensures 1 <= |bytes| <= 4
    ensures forall i :: 0 <= i < |bytes| ==> bytes[i] < 256
    ensures c as int < 0x80 <==> |bytes| == 1
  {
    var v := c as int;
    if v < 0x80 then [v]
    else if v < 0x800 then [0xC0 + v / 64, 0x80 + v % 64]
    else if v < 0x10000 then [0xE0 + v / 4096, 0x80 + (v / 64) % 64, 0x80 + v % 64]
    else [0xF0 + v / 262144, 0x80 + (v / 4096) % 64, 0x80 + (v / 64) % 64, 0x80 + v % 64]
  }

  /** `%XX` for each byte, with upper-case hexadecimal digits. */
  function PercentBytes(bytes: seq<nat>): (r: string)
    requires forall i :: 0 <= i < |bytes| ==> bytes[i] < 256
    ensures |r| == 3 * |bytes|
    ensures forall i :: 0 <= i < |r| ==> IsPathChar(r[i])
  {
    if bytes == [] then []
    else ['%', HexUpper(bytes[0] / 16), HexUpper(bytes[0] % 16)] + PercentBytes(bytes[1..])
  }

  /** The UTF-8 percent-encoding of `s` with the path percent-encode set. */
  function Encode(s: string): (r: string)
    ensures (forall i :: 0 <= i < |s| ==> !IsSlash(s[i])) ==> forall i :: 0 <= i < |r| ==> IsPathChar(r[i])
  {
    if s == [] then []
    else (if InPathEncodeSet(s[0]) then PercentBytes(Utf8(s[0])) else [s[0]]) + Encode(s[1..])
  }

  /** The path without its last segment. */
  function Shorten(path: seq<string>): (r: seq<string>)
    ensures |path| > 0 ==> path == r + [path[|path| - 1]]
  {
    if path == [] then path else path[..|path| - 1]
  }

  /** The path state run over the raw segments `segs`, which follow the segments already in
      `path`: each segment is encoded; `..` drops the last segment, `.` is skipped, and a dot
      segment that ends the input leaves an empty segment behind. */
  function Resolve(path: seq<string>, segs: seq<string>): (r: seq<string>)
    ensures |segs| >= 1 ==> |r| >= 1
    ensures AllPlain(path) && (forall i :: 0 <= i < |segs| ==> NoSlashIn(segs[i])) ==> AllPlain(r)
    decreases |segs|
  {
    if segs == [] then path
    else
      var b := Encode(segs[0]);
      var last := if |segs| == 1 then [""] else [];
      var next :=
        if IsDoubleDot(b) then Shorten(path) + last
        else if IsSingleDot(b) then path + last
        else path + [b];
      ResolveStepPlain(path, segs[0], last, next);
      Resolve(next, segs[1..])
  }

  /** One step of the path state keeps the path plain. */
  lemma ResolveStepPlain(path: seq<string>, seg: string, last: seq<string>, next: seq<string>)
    requires last == [] || last == [""]
    requires var b := Encode(seg);
      next == if IsDoubleDot(b) then Shorten(path) + last else if IsSingleDot(b) then path + last else path + [b]
    ensures AllPlain(path) && NoSlashIn(seg) ==> AllPlain(next)
  {
    if AllPlain(path) && NoSlashIn(seg) {
      assert PlainSegment("");
      if |path| > 0 { assert Shorten(path) == path[..|path| - 1]; }
    }
  }

  predicate NoSlashIn(s: string) { forall i :: 0 <= i < |s| ==> !IsSlash(s[i]) }

  /** `/` before each segment. */
  function Serialize(path: seq<string>): string
  {
    if path == [] then [] else "/" + path[0] + Serialize(path[1..])
  }

  /** `s` with every `\` read as `/`. */
  function Slashed(s: string): (r: string)
    ensures |r| == |s|
    ensures forall i :: 0 <= i < |r| ==> r[i] != '\\' && (r[i] == '/' <==> IsSlash(s[i]))
    ensures forall i :: 0 <= i < |r| ==> !IsSlash(s[i]) ==> r[i] == s[i]
  {
    if s == [] then [] else [if s[0] == '\\' then '/' else s[0]] + Slashed(s[1..])
  }

  predicate IsPathEnd(c: char) { c == '?' || c == '#' }

  /** What the path state reads from `rest`, the text after the host and port: past one
      leading slash, up to the query or the fragment. */
  function PathInput(rest: string): string
  {
    var p := if rest != [] && IsSlash(rest[0]) then rest[1..] else rest;
    p[..Span(p, c => !IsPathEnd(c))]
  }

  /** The path list the path state builds from `rest`, the text after the host and port. */
  function PathList(rest: string): (path: seq<string>)
    ensures |path| >= 1 && AllPlain(path)
  {
    var input := Slashed(PathInput(rest));
    SplitKeepsOut(input, '/', '\\');
    Resolve([], Split(input, '/'))
  }

  /** A character missing from a text is missing from every piece of its split. */
  lemma {:induction false} SplitKeepsOut(s: string, sep: char, c: char)
    requires c !in s
    ensures forall i :: 0 <= i < |Split(s, sep)| ==> c !in Split(s, sep)[i]
  {
    if s != [] {
      SplitKeepsOut(s[1..], sep, c);
    }
  }

  /** A serialized path of plain segments starts with `/` and holds only `/` and path
      characters. */
  lemma {:induction false} SerializeChars(path: seq<string>)
    requires AllPlain(path)
    ensures var r := Serialize(path);
      && (path != [] ==> |r| >= 1 && r[0] == '/')
      && forall i :: 0 <= i < |r| ==> r[i] == '/' || IsPathChar(r[i])
  {
    if path != [] {
      SerializeChars(path[1..]);
      var r := Serialize(path);
      assert r == "/" + path[0] + Serialize(path[1..]);
      assert PlainSegment(path[0]);
    }
  }

  // ---------------------------------------------------------------------------
  // The parser.

  /** The path list of the URL the cleaned input `s` parses to, or `None` when the parser
      fails. */
  function ParsePath(s: string): (r: Option<seq<string>>)
    ensures r.Some? ==> |r.value| >= 1 && AllPlain(r.value)
  {
    match SchemeEnd(s)
    case None => None
    case Some(n) =>
      var afterScheme := s[n + 1..];
      var t := afterScheme[Span(afterScheme, IsSlash)..];
      var e := Span(t, c => !IsAuthorityEnd(c));
      if AuthorityOk(t[..e]) then Some(PathList(t[e..])) else None
  }

  /** `new URL(text).pathname`, or `None` where the constructor throws: the path list
      serialized. */
  function Pathname(text: string): (r: Option<string>)
    ensures r.Some? ==> |r.value| >= 1 && r.value[0] == '/'
    ensures r.Some? ==> forall i :: 0 <= i < |r.value| ==> r.value[i] == '/' || IsPathChar(r.value[i])
  {
    match ParsePath(Cleaned(text))
    case None => None
    case Some(path) => SerializeChars(path); Some(Serialize(path))
  }

  // ---------------------------------------------------------------------------
  // Properties.

  /** Text with no C0 control or space anywhere is read as it is. */
  lemma CleanedOfClean(s: string)
    requires forall i :: 0 <= i < |s| ==> !IsC0OrSpace(s[i])
    ensures Cleaned(s) == s
  {
    assert Span(s, IsC0OrSpace) == 0 by {
      if s != [] { assert !IsC0OrSpace(s[0]); }
    }
    assert s[0..] == s;
    assert TrailingC0(s) == 0 by {
      if s != [] { assert !IsC0OrSpace(s[|s| - 1]); }
    }
    assert s[..|s|] == s;
  }

  /** `TrailingC0` is pinned down by its contract. */
  lemma TrailingC0Is(s: string, n: nat)
    requires n <= |s|
    requires forall k :: |s| - n <= k < |s| ==> IsC0OrSpace(s[k])
    requires n == |s| || !IsC0OrSpace(s[|s| - n - 1])
    ensures TrailingC0(s) == n
  {
  }

  /** Stripping a text padded with C0 controls and spaces on both sides gives back the core,
      when the core neither starts nor ends with one. */
  lemma StripC0Is(a: string, core: string, b: string)
    requires AllC0OrSpace(a) && AllC0OrSpace(b)
    requires core == [] || (!IsC0OrSpace(core[0]) && !IsC0OrSpace(core[|core| - 1]))
    ensures StripC0(a + core + b) == core
  {
    var s := a + core + b;
    if core == [] {
      assert s == a + b;
      SpanIs(s, IsC0OrSpace, |s|);
    } else {
      SpanIs(s, IsC0OrSpace, |a|);
      var rest := s[|a|..];
      assert rest == core + b;
      TrailingC0Is(rest, |b|);
      assert rest[..|rest| - |b|] == core;
    }
  }

  /** A text is its stripped core between two runs of C0 controls and spaces. */
  lemma StripC0Splits(text: string)
    ensures var core := StripC0(text); var i := Span(text, IsC0OrSpace);
      text == text[..i] + core + text[i + |core|..]
  {
  }

  /** C0 controls and spaces around the text change nothing: `new URL` strips them. */
  lemma PaddingIgnored(before: string, text: string, after: string)
    requires AllC0OrSpace(before) && AllC0OrSpace(after)
    ensures Pathname(before + text + after) == Pathname(text)
  {
    StripPadded(before, text, after);
  }

  /** Padding with C0 controls and spaces leaves the stripped text unchanged. */
  lemma StripPadded(before: string, text: string, after: string)
    requires AllC0OrSpace(before) && AllC0OrSpace(after)
    ensures StripC0(before + text + after) == StripC0(text)
  {
    var core := StripC0(text);
    var i := Span(text, IsC0OrSpace);
    var l, r := text[..i], text[i + |core|..];
    assert AllC0OrSpace(l) && AllC0OrSpace(r);
    assert before + text + after == (before + l) + core + (r + after) by {
      StripC0Splits(text);
      Regroup(before, l, core, r, after);
    }
    AllC0Concat(before, l);
    AllC0Concat(r, after);
    StripC0Is(before + l, core, r + after);
  }

  lemma AllC0Concat(a: string, b: string)
    requires AllC0OrSpace(a) && AllC0OrSpace(b)
    ensures AllC0OrSpace(a + b)
  {
  }

  lemma Regroup(a: string, b: string, c: string, d: string, e: string)
    ensures a + (b + c + d) + e == (a + b) + c + (d + e)
  {
  }

  /** Dropping tabs and newlines distributes over concatenation. */
  lemma {:induction false} DropConcat(a: string, b: string)
    ensures DropTabsAndNewlines(a + b) == DropTabsAndNewlines(a) + DropTabsAndNewlines(b)
  {
    if a != [] {
      var s := a + b;
      assert s != [] && s[0] == a[0] && s[1..] == a[1..] + b;
      DropConcat(a[1..], b);
      if IsTabOrNewline(a[0]) {
        assert DropTabsAndNewlines(s) == DropTabsAndNewlines(a[1..] + b);
      } else {
        assert DropTabsAndNewlines(s) == [a[0]] + DropTabsAndNewlines(a[1..] + b);
        assert DropTabsAndNewlines(a) == [a[0]] + DropTabsAndNewlines(a[1..]);
      }
    } else {
      assert a + b == b;
    }
  }

  /** A prefix without C0 controls or spaces survives the clean-up unchanged. */
  lemma CleanedKeepsPrefix(p: string, q: string)
    requires p != [] && forall i :: 0 <= i < |p| ==> !IsC0OrSpace(p[i])
    ensures |Cleaned(p + q)| >= |p| && Cleaned(p + q)[..|p|] == p
  {
    var s := p + q;
    SpanIs(s, IsC0OrSpace, 0);
    assert s[0..] == s;
    var n := TrailingC0(s);
    assert !IsC0OrSpace(s[|p| - 1]);
    var x := q[..|q| - n];
    assert StripC0(s) == p + x;
    DropConcat(p, x);
  }

  /** A text opening with `https:` has the special scheme `https`. */
  lemma SchemeOfHttps(c: string)
    requires |c| >= 6 && c[..6] == "https:"
    ensures SchemeEnd(c) == Some(5)
  {
    assert c[5] == ':';
    SpanIs(c, IsSchemeChar, 5);
    var lower := seq(5, i requires 0 <= i < 5 => AsciiLowerChar(c[i]));
    assert lower == "https";
  }

  /** How the parser splits `https:` text: after the scheme it skips every slash, takes the
      authority up to the next slash, `?` or `#`, fails unless the authority is valid, and
      reads the rest as the path. */
  lemma ParseOfParts(c: string, slashes: string, auth: string, rest: string)
    requires c == "https:" + slashes + auth + rest
    requires forall i :: 0 <= i < |slashes| ==> IsSlash(slashes[i])
    requires forall i :: 0 <= i < |auth| ==> !IsAuthorityEnd(auth[i])
    requires rest == [] || IsAuthorityEnd(rest[0])
    requires auth == [] && rest != [] ==> !IsSlash(rest[0])
    ensures ParsePath(c) == if AuthorityOk(auth) then Some(PathList(rest)) else None
  {
    SchemeOfHttps(c);
    var afterScheme := c[6..];
    assert afterScheme == slashes + (auth + rest);
    SpanIs(afterScheme, IsSlash, |slashes|);
    var t := afterScheme[|slashes|..];
    assert t == auth + rest;
    SpanIs(t, c => !IsAuthorityEnd(c), |auth|);
    assert t[..|auth|] == auth && t[|auth|..] == rest;
  }

  /** After `https:`, any run of slashes and a valid host without userinfo or port, the rest of
      the text is read as the path. */
  lemma PathOfParts(c: string, slashes: string, host: string, rest: string)
    requires c == "https:" + slashes + host + rest
    requires forall i :: 0 <= i < |slashes| ==> IsSlash(slashes[i])
    requires ValidHost(host)
    requires rest == [] || IsAuthorityEnd(rest[0])
    ensures ParsePath(c) == Some(PathList(rest))
  {
    ParseOfParts(c, slashes, host, rest);
    HostAlone(host);
  }

  /** Userinfo before the last `@` does not matter; what follows it must be a valid host and
      port. */
  lemma UserinfoIgnored(user: string, hp: string)
    requires '@' !in hp
    ensures AuthorityOk(user + "@" + hp) == AuthorityOk(hp)
  {
    var a := user + "@" + hp;
    assert a[|user|] == '@';
    assert forall k :: |user| + 1 <= k < |a| ==> a[k] == hp[k - |user| - 1];
    assert HostStart(a) == |user| + 1;
    assert a[|user| + 1..] == hp;
    assert HostStart(hp) == 0;
    assert hp[0..] == hp;
  }

  /** A host, `:` and a port: valid exactly when the host is valid and the port is decimal
      digits, possibly none, with a value of at most 65535. */
  lemma HostAndPort(host: string, port: string)
    requires '@' !in host && ':' !in host && '@' !in port
    ensures AuthorityOk(host + ":" + port) <==> ValidHost(host) && ValidPort(port)
  {
    var a := host + ":" + port;
    assert HostStart(a) == 0;
    assert a[0..] == a;
    assert a[|host|] == ':';
    assert forall k :: 0 <= k < |host| ==> a[k] == host[k];
    SpanIs(a, c => c != ':', |host|);
    assert a[..|host|] == host && a[|host| + 1..] == port;
  }

  /** An authority whose host opens with `%` or `[` is rejected. The model checks forbidden
      domain code points on the host as written, before any percent-decoding, and has no
      IPv6 parser, so `https://%41/x` and `https://[::1]/x` do not parse here. */
  lemma EncodedHostRejected(auth: string)
    requires auth != [] && (auth[0] == '%' || auth[0] == '[') && '@' !in auth
    ensures !AuthorityOk(auth)
  {
    assert HostStart(auth) == 0;
    assert auth[0..] == auth;
    var h := Span(auth, c => c != ':');
    assert h > 0 && auth[..h][0] == auth[0];
  }

  /** The same split for text the clean-up leaves alone: the pathname exists exactly when the
      authority is valid, and is then the serialized path of the rest. */
  lemma PathnameOfParts(text: string, slashes: string, auth: string, rest: string)
    requires text == "https:" + slashes + auth + rest
    requires forall i :: 0 <= i < |slashes| ==> IsSlash(slashes[i])
    requires forall i :: 0 <= i < |auth| ==> !IsAuthorityEnd(auth[i])
    requires rest == [] || IsAuthorityEnd(rest[0])
    requires auth == [] && rest != [] ==> !IsSlash(rest[0])
    requires !IsC0OrSpace(text[|text| - 1]) && forall i :: 0 <= i < |text| ==> !IsTabOrNewline(text[i])
    ensures Pathname(text) == if AuthorityOk(auth) then Some(Serialize(PathList(rest))) else None
  {
    CleanedOfTrimmed(text);
    ParseOfParts(text, slashes, auth, rest);
  }

  /** Text without tabs or newlines that neither starts nor ends with a C0 control or space is
      read as it is. */
  lemma CleanedOfTrimmed(s: string)
    requires s != [] && !IsC0OrSpace(s[0]) && !IsC0OrSpace(s[|s| - 1])
    requires forall i :: 0 <= i < |s| ==> !IsTabOrNewline(s[i])
    ensures Cleaned(s) == s
  {
    SpanIs(s, IsC0OrSpace, 0);
    assert s[0..] == s;
    TrailingC0Is(s, 0);
    assert s[..|s|] == s;
  }

  /** The path state on `..`: it drops the last segment, and at the end of the input leaves
      an empty segment behind. */
  lemma ParentSegment(path: seq<string>, segs: seq<string>)
    ensures segs != [] ==> Resolve(path, [".."] + segs) == Resolve(Shorten(path), segs)
    ensures Resolve(path, [".."]) == Shorten(path) + [""]
  {
    EncodeOfPathChars("..");
    assert IsDoubleDot("..");
    if segs != [] {
      var all := [".."] + segs;
      assert all[0] == ".." && |all| != 1 && all[1..] == segs;
      assert Shorten(path) + [] == Shorten(path);
    }
  }

  /** The path state on `.`: it is skipped, and at the end of the input leaves an empty
      segment behind. */
  lemma CurrentSegment(path: seq<string>, segs: seq<string>)
    ensures segs != [] ==> Resolve(path, ["."] + segs) == Resolve(path, segs)
    ensures Resolve(path, ["."]) == path + [""]
  {
    EncodeOfPathChars(".");
    assert !IsDoubleDot(".") && IsSingleDot(".");
    if segs != [] {
      var all := ["."] + segs;
      assert all[0] == "." && |all| != 1 && all[1..] == segs;
      assert path + [] == path;
    }
  }

  /** A valid host with no userinfo and no port is a valid authority. */
  lemma HostAlone(host: string)
    requires ValidHost(host)
    ensures AuthorityOk(host)
  {
    assert HostStart(host) == 0;
    assert host[0..] == host;
    SpanIs(host, c => c != ':', |host|);
    assert host[..|host|] == host;
  }

  /** Plain segments pass the encoder unchanged. */
  lemma {:induction false} EncodeOfPathChars(s: string)
    requires forall i :: 0 <= i < |s| ==> IsPathChar(s[i])
    ensures Encode(s) == s
  {
    if s != [] {
      EncodeOfPathChars(s[1..]);
    }
  }

  /** Plain segments resolve to themselves, after the ones already in the path. */
  lemma {:induction false} ResolvePlain(path: seq<string>, segs: seq<string>)
    requires AllPlain(segs)
    ensures Resolve(path, segs) == path + segs
    decreases |segs|
  {
    if segs != [] {
      assert PlainSegment(segs[0]);
      EncodeOfPathChars(segs[0]);
      ResolvePlain(path + [segs[0]], segs[1..]);
      assert path + [segs[0]] + segs[1..] == path + segs;
    }
  }

  /** Serializing puts `/` before the joined segments. */
  lemma {:induction false} SerializeIsJoin(segs: seq<string>)
    requires |segs| >= 1
    ensures Serialize(segs) == "/" + Join(segs, '/')
  {
    if |segs| > 1 {
      SerializeIsJoin(segs[1..]);
    }
  }

  /** Serializing plain segments and reading the result back as a path gives the same path. */
  lemma PathListOfPlain(segs: seq<string>)
    requires |segs| >= 1 && AllPlain(segs)
    ensures PathList(Serialize(segs)) == segs
  {
    var j := Join(segs, '/');
    SerializeIsJoin(segs);
    SerializeChars(segs);
    var rest := Serialize(segs);
    assert rest[1..] == j;
    SpanIs(j, c => !IsPathEnd(c), |j|);
    assert j[..|j|] == j;
    assert PathInput(rest) == j;
    assert Slashed(j) == j;
    SplitOfJoin(segs, '/');
    ResolvePlain([], segs);
    assert [] + segs == segs;
  }

  /** `https:`, slashes, a valid host and a serialized path hold no C0 control or space. */
  lemma UrlTextIsClean(slashes: string, host: string, path: string)
    requires forall i :: 0 <= i < |slashes| ==> IsSlash(slashes[i])
    requires ValidHost(host)
    requires forall i :: 0 <= i < |path| ==> path[i] == '/' || IsPathChar(path[i])
    ensures forall i :: 0 <= i < |"https:" + slashes + host + path| ==> !IsC0OrSpace(("https:" + slashes + host + path)[i])
  {
    var text := "https:" + slashes + host + path;
    forall i | 0 <= i < |text| ensures !IsC0OrSpace(text[i]) {
      if i < 6 {
        assert text[i] == "https:"[i];
      } else if i < 6 + |slashes| {
        assert text[i] == slashes[i - 6];
      } else if i < 6 + |slashes| + |host| {
        assert text[i] == host[i - 6 - |slashes|];
      } else {
        assert text[i] == path[i - 6 - |slashes| - |host|];
      }
    }
  }

  /** `https:`, any run of slashes, a valid host and a path of plain segments: the pathname is
      that path. */
  lemma PathnameOfUrl(slashes: string, host: string, segs: seq<string>)
    requires forall i :: 0 <= i < |slashes| ==> IsSlash(slashes[i])
    requires ValidHost(host)
    requires |segs| >= 1 && AllPlain(segs)
    ensures Pathname("https:" + slashes + host + Serialize(segs)) == Some(Serialize(segs))
  {
    var path := Serialize(segs);
    var text := "https:" + slashes + host + path;
    SerializeChars(segs);
    UrlTextIsClean(slashes, host, path);
    CleanedOfClean(text);
    PathOfParts(text, slashes, host, path);
    PathListOfPlain(segs);
  }

  /** A host followed directly by a query string gives the path `/`. */
  lemma PathnameOfQueryOnly(host: string, query: string)
    requires ValidHost(host)
    ensures Pathname("https://" + host + ("?" + query)) == Some("/")
  {
    var x := CleanedQueryOnly(host, query);
    QueryOnlyPath(host, x);
    PathnameOfPath("https://" + host + ("?" + query), [""]);
    SerializeOneEmpty();
  }

  lemma SerializeOneEmpty()
    ensures Serialize([""]) == "/"
  {
    assert Serialize([""]) == "/" + "" + Serialize([]);
  }

  lemma QueryOnlyPath(host: string, x: string)
    requires ValidHost(host)
    ensures ParsePath("https:" + "//" + host + ("?" + x)) == Some([""])
  {
    TwoSlashes();
    PathOfParts("https:" + "//" + host + ("?" + x), "//", host, "?" + x);
    EmptyPathList(x);
  }

  /** The pathname serializes the path list the parser builds. */
  lemma PathnameOfPath(text: string, path: seq<string>)
    requires ParsePath(Cleaned(text)) == Some(path)
    ensures Pathname(text) == Some(Serialize(path))
  {
  }

  /** The clean-up keeps `https://`, the host and the `?` of such a URL. */
  lemma CleanedQueryOnly(host: string, query: string) returns (x: string)
    requires ValidHost(host)
    ensures Cleaned("https://" + host + ("?" + query)) == "https:" + "//" + host + ("?" + x)
  {
    var p := "https://" + host + "?";
    assert "https://" + host + ("?" + query) == p + query;
    forall i | 0 <= i < |p| ensures !IsC0OrSpace(p[i]) {
      if i < 8 { assert p[i] == "https://"[i]; }
      else if i < 8 + |host| { assert p[i] == host[i - 8]; }
    }
    CleanedKeepsPrefix(p, query);
    var c := Cleaned(p + query);
    x := c[|p|..];
    assert c == p + x;
    assert p + x == "https:" + "//" + host + ("?" + x);
  }

  /** A query string right after the host leaves the one empty segment. */
  lemma EmptyPathList(x: string)
    ensures PathList("?" + x) == [""]
  {
    SpanIs("?" + x, c => !IsPathEnd(c), 0);
    assert PathInput("?" + x) == "";
    assert Split(Slashed(""), '/') == [""];
    assert Encode("") == "";
    assert Resolve([], [""]) == Resolve([""], []);
  }

  /** The pathname is a fixed point: put behind `https://` and any valid host it parses to
      itself. */
  lemma PathnameIsFixedPoint(text: string, host: string)
    requires Pathname(text).Some? && ValidHost(host)
    ensures Pathname("https://" + host + Pathname(text).value) == Pathname(text)
  {
    var path := PathnameIsSerialized(text);
    PathnameOfHttpsUrl(host, path);
  }

  /** `https://`, a valid host and a path of plain segments: the pathname is that path. */
  lemma PathnameOfHttpsUrl(host: string, segs: seq<string>)
    requires ValidHost(host)
    requires |segs| >= 1 && AllPlain(segs)
    ensures Pathname("https://" + host + Serialize(segs)) == Some(Serialize(segs))
  {
    TwoSlashes();
    PathnameOfUrl("//", host, segs);
    HttpsSlashes(host, Serialize(segs));
  }

  lemma TwoSlashes()
    ensures forall i :: 0 <= i < |"//"| ==> IsSlash("//"[i])
  {
  }

  lemma HttpsSlashes(host: string, rest: string)
    ensures "https:" + "//" + host + rest == "https://" + host + rest
  {
    assert "https:" + "//" == "https://";
  }

  /** A pathname is the serialization of a path list of plain segments. */
  lemma PathnameIsSerialized(text: string) returns (path: seq<string>)
    requires Pathname(text).Some?
    ensures |path| >= 1 && AllPlain(path) && Pathname(text) == Some(Serialize(path))
  {
    path := ParsePath(Cleaned(text)).value;
  }

  /** Percent-encoding a segment twice encodes it once: `%` is not in the path set. */
  lemma EncodeIdempotent(s: string)
    requires NoSlashIn(s)
    ensures Encode(Encode(s)) == Encode(s)
  {
    EncodeOfPathChars(Encode(s));
  }

  /** A segment without `.` or `%` is no dot segment. */
  lemma NoDotSegment(s: string)
    requires forall i :: 0 <= i < |s| ==> s[i] != '.' && s[i] != '%'
    ensures !IsSingleDot(s) && !IsDoubleDot(s)
  {
    if s != [] {
      assert s[0] != '.' && s[0] != '%';
    }
  }

  /** The pieces of a serialized path split on `/` hold only path characters. */
  lemma {:induction false} SplitPathChars(s: string)
    requires forall i :: 0 <= i < |s| ==> s[i] == '/' || IsPathChar(s[i])
    ensures forall i, k :: 0 <= i < |Split(s, '/')| && 0 <= k < |Split(s, '/')[i]| ==> IsPathChar(Split(s, '/')[i][k])
  {
    if s != [] {
      SplitPathChars(s[1..]);
    }
  }
}

=== FILE: wrappers.dfy ===
/** Failure-carrying datatypes shared by every module of the model. `None` plays the part of
    JavaScript's `undefined`/`null`; `Err` carries the message of a thrown `Error`. */
module Wrappers {

  datatype Option<+T> = None | Some(value: T)

  datatype Result<+T, +E> = Ok(value: T) | Err(error: E)
}
